=== FILE: README.md ===
# NORM query core, modelled in Dafny

NORM is a small Qt object-relational mapper. A model class is described once
by a *meta model*: its table, its fields and its foreign keys. The model
classes are kept in a global *registry*. Conditions are built as `NOrmWhere`
trees. A `NOrmQuerySet<T>` holds one condition together with an ordering, a
row window and a cache of fetched rows. The *compiler* turns a query set into
SQL for one of several back ends: it resolves `a__b__field` paths to aliased
columns and joins, and it writes the ordering and paging clauses.

The model follows those parts of the library, one module each:

| module | file | library part |
|---|---|---|
| `Where` | where.dfy | the `NOrmWhere` tree, `!`, `&&`, `||`, isAll/isNone, and what a condition means for one row |
| `WhereSql` | where_sql.dfy | `NOrmWhere::sql` per dialect, `bindValues`, `escapeLike`, and the LIKE pattern language |
| `Dialects` | dialects.dfy | database type detection; the driver's identifier quoting as a parameter |
| `MetaModel` | meta_model.dfy | `NOrmMetaField` and the `NOrmMetaModel` constructor, `localField`, `toDatabase`, the string-list storage of `load`, and the value maps of `save` |
| `Registry` | registry.dfy | `registerModel`, `metaModel` lookup, the topological sort of the models, `createTables` and `dropTables` |
| `Schema` | schema.dfy | `createTableSql`: column types, attributes, foreign keys, constraints and indexes; also `createTable` and `dropTable` |
| `Compiler` | compiler.dfy | `NOrmCompiler`: `referenceModel`, `databaseColumn`, `fieldNames`, `fromSql`, `orderLimitSql` and `resolve` |
| `QuerySets` | query_set.dfy | `NOrmQuerySet<T>` and `NOrmQuerySetPrivate`: the builders, fetch, delete, update, insert, count, values, valuesList, and the iterator |
| `Statements` | statements.dfy | the statements `selectQuery`, `deleteQuery`, `updateQuery`, `insertQuery` and `aggregateQuery` |

`Strings`, `OrderedMaps`, `Values` and `Options` stand in for the Qt types the
library uses:

- `QString` is `seq<char>`. Split, join, replace and number formatting are
  written out.
- `QMap` is a key-sorted association list. Iteration follows key order.
- `QVariant` is a small value datatype. Its conversions are functions.
- Null pointers and invalid variants become `Option`.

The database is never called. Anything it would answer comes in as a
parameter:

- whether a statement succeeds;
- the rows a select returns;
- the number of rows affected;
- the result of each ODBC probe query.

The operations therefore return what the library would compute. They also
say whether a statement was issued.

Two facts hold throughout the model:

- **Placeholders stay in step with bound values.** Every statement carries
  exactly one `?` per bound value (`Statements.SelectBalanced` and its
  siblings). Substituting the values' texts gives the statement that the
  condition means (`WhereSql.LockStep`).
- **Compiler steps compose.** Each compiler operation is a `Step`: it may add
  paths and never rebinds one. It keeps the alias invariant: path *i* is
  `T<i>`, and no two paths share an alias.

## Model

| member | source | states |
|---|---|---|
| Where.Compare | NORM/src/NOrmWhere.cpp:35-41 | a comparison is a positive leaf that keeps the key, operation and value it was given |
| Where.Complement | NORM/src/NOrmWhere.cpp:60-105 | `!` on a comparison with a complement (=/!=, </>=, >/<=, the case-insensitive (in)equality pair) replaces it by a different operation that is complemented in turn |
| Where.ComplementInvolutive | NORM/src/NOrmWhere.cpp:60-105 | complementing twice gives the original operation back |
| Where.Not | NORM/src/NOrmWhere.cpp:53-112 | negation swaps match-all and match-none, keeps leaf keys, and on a combined node only flips its negation flag |
| Where.EvalNot | NORM/src/NOrmWhere.cpp:53-112 | in two-valued logic, a row satisfies `!t` exactly when it does not satisfy `t`, for every condition |
| Where.NotNot | NORM/src/NOrmWhere.cpp:53-112 | `!!t` is `t` (an IS NULL leaf only has its expected nullness normalised to a boolean), and it means the same |
| Where.EvalTrivial | NORM/src/NOrmWhere.cpp:174-182 | the condition isAll holds for every row; the condition isNone holds for no row |
| Where.And | NORM/src/NOrmWhere.cpp:114-131 | corrected `&&`: the result is match-all exactly when both sides are, and match-none exactly when either side is |
| Where.Or | NORM/src/NOrmWhere.cpp:133-150 | corrected `\|\|`: the result is match-none exactly when both sides are, and match-all exactly when either side is |
| Where.AndAsWritten | NORM/src/NOrmWhere.cpp:114-131 | the library's `&&` treats match-all and match-none the same way, and it is the corrected `&&` unless its left side is a negated node |
| Where.OrAsWritten | NORM/src/NOrmWhere.cpp:133-150 | the library's `\|\|` treats match-all and match-none the same way, and it is the corrected `\|\|` unless its left side is a negated node |
| Where.Eval | NORM/src/NOrmWhere.cpp:174-182 | what a condition means for one row, in two-valued logic: every row meets an isAll condition and no row meets an isNone one |
| Where.AndAbsorbs | NORM/src/NOrmWhere.cpp:114-131 | match-all vanishes from `&&` and match-none dominates; the corrected `&&` differs from the library's only when the left side is a negated node |
| Where.OrAbsorbs | NORM/src/NOrmWhere.cpp:133-150 | match-none vanishes from `||` and match-all dominates; the corrected `||` differs from the library's only when the left side is a negated node |
| Where.AndFlattens | NORM/src/NOrmWhere.cpp:121-130 | corrected: `&&` onto a non-negated AND node appends to its children; otherwise it builds a two-child AND node |
| Where.EvalAnd | NORM/src/NOrmWhere.cpp:114-131 | a row satisfies `a && b` exactly when it satisfies both, for all conditions |
| Where.EvalOr | NORM/src/NOrmWhere.cpp:133-150 | a row satisfies `a \|\| b` exactly when it satisfies either, for all conditions |
| Where.AndAsWrittenIsNotConjunction | NORM/src/NOrmWhere.cpp:121-125 | as written, `!(x && y) && z` becomes `!(x && y && z)`: it keeps a row that satisfies none of x, y, z |
| Where.OrAsWrittenIsNotDisjunction | NORM/src/NOrmWhere.cpp:140-144 | as written, `!(x \|\| y) \|\| z` becomes `!(x \|\| y \|\| z)`: it rejects a row that satisfies z |
| WhereSql.EscapeChar | NORM/src/NOrmWhere.cpp:8-14 | every escaped character is read by LIKE as that character, literally |
| WhereSql.ReplacesEscapeEach | NORM/src/NOrmWhere.cpp:8-14 | corrected: the three whole-text replacements, backslash first, equal escaping character by character |
| WhereSql.ReadEscaped | NORM/src/NOrmWhere.cpp:8-14 | an escaped text followed by more pattern reads as the text's characters, literally, then the rest |
| WhereSql.EscapeLike | NORM/src/NOrmWhere.cpp:8-14 | corrected escapeLike: it escapes character by character, and LIKE reads the result as exactly its input text, whatever characters it holds |
| WhereSql.EscapeLikeAsWritten | NORM/src/NOrmWhere.cpp:8-14 | the library's escapeLike is the corrected escaping on every text without a backslash |
| WhereSql.EscapeLikeAsWrittenMisreads | NORM/src/NOrmWhere.cpp:8-14 | as written, the text `\_` becomes `\\_`, which LIKE reads as a literal backslash and then a one-character wildcard |
| WhereSql.LikePattern | NORM/src/NOrmWhere.cpp:160-165 | the value bindValues binds for the LIKE family, built with escapeLike as written, is the corrected pattern whenever the text has no backslash |
| WhereSql.StartsWithPattern | NORM/src/NOrmWhere.cpp:160-161 | corrected, on dialects where a backslash escapes (the library binds escapeLike as written): the pattern for startsWith means the text, literally, followed by anything |
| WhereSql.EndsWithPattern | NORM/src/NOrmWhere.cpp:162-163 | corrected, on dialects where a backslash escapes (the library binds escapeLike as written): the pattern for endsWith means anything, then the text literally |
| WhereSql.ContainsPattern | NORM/src/NOrmWhere.cpp:164-165 | corrected, on dialects where a backslash escapes (the library binds escapeLike as written): the pattern for contains means the text, literally, between two runs of anything |
| WhereSql.UnescapedDialectMisreads | NORM/src/NOrmWhere.cpp:257-264 | the default and DaMeng renderers write LIKE with no ESCAPE clause, so the library's pattern for startsWith("%") is read as a backslash and two runs of anything |
| WhereSql.Sql | NORM/src/NOrmWhere.cpp:278-280 | on every dialect match-all renders to nothing and match-none to `1 != 0` |
| WhereSql.Bind | NORM/src/NOrmWhere.cpp:152-172 | match-all and match-none bind no value |
| WhereSql.BindNot | NORM/src/NOrmWhere.cpp:152-172 | negating a condition leaves the values it binds unchanged |
| WhereSql.HolesLockStep | NORM/src/NOrmWhere.cpp:245-254 | an IN list has one `?` per list item; substituting the items writes them in order |
| WhereSql.FragmentLockStep | NORM/src/NOrmWhere.cpp:230-277 | a leaf's SQL has as many `?` as the leaf binds values, and filling them gives the leaf's meaning |
| WhereSql.LeafLockStep | NORM/src/NOrmWhere.cpp:152-172 | a leaf's SQL and its bound values (bindValues) correspond one to one |
| WhereSql.LockStep | NORM/src/NOrmWhere.cpp:152-172 | for every condition whose columns hold no `?`, `sql()` has one `?` per value `bindValues` binds, and substituting the values gives the condition's meaning |
| WhereSql.WrapLockStep | NORM/src/NOrmWhere.cpp:283-289 | a child, parenthesised when it has children, keeps its placeholders in step with its values |
| WhereSql.AtomsLockStep | NORM/src/NOrmWhere.cpp:278-299 | the AND/OR join of the children keeps their placeholders in step with the children's values, left to right |
| WhereSql.DialectsAgreeWithoutLike | NORM/src/NOrmWhere.cpp:184-206 | a condition without LIKE-family comparisons renders the same on every dialect |
| WhereSql.LikeForms | NORM/src/NOrmWhere.cpp:230-454 | the case-sensitive LIKE comparisons: `LIKE BINARY ?` on MySQL, `LIKE ? ESCAPE '\'` on SQLite, plain `LIKE ?` elsewhere, NOT LIKE when negated |
| WhereSql.InsensitiveForms | NORM/src/NOrmWhere.cpp:230-529 | the case-insensitive comparisons are LIKE on upper-cased operands on PostgreSQL, LIKE with ESCAPE on SQLite and plain LIKE elsewhere; INotEquals reads the negation flag the other way round |
| Dialects.DriverDialect | NORM/src/NOrm.cpp:60-96 | the QMYSQL, QSQLITE and QPSQL drivers fix the dialect; any driver but these and QODBC is unknown; QODBC answers SQLite when the SQLite probe succeeds and otherwise one of the probed dialects |
| Dialects.OdbcDialect | NORM/src/NOrm.cpp:69-94 | under ODBC, SQL Server and DaMeng are recognised only from their version texts; MySQL is chosen exactly when the SQLite and SQL Server probes fail and `version()` answers without PostgreSQL in it |
| MetaModel.Assignments | NORM/src/NOrmMetaModel.cpp:189-196 | only `key=value` tokens are kept, with lower-cased keys |
| MetaModel.ParseOptions | NORM/src/NOrmMetaModel.cpp:185-198 | the option map is key-sorted |
| MetaModel.AssignmentsAppend | NORM/src/NOrmMetaModel.cpp:189-196 | the tokens are parsed independently of each other |
| MetaModel.LastAssignmentIsLastPair | NORM/src/NOrmMetaModel.cpp:189-196 | the last pair for a key is the last well-formed token assigning it |
| MetaModel.ParseOptionsLastWins | NORM/src/NOrmMetaModel.cpp:185-198 | looking up an option yields the value of the last token that assigns it |
| MetaModel.ParseOptionsKeysLower | NORM/src/NOrmMetaModel.cpp:192 | every stored option key is lower case |
| MetaModel.StringToBool | NORM/src/NOrmMetaModel.cpp:200-203 | "1" and "true" in any case are true, and every text accepted is also true as a variant; the empty text, "0", "false" and "yes" are false |
| MetaModel.ReadFieldOptions | NORM/src/NOrmMetaModel.cpp:262-311 | without annotation options a field gets the defaults; each flag is set only when its option is given, and the maximum length is 0 unless given |
| MetaModel.Annotate | NORM/src/NOrmMetaModel.cpp:262-311 | each property is paired with the options its own annotation gives it |
| MetaModel.DeclaredFields | NORM/src/NOrmMetaModel.cpp:255-354 | no more fields than properties: a property gives at most one field |
| MetaModel.Build | NORM/src/NOrmMetaModel.cpp:228-368 | a descriptor built from a class is valid, keeps the class name, has a primary key and a key-sorted foreign-key map |
| MetaModel.Assemble | NORM/src/NOrmMetaModel.cpp:255-366 | the descriptor of the given properties has the given table and a primary key |
| MetaModel.BuildIsAssemble | NORM/src/NOrmMetaModel.cpp:228-368 | building a class assembles its annotated properties under its table and unique-together list |
| MetaModel.DeclaredKeyHasField | NORM/src/NOrmMetaModel.cpp:342-344 | a declared primary key names a field of the descriptor |
| MetaModel.BuildHasPrimaryKey | NORM/src/NOrmMetaModel.cpp:357-366 | the primary key is a field; without a declared key, the auto-increment `id` field comes first and is the key |
| MetaModel.AssembleHasPrimaryKey | NORM/src/NOrmMetaModel.cpp:357-366 | the same for any property list |
| MetaModel.DeclaredFieldsWellFlagged | NORM/src/NOrmMetaModel.cpp:318-353 | each field carries at most one of unique, blank and index, unless it is a foreign key; only a primary key auto-increments; a foreign key is an indexed integer `<name>_id` |
| MetaModel.AssembleWellFlagged | NORM/src/NOrmMetaModel.cpp:318-366 | the implicit `id` field keeps those flags too |
| MetaModel.BuildWellFlagged | NORM/src/NOrmMetaModel.cpp:228-368 | every field of a built descriptor is well flagged |
| MetaModel.ForeignPairHasField | NORM/src/NOrmMetaModel.cpp:318-333 | each foreign key property yields a field `<name>_id` that refers to its target |
| MetaModel.ForeignEntryHasField | NORM/src/NOrmMetaModel.cpp:318-333 | each entry of the foreign-key map comes with its `<name>_id` field, even when a later property replaced the entry |
| MetaModel.BuildForeignFields | NORM/src/NOrmMetaModel.cpp:318-333 | each entry `prop -> Target` of a built descriptor comes with a field `prop_id` that refers to Target |
| MetaModel.AssembleForeignFields | NORM/src/NOrmMetaModel.cpp:318-333 | the same for any property list |
| MetaModel.FindField | NORM/src/NOrmMetaModel.cpp:703-707 | the first field of that name when there is one, otherwise the empty (invalid) field |
| MetaModel.LocalField | NORM/src/NOrmMetaModel.cpp:700-708 | a valid field found by localField is a field of the model |
| MetaModel.BuildPrimaryKeyLookup | NORM/src/NOrmMetaModel.cpp:700-708 | `localField("pk")` of a built descriptor is its primary-key field |
| MetaModel.ToDatabase | NORM/src/NOrmMetaModel.cpp:162-183 | a non-nullable text is never stored as null; null is stored only for null or for a zero nullable foreign key; a text list is stored joined with ','; anything else is stored unchanged |
| MetaModel.StringListRoundTrip | NORM/src/NOrmMetaModel.cpp:645-654 | a non-empty text list without ',' in its items is loaded back as itself |
| MetaModel.EmptyStringListReloads | NORM/src/NOrmMetaModel.cpp:645-654 | the empty text list is loaded back as a list of one empty text |
| MetaModel.StoredTextRoundTrip | NORM/src/NOrmMetaModel.cpp:168-179 | storing what was loaded from a text gives the text back |
| MetaModel.LoadStringList | NORM/src/NOrmMetaModel.cpp:645-654 | a stored list with a first text loads as that text split at ',', which joins back to it; an empty stored list loads as the empty text |
| MetaModel.FieldPairs | NORM/src/NOrmMetaModel.cpp:1024-1029 | the pairs are exactly the kept fields, each with its value as toDatabase stores it |
| MetaModel.FieldMap | NORM/src/NOrmMetaModel.cpp:1024-1029 | the value map of save is key-sorted |
| MetaModel.FieldMapHasKey | NORM/src/NOrmMetaModel.cpp:1024-1029 | the map has a key exactly for each kept field name |
| MetaModel.FieldMapValue | NORM/src/NOrmMetaModel.cpp:1024-1029 | each value in the map is the stored form of a kept field's value |
| MetaModel.UpdateMap | NORM/src/NOrmMetaModel.cpp:1024-1029 | the UPDATE map is key-sorted |
| MetaModel.InsertMap | NORM/src/NOrmMetaModel.cpp:1040-1045 | the INSERT map is key-sorted |
| MetaModel.UpdateMapKeys | NORM/src/NOrmMetaModel.cpp:1024-1029 | save updates every field except the primary key |
| MetaModel.InsertMapKeys | NORM/src/NOrmMetaModel.cpp:1040-1045 | save inserts every field that is not auto-increment |
| MetaModel.ProbeNeeded | NORM/src/NOrmMetaModel.cpp:1010-1012 | save never probes for a null key nor for an integer key of value 0; it probes for every other non-null key |
| MetaModel.FreshImplicitKeyNotProbed | NORM/src/NOrmMetaModel.cpp:1010-1012 | a new object of a model with the implicit `id` key (0 or null) is inserted without a probe |
| Registry.Register | NORM/src/NOrm.cpp:310-316 | registering stores the class under its name, keeps an existing entry, and returns the stored descriptor |
| Registry.RegisterIdempotent | NORM/src/NOrm.cpp:310-316 | registering twice is registering once |
| Registry.RegisterKeepsOthers | NORM/src/NOrm.cpp:310-316 | registering one class leaves every other entry unchanged |
| Registry.FindIgnoringCase | NORM/src/NOrm.cpp:297-300 | the first key in key order equal to the name ignoring letter case: it matches, no earlier key matches, and there is none exactly when no key matches |
| Registry.Lookup | NORM/src/NOrm.cpp:291-303 | an exact match wins; otherwise the descriptor stored under the first key in key order that matches ignoring case; the invalid descriptor when no key matches |
| Registry.LookupFindsStored | NORM/src/NOrm.cpp:291-303 | a valid lookup result is stored under a key that equals the name ignoring case |
| Registry.LookupIgnoresCase | NORM/src/NOrm.cpp:291-303 | a class is found under any spelling of its name that matches no other key |
| Registry.Visit | NORM/src/NOrm.cpp:235-247 | visiting marks the name and only names in the universe |
| Registry.VisitAll | NORM/src/NOrm.cpp:241-244 | the loop over targets only adds marks |
| Registry.VisitOk | NORM/src/NOrm.cpp:235-247 | corrected: a visit pushes only registered names, never twice, extends the order, and pushes the name itself when it is registered |
| Registry.VisitAllOk | NORM/src/NOrm.cpp:241-244 | the loop keeps that invariant and marks every target |
| Registry.WalkPermutesKeys | NORM/src/NOrm.cpp:249-264 | corrected: the walk over all keys lists every registered class exactly once, cycles or not |
| Registry.SortedNames | NORM/src/NOrm.cpp:249-264 | corrected sort: every registered class exactly once, cycles or not |
| Registry.VisitTopological | NORM/src/NOrm.cpp:235-247 | with an acyclic foreign-key graph a visit keeps every target before the names that refer to it |
| Registry.VisitAllTopological | NORM/src/NOrm.cpp:241-244 | the same for the loop over targets |
| Registry.SortedNamesTopological | NORM/src/NOrm.cpp:249-264 | with an acyclic foreign-key graph each table comes after the tables it refers to |
| Registry.Stored | NORM/src/NOrm.cpp:240 | `globalMetaModels[name]` on an absent name stores the invalid descriptor under it |
| Registry.VisitAsWritten | NORM/src/NOrm.cpp:235-247 | the walk as written marks the name and stays in the universe |
| Registry.VisitAllAsWritten | NORM/src/NOrm.cpp:241-244 | the loop as written only adds marks |
| Registry.VisitAgrees | NORM/src/NOrm.cpp:235-247 | when every target is registered, the visit as written changes nothing and pushes what the corrected visit pushes |
| Registry.VisitAllAgrees | NORM/src/NOrm.cpp:241-244 | the same for the loop |
| Registry.WalkAsWrittenAgrees | NORM/src/NOrm.cpp:249-264 | when every foreign-key target is registered, the walk as written leaves the registry alone and visits and pushes what the corrected walk does |
| Registry.SortedAsWritten | NORM/src/NOrm.cpp:249-264 | when every foreign-key target is registered, the library's sort leaves the registry alone and gives the corrected order |
| Registry.VisitUnregistered | NORM/src/NOrm.cpp:240-246 | as written, visiting an unregistered name stores and pushes the invalid descriptor |
| Registry.DanglingWalk | NORM/src/NOrm.cpp:240 | as written, a foreign key from A to an unregistered class B leaves the invalid descriptor under B and pushes B before A |
| Registry.SortedAsWrittenPollutes | NORM/src/NOrm.cpp:240 | after the sort as written, registering that class returns the invalid descriptor instead of describing it |
| Registry.RunAll | NORM/src/NOrm.cpp:266-276 | every class is attempted, in order, even after a failure; the result is success exactly when all succeed |
| Registry.Reverse | NORM/src/NOrm.cpp:282 | the reversed order |
| Registry.CreateTables | NORM/src/NOrm.cpp:266-276 | createTables attempts, in order and even after a failure, what the library's walk pushes, and succeeds exactly when every attempt does; with every target registered it is the corrected run |
| Registry.DropTables | NORM/src/NOrm.cpp:278-289 | dropTables attempts the walk's names last first, even after a failure, and succeeds exactly when every attempt does; with every target registered it is the corrected run |
| Registry.CreateTablesCorrected | NORM/src/NOrm.cpp:266-276 | corrected: exactly the registered classes are attempted, and the run succeeds exactly when every registered table is created |
| Registry.DropTablesCorrected | NORM/src/NOrm.cpp:278-289 | corrected: exactly the registered classes are attempted, and the run succeeds exactly when every registered table is dropped |
| Registry.CreateDropReversed | NORM/src/NOrm.cpp:266-289 | on the same registry contents, the library's dropTables attempts exactly the reverse of its createTables order |
| Registry.CreateThenDropReversed | NORM/src/NOrm.cpp:266-289 | createTables then dropTables, the drop walking the registry the create walk left behind: with every foreign-key target registered, the tables are dropped in exactly the reverse of their creation order |
| Registry.CreateDropOrder | NORM/src/NOrm.cpp:266-289 | corrected: tables are dropped in exactly the reverse order of creation; every registered class is attempted; the run succeeds exactly when every table is created |
| Registry.DanglingCreates | NORM/src/NOrm.cpp:240-276 | as written, with A pointing at an unregistered B, createTables attempts B and then A; corrected, it attempts A alone |
| Schema.ColumnType | NORM/src/NOrmMetaModel.cpp:418-452 | every value type but the unhandled ones has a non-empty column type on every back end |
| Schema.LengthDeclared | NORM/src/NOrmMetaModel.cpp:725-920 | a column type states a length exactly for text and byte types with a positive maximum length, and it ends with that length in parentheses |
| Schema.UnsizedNoDigit | NORM/src/NOrmMetaModel.cpp:725-920 | the other column types hold no digit |
| Schema.PortableTypes | NORM/src/NOrmMetaModel.cpp:778-870 | dates, times, doubles and 64-bit integers get the same type on every back end; text lists are stored like texts |
| Schema.AttrsTextPair | NORM/src/NOrmMetaModel.cpp:454-474 | each attribute is appended after a space |
| Schema.InlineForeign | NORM/src/NOrmMetaModel.cpp:509-539 | outside MySQL a foreign key column carries REFERENCES; ON DELETE appears for a set action except RESTRICT on SQL Server; PostgreSQL adds DEFERRABLE |
| Schema.AttrsAsWritten | NORM/src/NOrmMetaModel.cpp:454-474 | as written, NOT NULL is added exactly on the nullable fields, and the auto-increment attribute on every auto-increment field, PostgreSQL included |
| Schema.Attrs | NORM/src/NOrmMetaModel.cpp:454-474 | corrected: NOT NULL exactly on non-nullable fields and UNIQUE on unique ones, except on a PostgreSQL serial column; PRIMARY KEY on the key or the serial column, never twice; auto increment outside PostgreSQL |
| Schema.ColumnClause | NORM/src/NOrmMetaModel.cpp:414-541 | a field gets a clause exactly when its type is handled |
| Schema.Handled | NORM/src/NOrmMetaModel.cpp:449-451 | a field is kept exactly when its type is handled on the back end |
| Schema.ColumnsOnePerField | NORM/src/NOrmMetaModel.cpp:414-542 | corrected: every handled field gets exactly one clause, in order |
| Schema.ColumnsAsWritten | NORM/src/NOrmMetaModel.cpp:414-542 | as written, there are no more clauses than handled fields |
| Schema.ColumnsAsWrittenTruncate | NORM/src/NOrmMetaModel.cpp:514-518 | as written, a RESTRICT foreign key on SQL Server ends the clause list: nothing from it onwards gets a column |
| Schema.RestrictDropsColumns | NORM/src/NOrmMetaModel.cpp:514-518 | as written, a SQL Server table whose first field is a RESTRICT key gets no columns; corrected, both fields get one |
| Schema.ConstraintOf | NORM/src/NOrmMetaModel.cpp:481-508 | a table constraint exists exactly for a handled foreign key on MySQL |
| Schema.ForeignKeyDeclaredOnce | NORM/src/NOrmMetaModel.cpp:481-512 | a foreign key is declared once: as a MySQL constraint or as REFERENCES in its column, never both |
| Schema.Constraints | NORM/src/NOrmMetaModel.cpp:481-508 | only MySQL gets foreign-key constraints |
| Schema.UniqueColumns | NORM/src/NOrmMetaModel.cpp:549-555 | the unique-together constraint lists each named field's quoted column, in order |
| Schema.TableBody | NORM/src/NOrmMetaModel.cpp:544-555 | the body is the column clauses, then at most one constraint entry and one UNIQUE entry |
| Schema.CreateStatement | NORM/src/NOrmMetaModel.cpp:557-560 | the statement starts with `CREATE TABLE ` |
| Schema.Indexed | NORM/src/NOrmMetaModel.cpp:563-564 | a field is listed exactly when it asks for an index |
| Schema.IndexStatements | NORM/src/NOrmMetaModel.cpp:563-573 | one CREATE INDEX per indexed field, in order |
| Schema.CreateTableSql | NORM/src/NOrmMetaModel.cpp:404-576 | corrected: the CREATE TABLE statement comes first, then one index statement per indexed field |
| Schema.CreateTableSqlAsWritten | NORM/src/NOrmMetaModel.cpp:404-576 | as written, the statements have the same shape, and the index statements equal the corrected ones |
| Schema.CreateTableColumns | NORM/src/NOrmMetaModel.cpp:541-546 | the table body starts with exactly the corrected clause of each handled field |
| Schema.Execute | NORM/src/NOrmMetaModel.cpp:394-402 | statements run in order and stop at the first failure; success exactly when all succeed |
| Schema.CreateTable | NORM/src/NOrmMetaModel.cpp:394-402 | createTable issues a prefix of the library's statements (its CREATE TABLE, then the index statements), stopping at the first failure: it succeeds exactly when every statement does, and a failed run ends at the failing statement; an index statement is issued only once the table statement succeeded |
| Schema.CreateTableCorrected | NORM/src/NOrmMetaModel.cpp:394-402 | corrected: the same run over the corrected statements |
| Schema.CreateTableFirst | NORM/src/NOrmMetaModel.cpp:394-402 | once the table statement succeeds, the library's and the corrected createTable issue the same index statements |
| Schema.DropTableSql | NORM/src/NOrmMetaModel.cpp:578-587 | nothing is issued for a missing table; otherwise `DROP TABLE` of the quoted table |
| Schema.SerialAsWrittenRepeats | NORM/src/NOrmMetaModel.cpp:471-474 | as written, PostgreSQL's implicit `id` column declares PRIMARY KEY twice and repeats its name |
| Schema.SerialDeclaredOnce | NORM/src/NOrmMetaModel.cpp:975-998 | corrected, that column is `id serial PRIMARY KEY` alone |
| Compiler.AliasInjective | NORM/src/NOrmQuerySet.cpp:24 | distinct numbers give distinct aliases `T<n>` |
| Compiler.NewCompiler | NORM/src/NOrmQuerySet.cpp:10-14 | a new compiler takes its base model from the registry, has no paths yet, and writes no `?` when the driver's quoting writes none |
| Compiler.StepTrans | NORM/src/NOrmQuerySet.cpp:16-27 | compiler steps compose |
| Compiler.InsertNumbered | NORM/src/NOrmQuerySet.cpp:24-25 | adding a fresh path under the next alias keeps the alias invariant and rebinds nothing |
| Compiler.ReferenceModel | NORM/src/NOrmQuerySet.cpp:16-27 | the empty path is the quoted base table; a known path reuses its alias; a new path gets `T<number of paths>` |
| Compiler.ReverseKey | NORM/src/NOrmQuerySet.cpp:52-57 | the first foreign key in key order whose target is the class, or none when no key targets it |
| Compiler.Walk | NORM/src/NOrmQuerySet.cpp:37-79 | walking a path is a compiler step and writes no `?` when the compiler writes none |
| Compiler.DatabaseColumn | NORM/src/NOrmQuerySet.cpp:29-80 | resolving a column is a compiler step and writes no `?` when the compiler writes none |
| Compiler.ColumnWithoutPath | NORM/src/NOrmQuerySet.cpp:78-79 | a name without `__` is a column of the quoted base table, and no join is registered |
| Compiler.UnknownFieldColumn | NORM/src/NOrmQuerySet.cpp:78-79 | a field the model lacks resolves to the quoted empty column |
| Compiler.SplitFirst | NORM/src/NOrmQuerySet.cpp:35 | the first `__` segment of `fk__rest` is `fk` |
| Compiler.ReverseRejected | NORM/src/NOrmQuerySet.cpp:46-62 | a segment that is neither a foreign key nor a model referring back makes the whole lookup fail with no change |
| Compiler.ReverseAccepted | NORM/src/NOrmQuerySet.cpp:46-64 | a reverse relation registers the referring model under a fresh alias as a non-nullable join and records its join columns |
| Compiler.ForwardColumn | NORM/src/NOrmQuerySet.cpp:65-76 | a forward foreign key registers the target under a fresh alias, nullable as the key field is, and reads the field there |
| Compiler.ForwardColumnAgain | NORM/src/NOrmQuerySet.cpp:21-22 | a path resolved again reuses its alias and changes nothing |
| Compiler.AliasesDistinct | NORM/src/NOrmQuerySet.cpp:16-27 | after any compiler steps from a fresh compiler, two paths never share an alias |
| Compiler.Resolve | NORM/src/NOrmQuerySet.cpp:197-206 | resolving changes only the keys of the leaves with an operation, and leaves no `?` in them |
| Compiler.ResolveAll | NORM/src/NOrmQuerySet.cpp:204-205 | every child is resolved, keeping everything but its keys |
| Compiler.LocalColumns | NORM/src/NOrmQuerySet.cpp:90-91 | one qualified, quoted column per field, in declaration order |
| Compiler.Nested | NORM/src/NOrmQuerySet.cpp:103 | the nested allow-list holds `x` exactly when the list holds `fk__x`, and it is shorter once it names fk |
| Compiler.FieldNames | NORM/src/NOrmQuerySet.cpp:82-113 | the model's own columns come first, under the path's alias; without recursion they are all; no column holds `?` |
| Compiler.ForeignColumns | NORM/src/NOrmQuerySet.cpp:97-111 | an allow-list naming none of the foreign keys adds nothing |
| Compiler.AllowListClosed | NORM/src/NOrmQuerySet.cpp:97-111 | with an allow-list naming no foreign key, only the local columns are selected |
| Compiler.FieldNamesFollowsKey | NORM/src/NOrmQuerySet.cpp:97-111 | with the first foreign key named in the allow-list, the key target's columns, under the alias registered for its path, come right after the model's own columns |
| Compiler.JoinFor | NORM/src/NOrmQuerySet.cpp:119-135 | a nullable path joins LEFT OUTER, any other path INNER, under its own alias and table |
| Compiler.JoinsOf | NORM/src/NOrmQuerySet.cpp:118-136 | one join per registered path, in key order |
| Compiler.FromSql | NORM/src/NOrmQuerySet.cpp:115-138 | the quoted base table, then one join per path registered so far, in path order |
| Compiler.OneJoinPerAlias | NORM/src/NOrmQuerySet.cpp:115-138 | every alias handed out appears in exactly one join |
| Compiler.OrderKey | NORM/src/NOrmQuerySet.cpp:147-154 | a key is descending exactly when it starts with '-'; dropping a leading '-' or '+' gives the key back |
| Compiler.OrderKeyPrefixes | NORM/src/NOrmQuerySet.cpp:149-154 | `-f` reads back as f descending and `+f` as f ascending |
| Compiler.OrderTerms | NORM/src/NOrmQuerySet.cpp:147-156 | one term per key, descending exactly for keys starting with '-' |
| Compiler.PagingFor | NORM/src/NOrmQuerySet.cpp:161-192 | SQL Server uses OFFSET ROWS/FETCH NEXT; the others use LIMIT and OFFSET, with an explicit no-limit on SQLite and MySQL when only an offset is set |
| Compiler.PagingSelectsWindow | NORM/src/NOrmQuerySet.cpp:161-192 | on every dialect the paging clauses select exactly rows low up to high of the matched rows |
| Compiler.PageOfMarks | NORM/src/NOrmQuerySet.cpp:161-192 | paging that skips low and keeps high - low rows selects the window of the marks |
| Compiler.ServerPaging | NORM/src/NOrmQuerySet.cpp:165-175 | the SQL Server clauses skip low rows and keep high - low when high is set |
| Compiler.ClausePaging | NORM/src/NOrmQuerySet.cpp:176-191 | the LIMIT/OFFSET clauses skip low rows and keep high - low when high is set |
| Compiler.OrderLimitSql | NORM/src/NOrmQuerySet.cpp:140-195 | the ordering terms, then the dialect's paging; SQL Server orders by the primary key exactly when paging without ordering keys |
| QuerySets.Fresh | NORM/inc/NOrmQuerySet.h:166 | a new set matches every row, has no limit, and its marks and cache are consistent |
| QuerySets.All | NORM/inc/NOrmQuerySet.h:210-219 | all() keeps the settings and drops the cached rows |
| QuerySets.EvalAndAll | NORM/src/NOrmQuerySet.cpp:218-224 | corrected: adding a filter conjoins it with the condition, for every row |
| QuerySets.Filter | NORM/inc/NOrmQuerySet.h:244-248 | unless the set's condition is a negated combined node, a row is in the filtered set exactly when it is in the set and meets the condition; nothing else changes |
| QuerySets.EvalNotAll | NORM/inc/NOrmQuerySet.h:238-242 | in two-valued logic, the negated condition holds exactly where the condition does not |
| QuerySets.Exclude | NORM/inc/NOrmQuerySet.h:238-242 | unless the set's condition is a negated combined node, a row is in the new set exactly when it is in the set and does not meet the condition; nothing else changes |
| QuerySets.FilterCorrected | NORM/inc/NOrmQuerySet.h:244-248 | corrected: a row is in the filtered set exactly when it is in the set and meets the condition |
| QuerySets.ExcludeCorrected | NORM/inc/NOrmQuerySet.h:238-242 | corrected, in two-valued logic: a row is in the new set exactly when it is in the set and does not meet the condition |
| QuerySets.ExcludeThenFilterKeeps | NORM/inc/NOrmQuerySet.h:238-248 | as written, `exclude(a && b).filter(c)` keeps a row that meets none of a, b, c; the corrected pair rejects it |
| QuerySets.NoneHoldsNowhere | NORM/inc/NOrmQuerySet.h:271-275 | the isNone condition holds for no row |
| QuerySets.NoneSet | NORM/inc/NOrmQuerySet.h:271-275 | none() is a fresh set of the model that no row meets |
| QuerySets.OrderBy | NORM/inc/NOrmQuerySet.h:277-284 | the keys are appended to the ordering; nothing else changes |
| QuerySets.SelectRelated | NORM/inc/NOrmQuerySet.h:288-293 | related selection is switched on with the given paths; nothing else changes |
| QuerySets.Limit | NORM/inc/NOrmQuerySet.h:255-269 | corrected: only the marks change, and a window stays a window |
| QuerySets.Slice | NORM/inc/NOrmQuerySet.h:255-269 | a slice is never longer than its rows |
| QuerySets.LimitSlices | NORM/inc/NOrmQuerySet.h:255-269 | limiting a set slices its window of rows: the new window is the slice of the old one |
| QuerySets.LimitAsWrittenAgrees | NORM/inc/NOrmQuerySet.h:259-267 | the library's limit agrees with the corrected one while the new start stays within the current end |
| QuerySets.LimitAsWritten | NORM/inc/NOrmQuerySet.h:255-269 | limit() as written: the start moves by `pos` with no clamp, so it can pass the current end; a positive length puts the end `length` rows after the start, never past a current end; otherwise the end stays; only the marks change and the cache is dropped |
| QuerySets.LimitAsWrittenOverruns | NORM/inc/NOrmQuerySet.h:260 | as written, `limit(0,5).limit(10,5)` leaves start 10 past end 5 and writes `LIMIT -5 OFFSET 10`; corrected, it is the empty window at 5 |
| QuerySets.Invalidate | NORM/src/NOrmQuerySet.cpp:250-254 | a successful write drops the cache |
| QuerySets.SqlFetch | NORM/src/NOrmQuerySet.cpp:259-279 | a select runs exactly when nothing is cached and the condition is not none; success caches the rows; failure changes nothing |
| QuerySets.FetchOnce | NORM/src/NOrmQuerySet.cpp:261-262 | after a successful fetch, fetching again runs nothing and changes nothing |
| QuerySets.NoneFetchesNothing | NORM/src/NOrmQuerySet.cpp:261-262 | a none() set yields no rows and runs nothing to learn it |
| QuerySets.SqlDelete | NORM/src/NOrmQuerySet.cpp:234-257 | a none set deletes nothing and succeeds; a limited set refuses; otherwise the DELETE runs and success drops the cache |
| QuerySets.SqlUpdate | NORM/src/NOrmQuerySet.cpp:482-506 | 0 without running for a none set or no fields; -1 for a limited set; otherwise the affected count or -1, and success drops the cache |
| QuerySets.SqlInsert | NORM/src/NOrmQuerySet.cpp:281-313 | the INSERT always runs, and success drops the cache |
| QuerySets.WriteRefetches | NORM/src/NOrmQuerySet.cpp:250-254 | after a successful delete the next read asks the database again |
| QuerySets.Size | NORM/inc/NOrmQuerySet.h:295-299 | the number of fetched rows, or -1 when the fetch fails |
| QuerySets.At | NORM/src/NOrmQuerySet.cpp:315-330 | the row at the index when the fetch succeeds and the index is in range, otherwise nothing |
| QuerySets.GetMatch | NORM/inc/NOrmQuerySet.h:250-253 | get() finds a row exactly when the filtered set has exactly one row, and that row is the one returned |
| QuerySets.AggregateValue | NORM/inc/NOrmQuerySet.h:230-236 | a value exactly when the statement succeeds and returns a row with a column |
| QuerySets.WindowSizeIsWindow | NORM/inc/NOrmQuerySet.h:221-227 | the number of rows of a window, computed from the row count and the marks, is the window's length |
| QuerySets.Count | NORM/inc/NOrmQuerySet.h:221-227 | corrected: the cached row count when rows are cached; otherwise the size of the marks' window over the unpaged aggregate count, never negative, or -1 when the aggregate fails |
| QuerySets.CountAsWritten | NORM/inc/NOrmQuerySet.h:221-227 | count() as written: the cached row count when rows are cached, -1 when the aggregate fails, and the corrected count for a set without a limit |
| QuerySets.FetchSelectsWindow | NORM/src/NOrmQuerySet.cpp:259-279 | the fetched rows are the window of the matched rows |
| QuerySets.CountIsSize | NORM/inc/NOrmQuerySet.h:221-227 | corrected count() equals size() for every window |
| QuerySets.CountAsWrittenIgnoresLimit | NORM/inc/NOrmQuerySet.h:221-227 | as written, over ten matched rows `limit(0,5)` counts 10 where five are fetched, and `limit(2)` counts -1 where eight are fetched |
| QuerySets.PagedCount | NORM/inc/NOrmQuerySet.h:225-226 | as written, the single COUNT row, paged with the set's marks on SQLite, gives the count when the window keeps it and -1 otherwise |
| QuerySets.PagedSize | NORM/inc/NOrmQuerySet.h:295-299 | size() of a select paged on SQLite is the number of rows in the window |
| QuerySets.FieldIndex | NORM/src/NOrmQuerySet.cpp:520-525 | the position of the first field with the name, or the field count when there is none |
| QuerySets.PairsSound | NORM/src/NOrmQuerySet.cpp:514-528 | each position pair names a field of that name, the first one when names were given |
| QuerySets.PairsCover | NORM/src/NOrmQuerySet.cpp:514-528 | a pair exists exactly for each requested name |
| QuerySets.PairsMap | NORM/src/NOrmQuerySet.cpp:514-528 | the position map holds exactly the requested names, each at a field of that name |
| QuerySets.Positions | NORM/src/NOrmQuerySet.cpp:512-529 | the map is key-sorted, holds exactly the requested names, and each points to a field of that name |
| QuerySets.ColumnOf | NORM/src/NOrmQuerySet.cpp:512-529 | a requested name's column holds a field of that name, the first one when names were given |
| QuerySets.RowMapGet | NORM/src/NOrmQuerySet.cpp:532-541 | a row map holds the position map's keys, each with the row's value at its position |
| QuerySets.ValuesRow | NORM/src/NOrmQuerySet.cpp:532-541 | one row's map holds the requested names, each with its column's value |
| QuerySets.ValuesRows | NORM/src/NOrmQuerySet.cpp:532-541 | the same for every fetched row |
| QuerySets.SqlValues | NORM/src/NOrmQuerySet.cpp:508-544 | nothing when the fetch fails; otherwise one map per row holding exactly the requested names, each with its column's value |
| QuerySets.ListPositions | NORM/src/NOrmQuerySet.cpp:552-569 | every field in order when none is named; otherwise the first field of each name, in request order |
| QuerySets.SqlValuesList | NORM/src/NOrmQuerySet.cpp:546-581 | one list per row: the model's columns when none are named, otherwise the named fields' values in request order |
| QuerySets.ValuesAgree | NORM/src/NOrmQuerySet.cpp:508-581 | values() and valuesList() read the same columns: a name's map entry is the list entry at its position |
| QuerySets.Begin | NORM/inc/NOrmQuerySet.h:194-200 | begin() starts at offset 0 of its set |
| QuerySets.End | NORM/inc/NOrmQuerySet.h:206-208 | end() sits at the offset the library's count() gives, which for a fetched set is its number of rows |
| QuerySets.EndCorrected | NORM/inc/NOrmQuerySet.h:206-208 | corrected: end() at the corrected count; for a set without a limit it is the library's end() |
| QuerySets.IterArithmetic | NORM/inc/NOrmQuerySet.h:76-104 | steps and jumps undo each other as operator== sees them, and the difference of iterators measures a jump |
| QuerySets.StepsArePlus | NORM/inc/NOrmQuerySet.h:76-89 | n prefix steps reach the offset of a jump by n and keep the cache |
| QuerySets.IterOrder | NORM/inc/NOrmQuerySet.h:52-74 | iterators are ordered strictly and totally, by set and then offset, as operator== sees them; the other comparisons are its reflexive and converse forms |
| QuerySets.Deref | NORM/inc/NOrmQuerySet.h:107-115 | an iterator whose cache is at its offset reads its own object and loads nothing; otherwise, with rows cached, a row exactly for an offset in range, the cached row there; with nothing cached, none for a none() set, and else the fetched row when the fetch succeeds and the offset is in range; a row read is cached at the offset |
| QuerySets.DerefAgain | NORM/inc/NOrmQuerySet.h:107-115 | a second read through the same iterator returns the same object and loads nothing, whatever the database would answer |
| QuerySets.DerefBeforeBegin | NORM/inc/NOrmQuerySet.h:36-45 | with the cache's -1 sentinel, a fresh iterator one before begin() reads its default-constructed object without a load, while one that loaded row 0 and steps back reads nothing |
| QuerySets.ReadStepsVisitsRows | NORM/inc/NOrmQuerySet.h:76-115 | a loop reading `*it` and stepping with `++it` over a fetched set reads the rows from the iterator's offset on, in order |
| QuerySets.IterationVisitsRows | NORM/inc/NOrmQuerySet.h:194-208 | walking a fetched set from begin() with `++it` reads its rows in order; end() is |rows| steps from begin(), as operator== sees it, and reads nothing |
| Statements.NewCompilerClean | NORM/src/NOrmQuerySet.cpp:10-14 | a new compiler writes no `?` when the driver's quoting writes none |
| Statements.ResolvedWhere | NORM/src/NOrmQuerySet.cpp:226-232 | where() changes only the keys of the condition, and they hold no `?` |
| Statements.SelectQuery | NORM/src/NOrmQuerySet.cpp:422-443 | the SELECT binds the resolved condition's values |
| Statements.DeleteQuery | NORM/src/NOrmQuerySet.cpp:373-393 | the DELETE binds the resolved condition's values |
| Statements.AggregateQuery | NORM/src/NOrmQuerySet.cpp:349-369 | the aggregate statement binds the resolved condition's values |
| Statements.CountQuery | NORM/inc/NOrmQuerySet.h:221-227 | count() as written runs `SELECT COUNT(*) FROM ...` binding the resolved condition's values and ending with the paging of the set's own marks |
| Statements.CountQueryUnpaged | NORM/inc/NOrmQuerySet.h:221-227 | corrected: the same COUNT(*) with the marks dropped; for a set without a limit it is the library's statement |
| Statements.CountQueryUnpagedIgnoresMarks | NORM/inc/NOrmQuerySet.h:221-227 | the corrected statement does not depend on the marks |
| Statements.FieldColumns | NORM/src/NOrmQuerySet.cpp:404-410 | one quoted column per named field, none holding `?` |
| Statements.UpdateQuery | NORM/src/NOrmQuerySet.cpp:448-480 | the UPDATE binds the field values in key order, then the condition's |
| Statements.Assignments | NORM/src/NOrmQuerySet.cpp:455-460 | each field column becomes `column = ?` |
| Statements.InsertQuery | NORM/src/NOrmQuerySet.cpp:397-418 | the INSERT binds the field values in key order |
| Statements.Framed | NORM/src/NOrmQuerySet.cpp:422-443 | the text around the WHERE clause adds no placeholder |
| Statements.OrderLimitClean | NORM/src/NOrmQuerySet.cpp:140-195 | ordering and paging text holds no `?` when its columns hold none |
| Statements.UpdateTextCount | NORM/src/NOrmQuerySet.cpp:448-480 | the UPDATE text has one `?` per field plus the condition's |
| Statements.SelectBalanced | NORM/src/NOrmQuerySet.cpp:422-443 | the SELECT has exactly one `?` per bound value, for every condition |
| Statements.DeleteBalanced | NORM/src/NOrmQuerySet.cpp:373-393 | the DELETE has exactly one `?` per bound value |
| Statements.AggregateBalanced | NORM/src/NOrmQuerySet.cpp:349-369 | the aggregate statement has exactly one `?` per bound value |
| Statements.UpdateBalanced | NORM/src/NOrmQuerySet.cpp:448-480 | the UPDATE has exactly one `?` per bound value: the fields' and then the condition's |
| Statements.InsertBalanced | NORM/src/NOrmQuerySet.cpp:397-418 | the INSERT has exactly one `?` per field |
| Statements.SelectEverything | NORM/src/NOrmQuerySet.cpp:422-443 | a fresh set selects the model's columns from its table with no other clause and no values |
| Strings.ParseInt | NORM/src/NOrmMetaModel.cpp:291-292 | QString::toInt: the result fits in 32 bits; a nonzero result comes from an optional sign followed by digits only, a negative one from a leading '-' |

## Left out

- Database connections: per-thread connections, `setDatabase`, `initDatabase`, the MySQL schema creation and the SQLite foreign-key pragma are not modelled. They are I/O. The dialect is a field of `Dialects.Backend`.
- Executing statements: `NOrmQuery::exec`, `next`, `numRowsAffected`, `lastInsertId` and PostgreSQL's `CURRVAL` probe in `sqlInsert` are not modelled. They are I/O. Their outcomes come in as parameters: a success flag, the returned rows, the affected count.
- `escapeIdentifier` and `stringlist_digest` (the index and constraint names) are not modelled. They are driver and hash code. They are function parameters of `Dialects.Backend`, and the statements proved hold whatever those functions compute. The `?`-count results assume the quoting adds no `?` (`Compiler.EscapeClean`).
- Qt reflection is not modelled: `QMetaObject`, `setProperty`, `NOrmMetaModel::load` (apart from its text-list conversion), `foreignKey` and `setForeignKey`. A class is given as `MetaModel.ClassInfo`, and an object's property values as a function.
- `NOrmMetaModel::remove` and the rest of `NOrmModel.cpp` are left out. They delegate to the query set operations that are modelled.
- Values and conversions: QVariant is reduced to null, bool, int, text, list and text list. Conversions not listed here are left out: dates, byte arrays, doubles. `toString`/debug output, `operationToString` and the warnings are not modelled.
- 32-bit integers: `Values.Int`, the marks of a query set and the row counts are unbounded integers, so `lowMark += pos` cannot wrap here as it can in C++. The text conversion (`Strings.ParseInt`) does keep the 32-bit range of `QString::toInt`. Floating point is not modelled: a double is an opaque `Values.Other` value.
- The reference-counted sharing of `NOrmQuerySetPrivate` and `NOrmWherePrivate` (`counter`, copy and assignment) is not modelled. Values are immutable here, so sharing cannot be observed.
- Compiler.FieldNames: a direct call with the default null allow-list (`NORM/inc/NOrmQuerySet_p.h:39`) recurses forever on a cyclic foreign-key graph. No call in the library makes one: the select passes `&relatedFields` (`NORM/src/NOrmQuerySet.cpp:431`), and each nested call passes its non-null sub-list, which gets shorter. A `fuel` bound stops the descent in the null-list case, and it matters only for such a direct call.
- `selectRelated` loading of related objects is out of scope: the recursive `load` into `_ptr` properties is reflection. The selected columns are modelled (`Compiler.FieldNames`).
- The demo program and the example models are not part of this model.
- QuerySets.SqlValues and QuerySets.SqlValuesList: require every requested name to be a field, as the library's `Q_ASSERT_X` does. They also require the fetched rows to be at least as wide as the model's columns, which the SELECT guarantees by putting them first. The connection between the SELECT and the database's answer is not modelled.
- QuerySets.Filter, QuerySets.Exclude and QuerySets.OrderBy: require an unlimited set, as the library's `Q_ASSERT` in `addFilter` and `orderBy` does.
- Statements.SelectQuery, Statements.DeleteQuery, Statements.AggregateQuery, Statements.UpdateQuery and Statements.InsertQuery: their contracts state the bound values. The text is stated by the `*Balanced` lemmas (one `?` per value) and by Statements.SelectEverything, not character by character.
- Schema.ColumnType: the exact type names per back end are not restated in the contract. Schema.LengthDeclared and Schema.PortableTypes state what they share.
- WhereSql.StartsWithPattern, WhereSql.EndsWithPattern and WhereSql.ContainsPattern: stated over the corrected escaping and for dialects where a backslash escapes. The library binds escapeLike as written, whose reading WhereSql.EscapeLikeAsWrittenMisreads and WhereSql.UnescapedDialectMisreads state.
- Registry.CreateDropOrder: stated over the corrected runs. For the library's runs, Registry.CreateDropReversed states the reverse order on one registry value, and Registry.CreateTables and Registry.DropTables agree with the corrected runs only when every foreign-key target is registered.
- Registry.CreateDropReversed: compares both runs on the same registry contents. The library's dropTables sorts the registry that createTables left behind. When a foreign key targets an unregistered class, that registry holds the invalid descriptor as a new key, and the drop order is not promised to be the reverse. Registry.CreateThenDropReversed states the sequence when every target is registered.
- Where.Eval, Where.EvalNot, QuerySets.EvalNotAll, QuerySets.Exclude and QuerySets.ExcludeCorrected: the meaning of a condition is two-valued. SQL compares a NULL column to UNKNOWN, so for such a row neither `a = ?` nor `a != ?` selects it, and `exclude(a=1)` does not keep rows whose `a` is NULL. Three-valued comparison is not modelled. Where.EvalAnd, Where.EvalOr and Where.NotNot still hold of SQL when "satisfies" means "evaluates to TRUE".
- QuerySets.Deref: the default constructor's iterator with no set is not modelled, nor is the postfix `it++`/`it--` (a copy, whose cache starts empty, is returned). Deref returns the set after the load instead of updating the iterator's set in place.
- Registry.CreateTables and Registry.DropTables: return the run only. The registry the library's walk leaves behind is `SortedAsWritten(reg).models`, stated by Registry.SortedAsWrittenPollutes.
- QuerySets.EvalAndAll: stated over the corrected `&&`. The library's filter is the plain conjunction only when the set's condition is not a negated node (QuerySets.Filter).
- QuerySets.Filter and QuerySets.Exclude: their conjunction is promised only when the set's condition is not a negated node, because the library's `&&` flattens into a negated AND node (QuerySets.ExcludeThenFilterKeeps).
- Compiler.FieldNamesFollowsKey: states the placement of the first foreign key's columns only. Later keys follow after the earlier keys' columns, which the lemma does not locate.
- Strings.ParseInt: rejects the leading and trailing whitespace that `QString::toInt` accepts.
- Strings.Lower: folds ASCII letters only, while Qt's `toLower` also folds Latin-1 letters.

## Behaviour of note

- A path the compiler cannot resolve raises no error. A failed reverse lookup yields an empty column, and an unknown field yields the quoted empty column (`Compiler.ReverseRejected`, `Compiler.UnknownFieldColumn`).
- A cycle among foreign keys does not make the sort fail. Every registered class is pushed once, in some order (`Registry.WalkPermutesKeys`).
- An iterator remembers the offset it last loaded, starting from -1. So one step before begin() a fresh iterator reads its default-constructed object rather than nothing, while an iterator that has loaded a row and steps back there reads nothing (`QuerySets.DerefBeforeBegin`).
- The select always passes the set's list of related paths, which is never null. So `selectRelated()` with no paths selects none of the related columns, only the model's own columns (`Compiler.AllowListClosed`): an empty list contains no foreign key's name.
- On PostgreSQL the auto-increment attribute appends a whole `col serial PRIMARY KEY` clause after the column's type. It does not replace the type (`Schema.SerialAsWrittenRepeats`).

## Findings

| source | as written | input that shows it | evidently intended | confidence | as-written member | corrected member |
|---|---|---|---|---|---|---|
| NORM/src/NOrmWhere.cpp:121-125 | `&&` appends to the left node's children whenever it is an AND node, even when that node is negated | `!(a=1 && b=1) && c=1` becomes `!(a=1 && b=1 && c=1)`, which keeps a row where none holds | flatten only into a non-negated AND node | high, not executed | Where.AndAsWritten, Where.AndAsWrittenIsNotConjunction, QuerySets.ExcludeThenFilterKeeps | Where.And, Where.EvalAnd, QuerySets.FilterCorrected |
| NORM/src/NOrmWhere.cpp:140-144 | `\|\|` appends to the left node's children whenever it is an OR node, even when that node is negated | `!(a=1 \|\| b=1) \|\| c=1` becomes `!(a=1 \|\| b=1 \|\| c=1)`, which rejects a row where all hold | flatten only into a non-negated OR node | high, not executed | Where.OrAsWritten, Where.OrAsWrittenIsNotDisjunction | Where.Or, Where.EvalOr |
| NORM/src/NOrmWhere.cpp:8-14 | escapeLike escapes `%` and `_` but not the escape character itself | the text `\_` becomes `\\_`, which LIKE reads as a literal backslash followed by a one-character wildcard | escape `\` first, so every character matches literally | medium, not executed | WhereSql.EscapeLikeAsWritten, WhereSql.EscapeLikeAsWrittenMisreads | WhereSql.EscapeLike, WhereSql.ReplacesEscapeEach |
| NORM/src/NOrmMetaModel.cpp:454-457 | the NOT NULL attribute is added when the field *is* nullable | a field declared `null=true` gets `NOT NULL`; a field without it accepts null | NOT NULL on the fields that do not allow null | medium, not executed | Schema.AttrsAsWritten | Schema.Attrs |
| NORM/src/NOrmMetaModel.cpp:514-518 | on SQL Server a RESTRICT foreign key hits `break`, which leaves the loop over all fields | a table whose first field is a RESTRICT key gets no column clauses at all | skip only the ON DELETE clause of that field | high, not executed | Schema.ColumnsAsWritten, Schema.ColumnsAsWrittenTruncate, Schema.RestrictDropsColumns | Schema.Columns, Schema.ColumnsOnePerField |
| NORM/src/NOrmMetaModel.cpp:471-474 | on PostgreSQL the auto-increment attribute is a whole `col serial PRIMARY KEY` clause appended after the type and PRIMARY KEY | the implicit `id` column renders `id integer PRIMARY KEY id serial PRIMARY KEY` | the serial declaration replaces the type and other attributes | medium, not executed | Schema.SerialAsWrittenRepeats | Schema.Attrs, Schema.SerialDeclaredOnce |
| NORM/inc/NOrmQuerySet.h:255-269 | limit() moves the low mark without clamping it to the current high mark | `limit(0,5).limit(10,5)` gives marks 10 and 5, which write `LIMIT -5 OFFSET 10` on SQLite (no limit at all) | clamp the new low mark to the current high mark | high, not executed | QuerySets.LimitAsWritten, QuerySets.LimitAsWrittenOverruns | QuerySets.Limit, QuerySets.LimitSlices |
| NORM/inc/NOrmQuerySet.h:221-227 | count() pages the single COUNT row with the set's own marks | over ten rows, `limit(0,5)` counts 10 and `limit(2)` counts -1 (the COUNT row is skipped), where size() gives 5 and 8 | count the window: the aggregate without paging, clamped to the marks | high, not executed | QuerySets.CountAsWritten, QuerySets.CountAsWrittenIgnoresLimit, Statements.CountQuery | QuerySets.Count, QuerySets.CountIsSize, Statements.CountQueryUnpaged |
| NORM/src/NOrm.cpp:240 | norm_topsort reads `globalMetaModels[modelName]`, which inserts the invalid descriptor for a foreign-key target not yet registered | class A with a foreign key to unregistered B: after createTables, registerModel(B) returns the stored invalid descriptor | read with `value()`, leaving the registry unchanged | medium, not executed | Registry.SortedAsWritten, Registry.SortedAsWrittenPollutes | Registry.SortedNames, Registry.WalkPermutesKeys |

=== FILE: compiler.dfy ===
/** The path and join compiler of a query (NOrmCompiler): table aliases
    T0, T1, ... for every model reached through a `a__b__c` path, the
    qualified column a path names, the selected columns, the FROM clause
    with its joins, and the ORDER BY and paging clauses. The compiler is a
    value here: every operation returns the updated compiler beside its
    result. */
module Compiler {
  import opened Options
  import opened Strings
  import opened Dialects
  import opened OrderedMaps
  import opened MetaModel
  import opened Registry
  import opened Where
  import opened WhereSql

  /** A joined model: its alias, its descriptor and whether the join may
      find no row because the foreign key leading to it is nullable. */
  datatype ModelReference = ModelReference(alias: string, model: Model, nullable: bool)

  /** The columns a reverse relation is joined on: the foreign key column of
      the referencing model and the primary-key name resolved on the base
      model. */
  datatype ReverseReference = ReverseReference(leftHandKey: string, rightHandKey: string)

  /** `models` is the registry lookup (metaModel); `refs` maps a path to its
      alias and `reverse` the paths reached through reverse relations. */
  datatype Compiler = Compiler(
    b: Backend,
    models: string -> Model,
    base: Model,
    refs: OMap<ModelReference>,
    reverse: OMap<ReverseReference>)

  /** A compiler for the model registered under `name`. */
  function NewCompiler(b: Backend, reg: Models, name: string): (r: Compiler)
    ensures r.base == Lookup(reg, name) && r.refs == [] && r.reverse == []
    ensures forall n :: r.models(n) == Lookup(reg, n)
    ensures EscapeClean(b) ==> Clean(r)
  {
    Compiler(b, (n: string) => Lookup(reg, n), Lookup(reg, name), [], [])
  }

  function Alias(n: nat): string
  {
    "T" + NatStr(n)
  }

  lemma AliasInjective(i: nat, j: nat)
    ensures Alias(i) == Alias(j) ==> i == j
  {
    if Alias(i) == Alias(j) {
      assert Alias(i)[1..] == NatStr(i);
      assert Alias(j)[1..] == NatStr(j);
      NatStrInjective(i, j);
    }
  }

  lemma AliasClean(n: nat)
    ensures '?' !in Alias(n)
  {
    var s := Alias(n);
    forall i | 0 <= i < |s|
      ensures s[i] != '?'
    {
      if i > 0 {
        assert s[i] == NatStr(n)[i - 1];
      }
    }
  }

  // The alias invariant.

  ghost predicate AliasBelow(a: string, n: nat)
  {
    exists i: nat :: i < n && a == Alias(i)
  }

  /** The alias table is kept sorted, every alias is `T<i>` for an i below
      the number of paths, and no two paths share an alias. */
  ghost predicate Numbered(refs: OMap<ModelReference>)
  {
    && Sorted(refs)
    && (forall k :: HasKey(refs, k) ==> AliasBelow(Get(refs, k).value.alias, |refs|))
    && (forall k1, k2 :: HasKey(refs, k1) && HasKey(refs, k2) && k1 != k2 ==>
          Get(refs, k1).value.alias != Get(refs, k2).value.alias)
  }

  /** Every key of m1 keeps its value in m2. */
  ghost predicate Extends<V>(m1: OMap<V>, m2: OMap<V>)
  {
    forall k :: HasKey(m1, k) ==> Get(m2, k) == Get(m1, k)
  }

  /** What any compiler operation may do: add paths, never rebind one, keep
      the alias invariant, and touch nothing else but the reverse table. */
  ghost predicate Step(c: Compiler, c': Compiler)
  {
    && c'.b == c.b && c'.models == c.models && c'.base == c.base
    && Extends(c.refs, c'.refs)
    && (Numbered(c.refs) ==> Numbered(c'.refs))
  }

  lemma StepTrans(c1: Compiler, c2: Compiler, c3: Compiler)
    requires Step(c1, c2) && Step(c2, c3)
    ensures Step(c1, c3)
  {
  }

  /** Aliases never contain a '?', and the driver's quoting does not add
      one: the compiler's output then leaves the placeholders to the where
      clause. */
  ghost predicate EscapeClean(b: Backend)
  {
    forall s, k :: '?' !in b.escape(s, k)
  }

  ghost predicate Clean(c: Compiler)
  {
    EscapeClean(c.b) && Numbered(c.refs)
  }

  lemma CleanAlias(c: Compiler, k: string)
    requires Clean(c) && HasKey(c.refs, k)
    ensures '?' !in Get(c.refs, k).value.alias
  {
    var i: nat :| i < |c.refs| && Get(c.refs, k).value.alias == Alias(i);
    AliasClean(i);
  }

  /** Adding a fresh path under the next alias keeps the invariant. */
  lemma InsertNumbered(refs: OMap<ModelReference>, path: string, m: Model, nullable: bool)
    requires Numbered(refs) && !HasKey(refs, path)
    ensures Numbered(Insert(refs, path, ModelReference(Alias(|refs|), m, nullable)))
    ensures Extends(refs, Insert(refs, path, ModelReference(Alias(|refs|), m, nullable)))
  {
    var e := ModelReference(Alias(|refs|), m, nullable);
    var r := Insert(refs, path, e);
    InsertSorted(refs, path, e);
    InsertKeys(refs, path, e);
    forall k | HasKey(r, k)
      ensures AliasBelow(Get(r, k).value.alias, |r|)
    {
      InsertGet(refs, path, e, k);
      if k == path {
        assert Get(r, k).value.alias == Alias(|refs|);
      }
    }
    forall k1, k2 | HasKey(r, k1) && HasKey(r, k2) && k1 != k2
      ensures Get(r, k1).value.alias != Get(r, k2).value.alias
    {
      InsertGet(refs, path, e, k1);
      InsertGet(refs, path, e, k2);
      if k1 == path {
        var j: nat :| j < |refs| && Get(refs, k2).value.alias == Alias(j);
        AliasInjective(j, |refs|);
      } else if k2 == path {
        var j: nat :| j < |refs| && Get(refs, k1).value.alias == Alias(j);
        AliasInjective(j, |refs|);
      }
    }
    forall k | HasKey(refs, k)
      ensures Get(r, k) == Get(refs, k)
    {
      InsertGet(refs, path, e, k);
    }
  }

  /** referenceModel: the empty path is the base table itself; a known path
      keeps its alias; a new path gets `T<n>` where n is the number of paths
      seen so far. */
  function ReferenceModel(c: Compiler, path: string, m: Model, nullable: bool): (r: (string, Compiler))
    ensures path == "" ==> r.0 == c.b.Table(c.base.TableName()) && r.1 == c
    ensures path != "" ==> HasKey(r.1.refs, path) && r.0 == Get(r.1.refs, path).value.alias
    ensures path != "" && HasKey(c.refs, path) ==> r.1 == c
    ensures path != "" && !HasKey(c.refs, path) ==>
              r.0 == Alias(|c.refs|) && Get(r.1.refs, path) == Some(ModelReference(r.0, m, nullable))
    ensures Step(c, r.1)
    ensures Clean(c) ==> '?' !in r.0
  {
    if path == "" then
      (c.b.Table(c.base.TableName()), c)
    else if HasKey(c.refs, path) then
      var a := Get(c.refs, path).value.alias;
      assert Clean(c) ==> '?' !in a by {
        if Clean(c) {
          CleanAlias(c, path);
        }
      }
      (a, c)
    else
      var a := Alias(|c.refs|);
      var refs' := Insert(c.refs, path, ModelReference(a, m, nullable));
      InsertHasKey(c.refs, path, ModelReference(a, m, nullable), path);
      InsertGet(c.refs, path, ModelReference(a, m, nullable), path);
      assert Numbered(c.refs) ==> Numbered(refs') && Extends(c.refs, refs') by {
        if Numbered(c.refs) {
          InsertNumbered(c.refs, path, m, nullable);
        }
      }
      assert Extends(c.refs, refs') by {
        forall k | HasKey(c.refs, k)
          ensures Get(refs', k) == Get(c.refs, k)
        {
          InsertGet(c.refs, path, ModelReference(a, m, nullable), k);
        }
      }
      AliasClean(|c.refs|);
      (a, c.(refs := refs'))
  }

  // Column paths.

  /** The first foreign key (in key order) of a model whose target is the
      class `cls`. */
  function ReverseKey(fks: OMap<string>, cls: string): (r: Option<string>)
    ensures r.None? <==> forall i :: 0 <= i < |fks| ==> fks[i].1 != cls
    ensures r.Some? ==> exists i :: 0 <= i < |fks| && fks[i] == (r.value, cls) &&
                                    (forall j :: 0 <= j < i ==> fks[j].1 != cls)
  {
    if |fks| == 0 then None
    else if fks[0].1 == cls then Some(fks[0].0)
    else
      var r := ReverseKey(fks[1..], cls);
      assert forall i :: 1 <= i < |fks| ==> fks[1..][i - 1] == fks[i];
      assert r.Some? ==> exists i :: 1 <= i < |fks| && fks[i] == (r.value, cls) &&
                                     (forall j :: 0 <= j < i ==> fks[j].1 != cls) by {
        if r.Some? {
          var i :| 0 <= i < |fks[1..]| && fks[1..][i] == (r.value, cls) &&
                   (forall j :: 0 <= j < i ==> fks[1..][j].1 != cls);
          assert fks[i + 1] == (r.value, cls);
          assert forall j :: 0 <= j < i + 1 ==> fks[j].1 != cls by {
            forall j | 0 <= j < i + 1
              ensures fks[j].1 != cls
            {
              if j > 0 {
                assert fks[j] == fks[1..][j - 1];
              }
            }
          }
        }
      }
      r
  }

  /** The column of `foreign` that refers to the class `cls`, or "" when no
      foreign key of `foreign` targets `cls`. */
  function ReverseColumn(foreign: Model, cls: string): string
  {
    match ReverseKey(foreign.foreignFields, cls)
    case None => ""
    case Some(k) => LocalField(foreign, k + "_id").column
  }

  /** The body of databaseColumn's loop: `model` is the model reached so
      far, `path` the segments consumed and `ref` its alias; the last
      segment is the field. A segment that is no foreign key of `model`
      is taken as the class name of a model referring back to the base
      model; when it refers to the base model through none of its keys the
      lookup fails and yields "". */
  function Walk(c: Compiler, model: Model, path: string, ref: string, bits: seq<string>): (r: (string, Compiler))
    requires |bits| > 0
    ensures Step(c, r.1)
    ensures Clean(c) && '?' !in ref ==> '?' !in r.0
    decreases |bits|
  {
    if |bits| == 1 then
      (ref + "." + c.b.Column(LocalField(model, bits[0]).column), c)
    else
      var fk := bits[0];
      var path' := if path == "" then fk else path + "__" + fk;
      if HasKey(model.foreignFields, fk) then
        var foreign := c.models(Get(model.foreignFields, fk).value);
        var p := ReferenceModel(c, path', foreign, LocalField(model, fk + "_id").nullable);
        var r := Walk(p.1, foreign, path', p.0, bits[1..]);
        StepTrans(c, p.1, r.1);
        r
      else
        var foreign := c.models(fk);
        var left := ReverseColumn(foreign, c.base.className);
        if left == "" then
          ("", c)
        else
          var c1 := c.(reverse := Insert(c.reverse, path', ReverseReference(left, foreign.primaryKey)));
          var p := ReferenceModel(c1, path', foreign, false);
          var r := Walk(p.1, foreign, path', p.0, bits[1..]);
          StepTrans(c1, p.1, r.1);
          r
  }

  /** databaseColumn: the aliased, quoted column a `a__b__field` path names,
      registering the joins the path needs. */
  function DatabaseColumn(c: Compiler, name: string): (r: (string, Compiler))
    ensures Step(c, r.1)
    ensures Clean(c) ==> '?' !in r.0
  {
    Walk(c, c.base, "", c.b.Table(c.base.TableName()), Split(name, "__"))
  }

  /** A name without a path is a column of the base table, and no join is
      registered. */
  lemma ColumnWithoutPath(c: Compiler, name: string)
    requires !Strings.Contains(name, "__")
    ensures DatabaseColumn(c, name) ==
              (c.b.Table(c.base.TableName()) + "." + c.b.Column(LocalField(c.base, name).column), c)
  {
    SplitAbsent(name, "__");
  }

  /** A field the model does not have yields the quoted empty column. */
  lemma UnknownFieldColumn(c: Compiler, name: string)
    requires !Strings.Contains(name, "__") && name != "pk"
    requires forall i :: 0 <= i < |c.base.fields| ==> c.base.fields[i].name != name
    ensures DatabaseColumn(c, name).0 == c.b.Table(c.base.TableName()) + "." + c.b.Column("")
  {
    ColumnWithoutPath(c, name);
    var f := LocalField(c.base, name);
    assert !f.IsValid();
  }

  /** A path segment that ends where no `__` can begin. */
  predicate Segment(s: string)
  {
    !Strings.Contains(s + "_", "__")
  }

  /** The first segment of `fk__rest` is `fk`. */
  lemma SplitFirst(fk: string, rest: string)
    requires Segment(fk)
    ensures Split(fk + "__" + rest, "__") == [fk] + Split(rest, "__")
  {
    assert "__"[..1] == "_";
    SplitAt(fk, "__", rest);
  }

  /** A segment that is neither a foreign key of the base model nor the
      class of a model referring back to it makes the whole lookup fail. */
  lemma ReverseRejected(c: Compiler, fk: string, rest: string)
    requires Segment(fk)
    requires !HasKey(c.base.foreignFields, fk)
    requires forall i :: 0 <= i < |c.models(fk).foreignFields| ==>
               c.models(fk).foreignFields[i].1 != c.base.className
    ensures DatabaseColumn(c, fk + "__" + rest) == ("", c)
  {
    SplitFirst(fk, rest);
  }

  /** A reverse relation: `fk` names a class whose foreign key refers to
      the base model. The path is joined under a fresh alias on that key and
      the field is read from the referring model. */
  lemma ReverseAccepted(c: Compiler, fk: string, field: string)
    requires Segment(fk) && fk != "" && !Strings.Contains(field, "__")
    requires !HasKey(c.base.foreignFields, fk) && !HasKey(c.refs, fk)
    requires ReverseColumn(c.models(fk), c.base.className) != ""
    ensures var r := DatabaseColumn(c, fk + "__" + field);
            var foreign := c.models(fk);
            && r.0 == Alias(|c.refs|) + "." + c.b.Column(LocalField(foreign, field).column)
            && Get(r.1.refs, fk) == Some(ModelReference(Alias(|c.refs|), foreign, false))
            && Get(r.1.reverse, fk) == Some(ReverseReference(ReverseColumn(foreign, c.base.className), foreign.primaryKey))
  {
    SplitFirst(fk, field);
    SplitAbsent(field, "__");
    var bits := Split(fk + "__" + field, "__");
    assert bits == [fk, field] && bits[1..] == [field];
    var foreign := c.models(fk);
    var rev := ReverseReference(ReverseColumn(foreign, c.base.className), foreign.primaryKey);
    var c1 := c.(reverse := Insert(c.reverse, fk, rev));
    InsertGet(c.reverse, fk, rev, fk);
    var p := ReferenceModel(c1, fk, foreign, false);
    assert DatabaseColumn(c, fk + "__" + field) == Walk(p.1, foreign, fk, p.0, [field]);
  }

  /** A forward foreign key: the target model is joined under a fresh
      alias, nullable exactly when the key's `_id` field is, and the field
      is read from the target. */
  lemma ForwardColumn(c: Compiler, fk: string, field: string)
    requires Segment(fk) && fk != "" && !Strings.Contains(field, "__")
    requires HasKey(c.base.foreignFields, fk) && !HasKey(c.refs, fk)
    ensures var r := DatabaseColumn(c, fk + "__" + field);
            var target := c.models(Get(c.base.foreignFields, fk).value);
            && r.0 == Alias(|c.refs|) + "." + c.b.Column(LocalField(target, field).column)
            && Get(r.1.refs, fk) == Some(ModelReference(Alias(|c.refs|), target, LocalField(c.base, fk + "_id").nullable))
  {
    SplitFirst(fk, field);
    SplitAbsent(field, "__");
    var bits := Split(fk + "__" + field, "__");
    assert bits == [fk, field] && bits[1..] == [field];
    var target := c.models(Get(c.base.foreignFields, fk).value);
    var p := ReferenceModel(c, fk, target, LocalField(c.base, fk + "_id").nullable);
    assert DatabaseColumn(c, fk + "__" + field) == Walk(p.1, target, fk, p.0, [field]);
  }

  /** A path resolved a second time reuses its alias and registers nothing. */
  lemma ForwardColumnAgain(c: Compiler, fk: string, field: string)
    requires Segment(fk) && fk != "" && !Strings.Contains(field, "__")
    requires HasKey(c.base.foreignFields, fk) && HasKey(c.refs, fk)
    ensures DatabaseColumn(c, fk + "__" + field) ==
              (Get(c.refs, fk).value.alias + "." +
               c.b.Column(LocalField(c.models(Get(c.base.foreignFields, fk).value), field).column), c)
  {
    SplitFirst(fk, field);
    SplitAbsent(field, "__");
    var bits := Split(fk + "__" + field, "__");
    assert bits == [fk, field] && bits[1..] == [field];
    var target := c.models(Get(c.base.foreignFields, fk).value);
    var p := ReferenceModel(c, fk, target, LocalField(c.base, fk + "_id").nullable);
    assert DatabaseColumn(c, fk + "__" + field) == Walk(p.1, target, fk, p.0, [field]);
  }

  /** Two different paths registered by any sequence of compiler steps from
      a fresh compiler carry different aliases. */
  lemma AliasesDistinct(c: Compiler, c': Compiler, p1: string, p2: string)
    requires c.refs == [] && Step(c, c')
    requires HasKey(c'.refs, p1) && HasKey(c'.refs, p2) && p1 != p2
    ensures Get(c'.refs, p1).value.alias != Get(c'.refs, p2).value.alias
  {
    assert Numbered(c.refs);
  }

  // Resolving a where clause.

  /** The tree with the key of every leaf that carries an operation
      blanked: what resolving may not change. */
  function Erase(t: Where): Where
  {
    match t
    case Leaf(k, op, v, n) => if op != NoOp then Leaf("", op, v, n) else t
    case Node(comb, ch, n) => Node(comb, seq(|ch|, i requires 0 <= i < |ch| => Erase(ch[i])), n)
  }

  /** resolve: each leaf with an operation gets its key replaced by the
      column the key names. Only those keys change: shape, operators,
      values and negation flags are kept. */
  function Resolve(c: Compiler, t: Where): (r: (Where, Compiler))
    ensures Erase(r.0) == Erase(t)
    ensures Step(c, r.1)
    ensures Clean(c) ==> Clean(r.1) && KeysFree(r.0)
    decreases t, 0
  {
    match t
    case Leaf(k, op, v, n) =>
      if op != NoOp then
        var (col, c') := DatabaseColumn(c, k);
        (Leaf(col, op, v, n), c')
      else (t, c)
    case Node(comb, ch, n) =>
      var (ch', c') := ResolveAll(c, ch);
      assert seq(|ch'|, i requires 0 <= i < |ch'| => Erase(ch'[i])) ==
             seq(|ch|, i requires 0 <= i < |ch| => Erase(ch[i]));
      (Node(comb, ch', n), c')
  }

  function ResolveAll(c: Compiler, ch: seq<Where>): (r: (seq<Where>, Compiler))
    ensures |r.0| == |ch|
    ensures forall i :: 0 <= i < |ch| ==> Erase(r.0[i]) == Erase(ch[i])
    ensures Step(c, r.1)
    ensures Clean(c) ==> Clean(r.1) && forall i :: 0 <= i < |ch| ==> KeysFree(r.0[i])
    decreases ch, 1
  {
    if |ch| == 0 then ([], c)
    else
      var (w, c1) := Resolve(c, ch[0]);
      var (ws, c2) := ResolveAll(c1, ch[1..]);
      StepTrans(c, c1, c2);
      assert forall i :: 1 <= i < |ch| ==> ([w] + ws)[i] == ws[i - 1] && ch[i] == ch[1..][i - 1];
      ([w] + ws, c2)
  }

  // Selected columns.

  /** One qualified column per field, in declaration order. */
  function LocalColumns(b: Backend, alias: string, fields: seq<Field>): (r: seq<string>)
    ensures |r| == |fields|
    ensures forall i :: 0 <= i < |fields| ==> r[i] == alias + "." + b.Column(fields[i].column)
  {
    if |fields| == 0 then [] else [alias + "." + b.Column(fields[0].column)] + LocalColumns(b, alias, fields[1..])
  }

  /** The entries of an allow-list below the foreign key `fk`, with the
      `fk__` prefix removed. The key itself is not among them, so the list
      shrinks whenever it names the key. */
  function Nested(l: seq<string>, fk: string): (r: seq<string>)
    ensures forall x :: x in r <==> fk + "__" + x in l
    ensures |r| <= |l|
    ensures fk in l ==> |r| < |l|
  {
    if |l| == 0 then []
    else
      var p := fk + "__";
      var rest := Nested(l[1..], fk);
      assert forall x :: p + x in l <==> p + x == l[0] || p + x in l[1..] by {
        assert l == [l[0]] + l[1..];
      }
      assert fk in l ==> fk == l[0] || fk in l[1..] by {
        assert l == [l[0]] + l[1..];
      }
      if Strings.StartsWith(l[0], p) then
        assert l[0] == p + l[0][|p|..];
        assert l[0] != fk;
        assert forall x :: p + x == l[0] <==> x == l[0][|p|..] by {
          forall x | x == l[0][|p|..]
            ensures p + x == l[0]
          {
          }
          forall x | p + x == l[0]
            ensures x == l[0][|p|..]
          {
            assert (p + x)[|p|..] == x;
          }
        }
        [l[0][|p|..]] + rest
      else
        assert forall x :: p + x != l[0] by {
          forall x
            ensures p + x != l[0]
          {
            assert p <= p + x;
          }
        }
        rest
  }

  /** What bounds the recursion of fieldNames: the fuel when there is no
      allow-list, the length of the list otherwise. */
  function Budget(fields: Option<seq<string>>, fuel: nat): nat
  {
    if fields.None? then fuel else 0
  }

  function Listed(fields: Option<seq<string>>): nat
  {
    if fields.Some? then |fields.value| else 0
  }

  /** fieldNames: the columns of the model reached by `path` (its alias is
      registered first), then, when recursing, those of each foreign-key
      target in key order. A key is followed when there is no allow-list
      or when the list names it; the list handed down holds the entries
      below that key, which is shorter, so the recursion ends. Without a
      list every key is followed, which on a cycle of foreign keys never
      ends; there `fuel` bounds the depth followed. */
  function FieldNames(c: Compiler, recurse: bool, fields: Option<seq<string>>, m: Model, path: string,
                      nullable: bool, fuel: nat): (r: (seq<string>, Compiler))
    ensures Step(c, r.1)
    ensures |r.0| >= |m.fields|
    ensures r.0[..|m.fields|] == LocalColumns(c.b, ReferenceModel(c, path, m, nullable).0, m.fields)
    ensures !recurse ==> r.0 == LocalColumns(c.b, ReferenceModel(c, path, m, nullable).0, m.fields)
    ensures Clean(c) ==> forall i :: 0 <= i < |r.0| ==> '?' !in r.0[i]
    decreases Budget(fields, fuel), if fields.Some? then Listed(fields) + 1 else 0, 0, 0
  {
    var p := ReferenceModel(c, path, m, nullable);
    var local := LocalColumns(c.b, p.0, m.fields);
    assert Clean(c) ==> forall i :: 0 <= i < |local| ==> '?' !in local[i];
    if !recurse || (fields.None? && fuel == 0) then
      (local, p.1)
    else
      var prefix := if path == "" then "" else path + "__";
      var more := ForeignColumns(p.1, fields, m, prefix, m.foreignFields, if fields.None? then fuel - 1 else fuel);
      AppendColumns(c, p.1, more.1, local, more.0);
      (local + more.0, more.1)
  }

  /** The local columns followed by those of the foreign-key targets keep
      the compiler's step and its freedom from placeholders. */
  lemma AppendColumns(c: Compiler, c1: Compiler, c2: Compiler, local: seq<string>, more: seq<string>)
    requires Step(c, c1) && Step(c1, c2)
    requires Clean(c) ==> forall i :: 0 <= i < |local| ==> '?' !in local[i]
    requires Clean(c1) ==> forall i :: 0 <= i < |more| ==> '?' !in more[i]
    ensures Step(c, c2)
    ensures (local + more)[..|local|] == local
    ensures Clean(c) ==> forall i :: 0 <= i < |local + more| ==> '?' !in (local + more)[i]
  {
    StepTrans(c, c1, c2);
    assert (local + more)[..|local|] == local;
  }

  function ForeignColumns(c: Compiler, fields: Option<seq<string>>, m: Model, prefix: string,
                          fks: OMap<string>, fuel: nat): (r: (seq<string>, Compiler))
    ensures Step(c, r.1)
    ensures (fields.Some? && forall i :: 0 <= i < |fks| ==> fks[i].0 !in fields.value) ==> r == ([], c)
    ensures Clean(c) ==> forall i :: 0 <= i < |r.0| ==> '?' !in r.0[i]
    decreases Budget(fields, fuel), Listed(fields), 1, |fks|
  {
    if |fks| == 0 then ([], c)
    else
      var fk := fks[0].0;
      var foreign := c.models(fks[0].1);
      var nf := LocalField(m, fk + "_id").nullable;
      var (cols, c1) :=
        match fields
        case None => FieldNames(c, true, None, foreign, prefix + fk, nf, fuel)
        case Some(l) =>
          if fk in l then FieldNames(c, true, Some(Nested(l, fk)), foreign, prefix + fk, nf, fuel)
          else ([], c);
      var (rest, c2) := ForeignColumns(c1, fields, m, prefix, fks[1..], fuel);
      StepTrans(c, c1, c2);
      (cols + rest, c2)
  }

  /** With an allow-list naming none of the model's foreign keys (as
      selectRelated() without a list leaves it), only the model's own
      columns are selected. */
  lemma AllowListClosed(c: Compiler, l: seq<string>, m: Model, path: string, nullable: bool, fuel: nat)
    requires forall i :: 0 <= i < |m.foreignFields| ==> m.foreignFields[i].0 !in l
    ensures FieldNames(c, true, Some(l), m, path, nullable, fuel).0 ==
              LocalColumns(c.b, ReferenceModel(c, path, m, nullable).0, m.fields)
  {
  }

  /** The columns of the target of the model's first foreign key, under
      the alias the compiler registers for the path `path__key` once the
      model's own path is registered. */
  function FirstTargetColumns(c: Compiler, m: Model, path: string, nullable: bool): (r: seq<string>)
    requires |m.foreignFields| > 0
    ensures |r| == |c.models(m.foreignFields[0].1).fields|
  {
    var p := ReferenceModel(c, path, m, nullable);
    var fk := m.foreignFields[0].0;
    var foreign := p.1.models(m.foreignFields[0].1);
    var prefix := if path == "" then "" else path + "__";
    var q := ReferenceModel(p.1, prefix + fk, foreign, LocalField(m, fk + "_id").nullable);
    LocalColumns(p.1.b, q.0, foreign.fields)
  }

  /** Recursing with an allow-list that names the model's first foreign
      key selects, right after the model's own columns, the columns of the
      key's target under its alias. */
  lemma {:induction false} FieldNamesFollowsKey(c: Compiler, l: seq<string>, m: Model, path: string, nullable: bool, fuel: nat)
    requires |m.foreignFields| > 0 && m.foreignFields[0].0 in l
    ensures var r := FieldNames(c, true, Some(l), m, path, nullable, fuel).0;
            var t := FirstTargetColumns(c, m, path, nullable);
            |r| >= |m.fields| + |t| && r[|m.fields|..][..|t|] == t
  {
    var p := ReferenceModel(c, path, m, nullable);
    var prefix := if path == "" then "" else path + "__";
    var local := LocalColumns(c.b, p.0, m.fields);
    var more := ForeignColumns(p.1, Some(l), m, prefix, m.foreignFields, fuel).0;
    var r := FieldNames(c, true, Some(l), m, path, nullable, fuel).0;
    var t := FirstTargetColumns(c, m, path, nullable);
    FieldNamesUnfold(c, l, m, path, nullable, fuel);
    ForeignFirstKey(p.1, l, m, prefix, m.foreignFields, fuel);
    ChainSlice(r, local, more, t, |m.fields|, |t|);
  }

  lemma ChainSlice(r: seq<string>, local: seq<string>, more: seq<string>, cols: seq<string>, n: nat, k: nat)
    requires r == local + more && |local| == n && |cols| == k && |more| >= k && more[..k] == cols
    ensures |r| >= n + k && r[n..][..k] == cols
  {
    assert r[n..] == more;
  }

  lemma FieldNamesUnfold(c: Compiler, l: seq<string>, m: Model, path: string, nullable: bool, fuel: nat)
    ensures var p := ReferenceModel(c, path, m, nullable);
            var prefix := if path == "" then "" else path + "__";
            FieldNames(c, true, Some(l), m, path, nullable, fuel).0 ==
              LocalColumns(c.b, p.0, m.fields) + ForeignColumns(p.1, Some(l), m, prefix, m.foreignFields, fuel).0
  {
  }

  lemma ForeignFirstKey(c: Compiler, l: seq<string>, m: Model, prefix: string, fks: OMap<string>, fuel: nat)
    requires |fks| > 0 && fks[0].0 in l
    ensures var foreign := c.models(fks[0].1);
            var q := ReferenceModel(c, prefix + fks[0].0, foreign, LocalField(m, fks[0].0 + "_id").nullable);
            var r := ForeignColumns(c, Some(l), m, prefix, fks, fuel).0;
            |r| >= |foreign.fields| && r[..|foreign.fields|] == LocalColumns(c.b, q.0, foreign.fields)
  {
    var fk := fks[0].0;
    var foreign := c.models(fks[0].1);
    var cols := FieldNames(c, true, Some(Nested(l, fk)), foreign, prefix + fk, LocalField(m, fk + "_id").nullable, fuel);
    var rest := ForeignColumns(cols.1, Some(l), m, prefix, fks[1..], fuel);
    assert ForeignColumns(c, Some(l), m, prefix, fks, fuel).0 == cols.0 + rest.0;
    assert (cols.0 + rest.0)[..|foreign.fields|] == cols.0[..|foreign.fields|];
  }

  // The FROM clause.

  datatype JoinKind = InnerJoin | LeftOuterJoin

  /** ` <kind> <table> <alias> ON <left> = <right>` */
  datatype JoinClause = JoinClause(kind: JoinKind, table: string, alias: string, left: string, right: string)

  function JoinText(j: JoinClause): string
  {
    " " + (if j.kind == LeftOuterJoin then "LEFT OUTER JOIN" else "INNER JOIN") + " " + j.table + " " +
    j.alias + " ON " + j.left + " = " + j.right
  }

  function JoinsText(js: seq<JoinClause>): string
  {
    if |js| == 0 then "" else JoinText(js[0]) + JoinsText(js[1..])
  }

  /** The join for one registered path. A reverse relation joins the
      referring model's key column to the base model's primary key; a
      forward one joins the target's primary key to the key's `_id`
      column, both resolved as paths. */
  function JoinFor(c: Compiler, name: string, ref: ModelReference): (r: (JoinClause, Compiler))
    ensures Step(c, r.1)
    ensures r.0.kind == (if ref.nullable then LeftOuterJoin else InnerJoin)
    ensures r.0.alias == ref.alias && r.0.table == c.b.Table(ref.model.TableName())
    ensures Clean(c) && '?' !in ref.alias ==> '?' !in JoinText(r.0)
  {
    var kind := if ref.nullable then LeftOuterJoin else InnerJoin;
    var table := c.b.Table(ref.model.TableName());
    match Get(c.reverse, name)
    case Some(rev) =>
      var left := ref.alias + "." + c.b.Column(rev.leftHandKey);
      var (right, c1) := DatabaseColumn(c, rev.rightHandKey);
      JoinTextClean(JoinClause(kind, table, ref.alias, left, right));
      (JoinClause(kind, table, ref.alias, left, right), c1)
    case None =>
      var (left, c1) := DatabaseColumn(c, name + "__pk");
      var (right, c2) := DatabaseColumn(c1, name + "_id");
      StepTrans(c, c1, c2);
      JoinTextClean(JoinClause(kind, table, ref.alias, left, right));
      (JoinClause(kind, table, ref.alias, left, right), c2)
  }

  lemma JoinTextClean(j: JoinClause)
    ensures '?' !in j.table && '?' !in j.alias && '?' !in j.left && '?' !in j.right ==> '?' !in JoinText(j)
  {
    assert '?' !in " " && '?' !in " ON " && '?' !in " = ";
    assert '?' !in "LEFT OUTER JOIN" && '?' !in "INNER JOIN";
  }

  /** One join per entry of `refs`, in key order. The entries are those
      registered when the FROM clause is begun; a compiler step never
      rebinds a path, so reading them up front reads what the loop sees. */
  function JoinsOf(c: Compiler, refs: OMap<ModelReference>): (r: (seq<JoinClause>, Compiler))
    ensures Step(c, r.1)
    ensures |r.0| == |refs|
    ensures forall i :: 0 <= i < |refs| ==>
              && (r.0[i].kind == LeftOuterJoin <==> refs[i].1.nullable)
              && r.0[i].alias == refs[i].1.alias
              && r.0[i].table == c.b.Table(refs[i].1.model.TableName())
    ensures Clean(c) && (forall i :: 0 <= i < |refs| ==> '?' !in refs[i].1.alias) ==> '?' !in JoinsText(r.0)
    decreases |refs|
  {
    if |refs| == 0 then ([], c)
    else
      var (j, c1) := JoinFor(c, refs[0].0, refs[0].1);
      var (js, c2) := JoinsOf(c1, refs[1..]);
      JoinsCons(c, refs, j, c1, js, c2);
      ([j] + js, c2)
  }

  /** The recursive step of JoinsOf: the join of the first entry in front
      of the joins of the rest. */
  lemma JoinsCons(c: Compiler, refs: OMap<ModelReference>, j: JoinClause, c1: Compiler,
                  js: seq<JoinClause>, c2: Compiler)
    requires |refs| > 0 && Step(c, c1) && Step(c1, c2)
    requires (j.kind == LeftOuterJoin <==> refs[0].1.nullable)
    requires j.alias == refs[0].1.alias && j.table == c.b.Table(refs[0].1.model.TableName())
    requires Clean(c) && '?' !in refs[0].1.alias ==> '?' !in JoinText(j)
    requires |js| == |refs[1..]|
    requires forall i :: 0 <= i < |refs[1..]| ==>
               && (js[i].kind == LeftOuterJoin <==> refs[1..][i].1.nullable)
               && js[i].alias == refs[1..][i].1.alias
               && js[i].table == c1.b.Table(refs[1..][i].1.model.TableName())
    requires Clean(c1) && (forall i :: 0 <= i < |refs[1..]| ==> '?' !in refs[1..][i].1.alias) ==> '?' !in JoinsText(js)
    ensures Step(c, c2)
    ensures |[j] + js| == |refs|
    ensures forall i :: 0 <= i < |refs| ==>
              && (([j] + js)[i].kind == LeftOuterJoin <==> refs[i].1.nullable)
              && ([j] + js)[i].alias == refs[i].1.alias
              && ([j] + js)[i].table == c.b.Table(refs[i].1.model.TableName())
    ensures Clean(c) && (forall i :: 0 <= i < |refs| ==> '?' !in refs[i].1.alias) ==> '?' !in JoinsText([j] + js)
  {
    StepTrans(c, c1, c2);
    forall i | 1 <= i < |refs|
      ensures ([j] + js)[i] == js[i - 1] && refs[i] == refs[1..][i - 1]
    {
    }
    JoinsTextCons(j, js);
    if Clean(c) && (forall i :: 0 <= i < |refs| ==> '?' !in refs[i].1.alias) {
      assert '?' !in refs[0].1.alias;
      assert forall i :: 0 <= i < |refs[1..]| ==> '?' !in refs[1..][i].1.alias by {
        forall i | 0 <= i < |refs[1..]|
          ensures '?' !in refs[1..][i].1.alias
        {
          assert refs[1..][i] == refs[i + 1];
        }
      }
    }
  }

  lemma JoinsTextCons(j: JoinClause, js: seq<JoinClause>)
    ensures JoinsText([j] + js) == JoinText(j) + JoinsText(js)
  {
    assert ([j] + js)[0] == j && ([j] + js)[1..] == js;
  }

  /** fromSql: the base table followed by the joins of every path
      registered so far. */
  datatype From = From(table: string, joins: seq<JoinClause>)

  function FromText(f: From): string
  {
    f.table + JoinsText(f.joins)
  }

  function FromSql(c: Compiler): (r: (From, Compiler))
    ensures Step(c, r.1)
    ensures r.0.table == c.b.Table(c.base.TableName())
    ensures |r.0.joins| == |c.refs|
    ensures forall i :: 0 <= i < |c.refs| ==>
              && (r.0.joins[i].kind == LeftOuterJoin <==> c.refs[i].1.nullable)
              && r.0.joins[i].alias == c.refs[i].1.alias
    ensures Clean(c) ==> Clean(r.1) && '?' !in FromText(r.0)
  {
    var (js, c1) := JoinsOf(c, c.refs);
    assert Clean(c) ==> forall i :: 0 <= i < |c.refs| ==> '?' !in c.refs[i].1.alias by {
      if Clean(c) {
        SortedDistinct(c.refs);
        forall i | 0 <= i < |c.refs|
          ensures '?' !in c.refs[i].1.alias
        {
          assert Keys(c.refs)[i] == c.refs[i].0;
          CleanAlias(c, c.refs[i].0);
        }
      }
    }
    (From(c.b.Table(c.base.TableName()), js), c1)
  }

  /** Every alias a fresh compiler hands out appears in exactly one join,
      and joins appear in the order of their paths. */
  lemma OneJoinPerAlias(c: Compiler, a: string)
    requires Numbered(c.refs)
    ensures var js := FromSql(c).0.joins;
            (exists k :: HasKey(c.refs, k) && Get(c.refs, k).value.alias == a) <==>
            (exists i :: 0 <= i < |js| && js[i].alias == a)
  {
    var js := FromSql(c).0.joins;
    SortedDistinct(c.refs);
    if exists k :: HasKey(c.refs, k) && Get(c.refs, k).value.alias == a {
      var k :| HasKey(c.refs, k) && Get(c.refs, k).value.alias == a;
      var i :| 0 <= i < |c.refs| && c.refs[i] == (k, Get(c.refs, k).value);
      assert js[i].alias == a;
    }
    if exists i :: 0 <= i < |js| && js[i].alias == a {
      var i :| 0 <= i < |js| && js[i].alias == a;
      assert Keys(c.refs)[i] == c.refs[i].0;
      assert HasKey(c.refs, c.refs[i].0);
    }
  }

  // ORDER BY and paging.

  /** One ordering key: a leading '-' sorts descending, a leading '+' is
      dropped, anything else sorts ascending. */
  function OrderKey(key: string): (r: (string, bool))
    ensures r.1 <==> Strings.StartsWith(key, "-")
    ensures key == (if r.1 then "-" + r.0 else if Strings.StartsWith(key, "+") then "+" + r.0 else r.0)
  {
    if Strings.StartsWith(key, "-") then (key[1..], true)
    else if Strings.StartsWith(key, "+") then (key[1..], false)
    else (key, false)
  }

  /** Reading back a key written with a direction prefix. */
  lemma OrderKeyPrefixes(field: string)
    ensures OrderKey("-" + field) == (field, true)
    ensures OrderKey("+" + field) == (field, false)
  {
    assert ("-" + field)[1..] == field;
    assert ("+" + field)[1..] == field;
    assert ("+" + field)[0] == '+';
  }

  /** A resolved ordering column and its direction. */
  datatype OrderTerm = OrderTerm(column: string, descending: bool)

  function OrderTermText(t: OrderTerm): string
  {
    t.column + " " + (if t.descending then "DESC" else "ASC")
  }

  function OrderTermsText(ts: seq<OrderTerm>): (r: seq<string>)
    ensures |r| == |ts|
    ensures forall i :: 0 <= i < |ts| ==> r[i] == OrderTermText(ts[i])
  {
    if |ts| == 0 then [] else [OrderTermText(ts[0])] + OrderTermsText(ts[1..])
  }

  /** The ordering keys resolved in order; each term is descending exactly
      when its key starts with '-'. */
  function OrderTerms(c: Compiler, keys: seq<string>): (r: (seq<OrderTerm>, Compiler))
    ensures |r.0| == |keys|
    ensures Step(c, r.1)
    ensures forall i :: 0 <= i < |keys| ==> (r.0[i].descending <==> Strings.StartsWith(keys[i], "-"))
    ensures Clean(c) ==> forall i :: 0 <= i < |keys| ==> '?' !in r.0[i].column
    decreases |keys|
  {
    if |keys| == 0 then ([], c)
    else
      var (field, desc) := OrderKey(keys[0]);
      var (col, c1) := DatabaseColumn(c, field);
      var (rest, c2) := OrderTerms(c1, keys[1..]);
      StepTrans(c, c1, c2);
      assert forall i :: 1 <= i < |keys| ==> keys[i] == keys[1..][i - 1];
      ([OrderTerm(col, desc)] + rest, c2)
  }

  /** The paging clauses a statement ends with. */
  datatype Paging =
    | Limit(count: int)          // " LIMIT n"
    | Unlimited                  // the dialect's spelling of "no limit"
    | Offset(skip: int)          // " OFFSET n"
    | OffsetRows(skip: int)      // " OFFSET n ROWS"
    | FetchNext(count: int)      // " FETCH NEXT n ROWS ONLY"

  function PagingText(d: Dialect, p: Paging): string
  {
    match p
    case Limit(n) => " LIMIT " + IntStr(n)
    case Unlimited => if d == SQLite then " LIMIT -1" else " LIMIT 18446744073709551615"
    case Offset(n) => " OFFSET " + IntStr(n)
    case OffsetRows(n) => " OFFSET " + IntStr(n) + " ROWS"
    case FetchNext(n) => " FETCH NEXT " + IntStr(n) + " ROWS ONLY"
  }

  function PagingsText(d: Dialect, ps: seq<Paging>): string
  {
    if |ps| == 0 then "" else PagingText(d, ps[0]) + PagingsText(d, ps[1..])
  }

  /** The paging clauses for the marks: SQL Server's OFFSET ... ROWS /
      FETCH NEXT form, and LIMIT / OFFSET elsewhere, where an offset
      without a limit needs an explicit "no limit" on SQLite and MySQL. */
  function PagingFor(d: Dialect, low: int, high: int): (r: seq<Paging>)
    ensures d == MSSqlServer ==>
              && (OffsetRows(low) in r <==> low > 0 || (low == 0 && high > 0))
              && (FetchNext(high - low) in r <==> high > 0)
              && forall p :: p in r ==> p.OffsetRows? || p.FetchNext?
    ensures d != MSSqlServer ==>
              && (Limit(high - low) in r <==> high > 0)
              && (Unlimited in r <==> low > 0 && high <= 0 && (d == SQLite || d == MySqlServer))
              && (Offset(low) in r <==> low > 0)
              && forall p :: p in r ==> p.Limit? || p.Unlimited? || p.Offset?
  {
    if d == MSSqlServer then
      (if low > 0 || (low == 0 && high > 0) then [OffsetRows(low)] else []) +
      (if high > 0 then [FetchNext(high - low)] else [])
    else
      (if high > 0 then [Limit(high - low)] else []) +
      (if low > 0 then
         (if high <= 0 && (d == SQLite || d == MySqlServer) then [Unlimited] else []) + [Offset(low)]
       else [])
  }

  /** The rows a server returns for a paging sequence: the offset (the
      last one given) is skipped, then at most the limit (the first one
      given) is kept; a negative limit keeps everything. */
  function SkipOf(ps: seq<Paging>): int
  {
    if |ps| == 0 then 0
    else if ps[|ps| - 1].Offset? || ps[|ps| - 1].OffsetRows? then ps[|ps| - 1].skip
    else SkipOf(ps[..|ps| - 1])
  }

  function TakeOf(ps: seq<Paging>): (r: Option<int>)
    ensures r.Some? ==> r.value >= 0
  {
    if |ps| == 0 then None
    else if ps[0].Limit? || ps[0].FetchNext? then (if ps[0].count < 0 then None else Some(ps[0].count))
    else TakeOf(ps[1..])
  }

  function Page<T>(rows: seq<T>, ps: seq<Paging>): seq<T>
  {
    var skip := SkipOf(ps);
    var s := if skip <= 0 then 0 else if skip >= |rows| then |rows| else skip;
    var rest := rows[s..];
    match TakeOf(ps)
    case None => rest
    case Some(n) => if n >= |rest| then rest else rest[..n]
  }

  /** The row window the marks stand for: rows low up to (excluding) high,
      or to the end when there is no upper mark. */
  function Window<T>(rows: seq<T>, low: int, high: int): seq<T>
    requires 0 <= low && (high <= 0 || low <= high)
  {
    var l := if low >= |rows| then |rows| else low;
    var h := if high <= 0 || high >= |rows| then |rows| else high;
    rows[l..h]
  }

  /** The paging clauses select exactly the window of the marks, in every
      dialect (on dialects without a "no limit" spelling the lone OFFSET
      already means no limit). */
  lemma PagingSelectsWindow<T>(d: Dialect, low: int, high: int, rows: seq<T>)
    requires 0 <= low && (high <= 0 || low <= high)
    ensures Page(rows, PagingFor(d, low, high)) == Window(rows, low, high)
  {
    if d == MSSqlServer {
      ServerPaging(low, high);
    } else {
      ClausePaging(d, low, high);
    }
    PageOfMarks(rows, PagingFor(d, low, high), low, high);
  }

  /** Paging that skips `low` rows and keeps `high - low` when `high` is
      positive reads the window of the marks. */
  lemma PageOfMarks<T>(rows: seq<T>, ps: seq<Paging>, low: int, high: int)
    requires 0 <= low && (high <= 0 || low <= high)
    requires SkipOf(ps) == low
    requires TakeOf(ps) == if high > 0 then Some(high - low) else None
    ensures Page(rows, ps) == Window(rows, low, high)
  {
  }

  lemma ServerPaging(low: int, high: int)
    requires 0 <= low && (high <= 0 || low <= high)
    ensures SkipOf(PagingFor(MSSqlServer, low, high)) == low
    ensures TakeOf(PagingFor(MSSqlServer, low, high)) == if high > 0 then Some(high - low) else None
  {
    var ps := PagingFor(MSSqlServer, low, high);
    if high > 0 {
      assert ps == [OffsetRows(low), FetchNext(high - low)];
      assert ps[..1] == [OffsetRows(low)] && ps[1..] == [FetchNext(high - low)];
      assert SkipOf(ps[..1]) == low;
      assert TakeOf(ps[1..]) == Some(high - low);
    } else if low > 0 {
      assert ps == [OffsetRows(low)];
      assert ps[1..] == [];
      assert TakeOf(ps) == None;
    } else {
      assert ps == [];
    }
  }

  lemma ClausePaging(d: Dialect, low: int, high: int)
    requires d != MSSqlServer && 0 <= low && (high <= 0 || low <= high)
    ensures SkipOf(PagingFor(d, low, high)) == low
    ensures TakeOf(PagingFor(d, low, high)) == if high > 0 then Some(high - low) else None
  {
    if high > 0 && low > 0 {
      assert PagingFor(d, low, high) == [Limit(high - low)] + [Offset(low)];
      LimitOffsetPaging(high - low, low);
    } else if high > 0 {
      assert PagingFor(d, low, high) == [Limit(high - low)] + [];
      LimitOnlyPaging(high - low);
    } else if low > 0 && (d == SQLite || d == MySqlServer) {
      assert PagingFor(d, low, high) == [] + ([Unlimited] + [Offset(low)]);
      UnlimitedOffsetPaging(low);
    } else if low > 0 {
      assert PagingFor(d, low, high) == [] + ([] + [Offset(low)]);
      OffsetOnlyPaging(low);
    } else {
      assert PagingFor(d, low, high) == [] + [];
    }
  }

  lemma LimitOffsetPaging(n: int, k: int)
    requires n >= 0
    ensures SkipOf([Limit(n)] + [Offset(k)]) == k && TakeOf([Limit(n)] + [Offset(k)]) == Some(n)
  {
    var ps := [Limit(n)] + [Offset(k)];
    assert ps[|ps| - 1] == Offset(k) && ps[0] == Limit(n);
  }

  lemma LimitOnlyPaging(n: int)
    requires n >= 0
    ensures SkipOf([Limit(n)] + []) == 0 && TakeOf([Limit(n)] + []) == Some(n)
  {
    var ps := [Limit(n)] + [];
    assert ps == [Limit(n)];
    assert ps[..0] == [];
  }

  lemma UnlimitedOffsetPaging(k: int)
    ensures SkipOf([] + ([Unlimited] + [Offset(k)])) == k && TakeOf([] + ([Unlimited] + [Offset(k)])) == None
  {
    var ps := [] + ([Unlimited] + [Offset(k)]);
    assert ps == [Unlimited, Offset(k)];
    assert ps[1..] == [Offset(k)] && ps[1..][1..] == [];
    assert TakeOf(ps[1..]) == TakeOf(ps[1..][1..]) == None;
    assert TakeOf(ps) == TakeOf(ps[1..]);
  }

  lemma OffsetOnlyPaging(k: int)
    ensures SkipOf([] + ([] + [Offset(k)])) == k && TakeOf([] + ([] + [Offset(k)])) == None
  {
    var ps := [] + ([] + [Offset(k)]);
    assert ps == [Offset(k)];
    assert ps[1..] == [];
  }


  /** orderLimitSql: the ordering keys, then the paging clauses. On SQL
      Server a paged query without ordering keys is ordered by the
      primary-key column, since OFFSET needs an ORDER BY there. */
  datatype OrderLimit = OrderLimit(terms: seq<OrderTerm>, byKey: Option<string>, paging: seq<Paging>)

  function OrderLimitText(d: Dialect, o: OrderLimit): string
  {
    (if |o.terms| > 0 then " ORDER BY " + Join(OrderTermsText(o.terms), ", ")
     else if o.byKey.Some? then " ORDER BY " + o.byKey.value
     else "") +
    PagingsText(d, o.paging)
  }

  function OrderLimitSql(c: Compiler, orderBy: seq<string>, low: int, high: int): (r: (OrderLimit, Compiler))
    ensures Step(c, r.1)
    ensures r.0.terms == OrderTerms(c, orderBy).0
    ensures r.0.paging == PagingFor(c.b.dialect, low, high)
    ensures r.0.byKey.Some? <==> |orderBy| == 0 && c.b.dialect == MSSqlServer && (high > 0 || low > 0)
    ensures r.0.byKey.Some? ==> r.0.byKey.value == DatabaseColumn(c, c.base.primaryKey).0
    ensures Clean(c) ==> Clean(r.1)
    ensures Clean(c) ==> (forall i :: 0 <= i < |r.0.terms| ==> '?' !in r.0.terms[i].column) &&
                         (r.0.byKey.Some? ==> '?' !in r.0.byKey.value)
  {
    var (terms, c1) := OrderTerms(c, orderBy);
    var paging := PagingFor(c.b.dialect, low, high);
    if |terms| == 0 && c.b.dialect == MSSqlServer && (high > 0 || low > 0) then
      var (pk, c2) := DatabaseColumn(c1, c.base.primaryKey);
      (OrderLimit(terms, Some(pk), paging), c2)
    else
      (OrderLimit(terms, None, paging), c1)
  }
}

=== FILE: dialects.dfy ===
/** The database back ends the library tells apart, how the back end is
    recognised from the Qt driver name, and the driver services the SQL
    generator uses without knowing their definition. */
module Dialects {
  import opened Strings
  import opened Options

  datatype Dialect =
    | UnknownDB
    | MSSqlServer
    | MySqlServer
    | PostgreSQL
    | Oracle
    | Sybase
    | SQLite
    | Interbase
    | DB2
    | DaMeng

  /** What the probe queries sent over an ODBC connection answered: whether
      `SELECT sqlite_version()` succeeded, and the first column of the first
      row of `SELECT @@version`, `SELECT version()` and
      `SELECT * from v$version` (None when the query failed or gave no row). */
  datatype OdbcProbe = OdbcProbe(
    sqliteVersion: bool,
    serverVersion: Option<string>,
    version: Option<string>,
    vendorVersion: Option<string>)

  /** The back end of a connection, from its Qt driver name; an ODBC
      connection is classified by the probe answers, in the order the probes
      are sent. */
  function DriverDialect(driver: string, probe: OdbcProbe): (d: Dialect)
    ensures driver == "QMYSQL" || driver == "QMYSQL3" ==> d == MySqlServer
    ensures driver == "QSQLITE" || driver == "QSQLITE2" ==> d == SQLite
    ensures driver == "QPSQL" ==> d == PostgreSQL
    ensures driver !in {"QMYSQL", "QMYSQL3", "QSQLITE", "QSQLITE2", "QPSQL", "QODBC"} ==> d == UnknownDB
    ensures driver == "QODBC" && probe.sqliteVersion ==> d == SQLite
    ensures d in {MySqlServer, SQLite, PostgreSQL, MSSqlServer, DaMeng, UnknownDB}
  {
    if driver == "QMYSQL" || driver == "QMYSQL3" then MySqlServer
    else if driver == "QSQLITE" || driver == "QSQLITE2" then SQLite
    else if driver == "QPSQL" then PostgreSQL
    else if driver == "QODBC" then OdbcDialect(probe)
    else UnknownDB
  }

  function OdbcDialect(probe: OdbcProbe): (d: Dialect)
    ensures d == MSSqlServer ==> probe.serverVersion.Some? && Contains(probe.serverVersion.value, "Microsoft SQL Server")
    ensures d == DaMeng ==> probe.vendorVersion.Some? && Contains(probe.vendorVersion.value, "DM Database Server")
    ensures d == MySqlServer <==>
      !probe.sqliteVersion && probe.version.Some? && !Contains(probe.version.value, "PostgreSQL") &&
      !(probe.serverVersion.Some? && Contains(probe.serverVersion.value, "Microsoft SQL Server"))
  {
    if probe.sqliteVersion then SQLite
    else if probe.serverVersion.Some? && Contains(probe.serverVersion.value, "Microsoft SQL Server") then MSSqlServer
    else if probe.version.Some? then
      (if Contains(probe.version.value, "PostgreSQL") then PostgreSQL else MySqlServer)
    else if probe.vendorVersion.Some? && Contains(probe.vendorVersion.value, "DM Database Server") then DaMeng
    else UnknownDB
  }

  /** Which kind of identifier QSqlDriver::escapeIdentifier is quoting. */
  datatype IdentifierKind = TableName | FieldName

  /** The connection as the SQL generator sees it: its dialect, the driver's
      identifier quoting and the digest used to name constraints and
      indexes. Quoting and digest are left uninterpreted: every property
      proved here holds whatever they compute. */
  datatype Backend = Backend(
    dialect: Dialect,
    escape: (string, IdentifierKind) -> string,
    digest: seq<string> -> string)
  {
    function Table(name: string): string
    {
      escape(name, TableName)
    }

    function Column(name: string): string
    {
      escape(name, FieldName)
    }
  }
}

=== FILE: meta_model.dfy ===
/** The model descriptor: what the library derives from a model class's
    reflected properties and `key=value` annotations. A descriptor lists
    the table's fields in declaration order, the foreign keys, the primary
    key and the unique-together column names. */
module MetaModel {
  import opened Options
  import opened Strings
  import opened Values
  import opened OrderedMaps

  /** The value types a column can hold (QVariant::Type as the library
      switches on it); `OtherType` is any type the schema generator skips,
      `InvalidType` the type of the empty field. */
  datatype FieldType =
    | BoolType | ByteArrayType | DateType | DateTimeType | DoubleType
    | IntType | LongLongType | StringType | TimeType | StringListType
    | OtherType | InvalidType

  /** The `on_delete` action of a foreign key. */
  datatype OnDelete = NoAction | Restrict | Cascade | SetNull

  datatype Field = Field(
    name: string,
    ftype: FieldType,
    column: string,
    maxLength: int,
    nullable: bool,
    unique: bool,
    blank: bool,
    index: bool,
    autoIncrement: bool,
    foreignModel: string,
    onDelete: OnDelete)
  {
    /** NOrmMetaField::isValid: a field is valid when it has a name. */
    predicate IsValid()
    {
      name != ""
    }

    predicate IsForeignKey()
    {
      foreignModel != ""
    }
  }

  /** The field a default-constructed NOrmMetaField describes. */
  const EmptyField := Field("", InvalidType, "", 0, false, false, false, false, false, "", NoAction)

  /** The primary key added to a model that declares none. */
  const IdField := Field("id", IntType, "id", 0, false, false, false, false, true, "", NoAction)

  datatype Model = Model(
    className: string,
    table: Option<string>,          // None for the invalid descriptor
    fields: seq<Field>,
    foreignFields: OMap<string>,    // property name -> target class name
    primaryKey: string,
    uniqueTogether: seq<string>)
  {
    /** NOrmMetaModel::isValid: a descriptor is valid when it has a table. */
    predicate IsValid()
    {
      table.Some?
    }

    function TableName(): string
    {
      table.GetOr("")
    }
  }

  /** The descriptor built from no class at all. */
  const InvalidModel := Model("", None, [], [], "", [])

  /** One reflected property: its name, its C++ type name (a pointer type
      ends in '*'), the value type it maps to and its annotation text, if the
      class carries one for it. */
  datatype Property = Property(name: string, typeName: string, ptype: FieldType, annotation: Option<string>)

  /** A model class as the reflection layer presents it: its name, the
      class-level `__meta__` annotation and its own properties in order. */
  datatype ClassInfo = ClassInfo(className: string, meta: Option<string>, properties: seq<Property>)

  // Annotations.

  /** The `key=value` assignments of an annotation, in order: tokens are
      separated by spaces, a token that is not exactly two parts around '='
      is dropped and the key is lower-cased. */
  function Assignments(items: seq<string>): (r: seq<(string, string)>)
    ensures forall i :: 0 <= i < |r| ==> Lower(r[i].0) == r[i].0
    decreases |items|
  {
    if |items| == 0 then []
    else
      var assign := Split(items[0], "=");
      var rest := Assignments(items[1..]);
      LowerIdempotent(if |assign| == 2 then assign[0] else "");
      if |assign| == 2 then [(Lower(assign[0]), assign[1])] + rest else rest
  }

  /** parseOptions: the annotation as a map; a later assignment to the same
      key replaces an earlier one. */
  function ParseOptions(text: string): (r: OMap<string>)
    ensures Sorted(r)
  {
    FromPairs(Assignments(SplitSkipEmpty(text, " ")))
  }

  /** The value an annotation assigns to `key`: that of its last well-formed
      token whose lower-cased key is `key`. */
  function LastAssignment(items: seq<string>, key: string): Option<string>
    decreases |items|
  {
    if |items| == 0 then None
    else
      var assign := Split(items[|items| - 1], "=");
      if |assign| == 2 && Lower(assign[0]) == key then Some(assign[1])
      else LastAssignment(items[..|items| - 1], key)
  }

  lemma {:induction false} AssignmentsAppend(a: seq<string>, b: seq<string>)
    ensures Assignments(a + b) == Assignments(a) + Assignments(b)
    decreases |a|
  {
    if |a| > 0 {
      assert (a + b)[1..] == a[1..] + b;
      AssignmentsAppend(a[1..], b);
    } else {
      assert a + b == b;
    }
  }

  lemma {:induction false} LastAssignmentIsLastPair(items: seq<string>, key: string)
    ensures LastFor(Assignments(items), key) == LastAssignment(items, key)
    decreases |items|
  {
    if |items| > 0 {
      var init := items[..|items| - 1];
      var last := items[|items| - 1];
      assert items == init + [last];
      AssignmentsAppend(init, [last]);
      LastAssignmentIsLastPair(init, key);
      var tail := Assignments([last]);
      var assign := Split(last, "=");
      if |assign| == 2 {
        assert tail == [(Lower(assign[0]), assign[1])];
        assert Assignments(items)[..|Assignments(items)| - 1] == Assignments(init);
      } else {
        assert tail == [];
        assert Assignments(items) == Assignments(init);
      }
    }
  }

  /** Looking up an option finds the last assignment to it. */
  lemma ParseOptionsLastWins(text: string, key: string)
    ensures Get(ParseOptions(text), key) == LastAssignment(SplitSkipEmpty(text, " "), key)
  {
    FromPairsGet(Assignments(SplitSkipEmpty(text, " ")), key);
    LastAssignmentIsLastPair(SplitSkipEmpty(text, " "), key);
  }

  /** Option keys are stored lower-cased, so an annotation key matches
      whatever its letter case. */
  lemma ParseOptionsKeysLower(text: string, key: string)
    requires HasKey(ParseOptions(text), key)
    ensures Lower(key) == key
  {
    var pairs := Assignments(SplitSkipEmpty(text, " "));
    FromPairsGet(pairs, key);
    var i :| 0 <= i < |pairs| && pairs[i].0 == key;
  }

  /** stringToBool. A text it accepts is also true as a variant, so a flag
      and the variant conversion never disagree on it. */
  function StringToBool(value: string): (r: bool)
    ensures r ==> ToBool(Str(value))
    ensures value in {"1", "true", "True", "TRUE"} ==> r
    ensures value in {"", "0", "false", "yes"} ==> !r
  {
    if Lower(value) == "true" || value == "1" then TrueTextIsTrue(value); true else false
  }

  lemma TrueTextIsTrue(value: string)
    requires Lower(value) == "true" || value == "1"
    ensures ToBool(Str(value))
  {
    if Lower(value) == "true" {
      assert value != "" && value != "0";
    } else {
      assert Lower(value) == "1";
    }
  }

  /** The per-property annotation, with the defaults of the constructor. */
  datatype FieldOptions = FieldOptions(
    autoIncrement: bool,
    dbColumn: string,
    dbIndex: bool,
    ignore: bool,
    maxLength: int,
    primaryKey: bool,
    nullable: bool,
    unique: bool,
    blank: bool,
    onDelete: OnDelete)

  const DefaultOptions := FieldOptions(false, "", false, false, 0, false, false, false, false, NoAction)

  function Flag(opts: OMap<string>, key: string): bool
  {
    match Get(opts, key)
    case None => false
    case Some(v) => StringToBool(v)
  }

  /** The `on_delete` value, in any letter case; anything else is NoAction. */
  function OnDeleteOf(value: string): OnDelete
  {
    var v := Lower(value);
    if v == "cascade" then Cascade
    else if v == "set_null" then SetNull
    else if v == "restrict" then Restrict
    else NoAction
  }

  /** The options of one property's annotations; an option that is not
      annotated keeps its default. */
  function ReadFieldOptions(opts: OMap<string>): (r: FieldOptions)
    ensures opts == [] ==> r == DefaultOptions
    ensures r.primaryKey ==> Get(opts, "primary_key").Some?
    ensures r.autoIncrement ==> Get(opts, "auto_increment").Some?
    ensures r.nullable ==> Get(opts, "null").Some?
    ensures r.ignore ==> Get(opts, "ignore_field").Some?
    ensures r.onDelete != NoAction ==> Get(opts, "on_delete").Some?
    ensures Get(opts, "max_length").None? ==> r.maxLength == 0
  {
    FieldOptions(
      Flag(opts, "auto_increment"),
      GetOr(opts, "db_column", ""),
      Flag(opts, "db_index"),
      Flag(opts, "ignore_field"),
      match Get(opts, "max_length") case None => 0 case Some(v) => ParseInt(v),
      Flag(opts, "primary_key"),
      Flag(opts, "null"),
      Flag(opts, "unique"),
      Flag(opts, "blank"),
      match Get(opts, "on_delete") case None => NoAction case Some(v) => OnDeleteOf(v))
  }

  function OptionsOf(p: Property): FieldOptions
  {
    match p.annotation
    case None => DefaultOptions
    case Some(text) => ReadFieldOptions(ParseOptions(text))
  }

  // Fields.

  /** A property together with its parsed annotation. */
  datatype Annotated = Annotated(prop: Property, opts: FieldOptions)

  function Annotate(ps: seq<Property>): (r: seq<Annotated>)
    ensures |r| == |ps| && forall i :: 0 <= i < |ps| ==> r[i] == Annotated(ps[i], OptionsOf(ps[i]))
  {
    seq(|ps|, i requires 0 <= i < |ps| => Annotated(ps[i], OptionsOf(ps[i])))
  }

  predicate IsPointer(p: Property)
  {
    |p.typeName| > 0 && p.typeName[|p.typeName| - 1] == '*'
  }

  /** The `pk` property and ignored properties give no field. */
  predicate Kept(a: Annotated)
  {
    a.prop.name != "pk" && !a.opts.ignore
  }

  /** The property declares the primary key. */
  predicate MarksPrimaryKey(a: Annotated)
  {
    Kept(a) && !IsPointer(a.prop) && a.opts.primaryKey
  }

  function ColumnName(name: string, dbColumn: string): string
  {
    if dbColumn == "" then name else dbColumn
  }

  /** The field a kept property contributes. A pointer property becomes an
      indexed integer `<name>_id` column referring to the pointed-to class;
      for any other property the flags primary_key, unique, blank and
      db_index are exclusive in that order of precedence, and only a
      primary key takes auto_increment. */
  function FieldOf(a: Annotated): Field
  {
    var p := a.prop;
    var o := a.opts;
    if IsPointer(p) then
      var name := p.name + "_id";
      Field(name, IntType, ColumnName(name, o.dbColumn), 0, o.nullable, false, false, true, false,
            p.typeName[..|p.typeName| - 1], o.onDelete)
    else
      Field(p.name, p.ptype, ColumnName(p.name, o.dbColumn), o.maxLength, o.nullable,
            !o.primaryKey && o.unique,
            !o.primaryKey && !o.unique && o.blank,
            !o.primaryKey && !o.unique && !o.blank && o.dbIndex,
            o.primaryKey && o.autoIncrement,
            "", NoAction)
  }

  /** The fields of the kept properties, in declaration order. */
  function DeclaredFields(ps: seq<Annotated>): (r: seq<Field>)
    ensures |r| <= |ps|
    decreases |ps|
  {
    if |ps| == 0 then []
    else DeclaredFields(ps[..|ps| - 1]) + (if Kept(ps[|ps| - 1]) then [FieldOf(ps[|ps| - 1])] else [])
  }

  /** The name of the last property marked primary_key, or "". */
  function DeclaredKey(ps: seq<Annotated>): string
    decreases |ps|
  {
    if |ps| == 0 then ""
    else if MarksPrimaryKey(ps[|ps| - 1]) then ps[|ps| - 1].prop.name
    else DeclaredKey(ps[..|ps| - 1])
  }

  /** The foreign keys, property name to target class, in declaration order. */
  function ForeignPairs(ps: seq<Annotated>): (r: seq<(string, string)>)
    decreases |ps|
  {
    if |ps| == 0 then []
    else
      var a := ps[|ps| - 1];
      var p := a.prop;
      ForeignPairs(ps[..|ps| - 1]) + (if Kept(a) && IsPointer(p) then [(p.name, p.typeName[..|p.typeName| - 1])] else [])
  }

  /** The descriptor constructor (NOrmMetaModel::NOrmMetaModel): the table
      is the lower-cased class name unless `db_table` names it, and
      `unique_together` lists field names separated by ','. */
  function Build(c: ClassInfo): (m: Model)
    ensures m.IsValid() && m.className == c.className
    ensures m.primaryKey != ""
    ensures Sorted(m.foreignFields)
  {
    var classOpts := match c.meta case None => [] case Some(text) => ParseOptions(text);
    var table := GetOr(classOpts, "db_table", Lower(c.className));
    var together := match Get(classOpts, "unique_together") case None => [] case Some(v) => Split(v, ",");
    Assemble(c.className, table, together, Annotate(c.properties))
  }

  /** The descriptor of the given properties; without a declared primary key
      the `id` field is put first. */
  function Assemble(className: string, table: string, together: seq<string>, ps: seq<Annotated>): (m: Model)
    ensures m.table == Some(table) && m.className == className
    ensures m.primaryKey != ""
    ensures Sorted(m.foreignFields)
  {
    var declared := DeclaredFields(ps);
    var key := DeclaredKey(ps);
    var fields := if key == "" then [IdField] + declared else declared;
    Model(className, Some(table), fields, FromPairs(ForeignPairs(ps)), if key == "" then "id" else key, together)
  }

  /** The class-level part of a descriptor. */
  function TableOf(c: ClassInfo): string
  {
    var classOpts := match c.meta case None => [] case Some(text) => ParseOptions(text);
    GetOr(classOpts, "db_table", Lower(c.className))
  }

  function TogetherOf(c: ClassInfo): seq<string>
  {
    var classOpts := match c.meta case None => [] case Some(text) => ParseOptions(text);
    match Get(classOpts, "unique_together") case None => [] case Some(v) => Split(v, ",")
  }

  lemma BuildIsAssemble(c: ClassInfo)
    ensures Build(c) == Assemble(c.className, TableOf(c), TogetherOf(c), Annotate(c.properties))
  {
  }

  lemma {:induction false} DeclaredKeyHasField(ps: seq<Annotated>)
    requires DeclaredKey(ps) != ""
    ensures exists i :: 0 <= i < |DeclaredFields(ps)| && DeclaredFields(ps)[i].name == DeclaredKey(ps)
    decreases |ps|
  {
    var init := ps[..|ps| - 1];
    var p := ps[|ps| - 1];
    var r := DeclaredFields(ps);
    if MarksPrimaryKey(p) {
      assert r[|r| - 1] == FieldOf(p);
    } else {
      DeclaredKeyHasField(init);
      var i :| 0 <= i < |DeclaredFields(init)| && DeclaredFields(init)[i].name == DeclaredKey(init);
      assert r[i] == DeclaredFields(init)[i];
    }
  }

  /** Every descriptor has a field for its primary key; when the class
      declares none, that field is the auto-incremented integer `id` placed
      first. */
  lemma BuildHasPrimaryKey(c: ClassInfo)
    ensures var m := Build(c);
            exists i :: 0 <= i < |m.fields| && m.fields[i].name == m.primaryKey
    ensures DeclaredKey(Annotate(c.properties)) == "" ==>
              Build(c).fields[0] == IdField && Build(c).primaryKey == "id"
    ensures DeclaredKey(Annotate(c.properties)) != "" ==> Build(c).primaryKey == DeclaredKey(Annotate(c.properties))
  {
    BuildIsAssemble(c);
    AssembleHasPrimaryKey(c.className, TableOf(c), TogetherOf(c), Annotate(c.properties));
  }

  lemma AssembleHasPrimaryKey(n: string, t: string, g: seq<string>, ps: seq<Annotated>)
    ensures var m := Assemble(n, t, g, ps);
            exists i :: 0 <= i < |m.fields| && m.fields[i].name == m.primaryKey
    ensures DeclaredKey(ps) == "" ==> Assemble(n, t, g, ps).fields[0] == IdField && Assemble(n, t, g, ps).primaryKey == "id"
    ensures DeclaredKey(ps) != "" ==> Assemble(n, t, g, ps).primaryKey == DeclaredKey(ps)
  {
    var m := Assemble(n, t, g, ps);
    if DeclaredKey(ps) == "" {
      assert m.fields[0].name == m.primaryKey;
    } else {
      DeclaredKeyHasField(ps);
    }
  }

  /** Flag discipline of every field: at most one of unique, blank and index;
      an auto-incremented field has none of them; a foreign key is an
      indexed integer column named `<property>_id`. */
  predicate WellFlagged(f: Field)
  {
    && !(f.unique && f.blank) && !(f.unique && f.index) && !(f.blank && f.index)
    && (f.autoIncrement ==> !f.unique && !f.blank && !f.index)
    && (f.IsForeignKey() ==> f.ftype == IntType && f.index && EndsWith(f.name, "_id"))
  }

  lemma {:induction false} DeclaredFieldsWellFlagged(ps: seq<Annotated>)
    ensures forall i :: 0 <= i < |DeclaredFields(ps)| ==> WellFlagged(DeclaredFields(ps)[i])
    decreases |ps|
  {
    if |ps| > 0 {
      var init := ps[..|ps| - 1];
      var p := ps[|ps| - 1];
      DeclaredFieldsWellFlagged(init);
      var f := FieldOf(p);
      if IsPointer(p.prop) {
        assert (p.prop.name + "_id")[|p.prop.name + "_id"| - 3..] == "_id";
      }
      assert WellFlagged(f);
    }
  }

  lemma AssembleWellFlagged(n: string, t: string, g: seq<string>, ps: seq<Annotated>)
    ensures forall i :: 0 <= i < |Assemble(n, t, g, ps).fields| ==> WellFlagged(Assemble(n, t, g, ps).fields[i])
  {
    DeclaredFieldsWellFlagged(ps);
    var m := Assemble(n, t, g, ps);
    if DeclaredKey(ps) == "" {
      assert forall i :: 1 <= i < |m.fields| ==> m.fields[i] == DeclaredFields(ps)[i - 1];
    }
  }

  lemma BuildWellFlagged(c: ClassInfo)
    ensures forall i :: 0 <= i < |Build(c).fields| ==> WellFlagged(Build(c).fields[i])
  {
    BuildIsAssemble(c);
    AssembleWellFlagged(c.className, TableOf(c), TogetherOf(c), Annotate(c.properties));
  }

  lemma {:induction false} ForeignPairHasField(ps: seq<Annotated>, k: string, t: string)
    requires (k, t) in ForeignPairs(ps)
    ensures exists i :: 0 <= i < |DeclaredFields(ps)| &&
              DeclaredFields(ps)[i].name == k + "_id" && DeclaredFields(ps)[i].foreignModel == t
    decreases |ps|
  {
    var init := ps[..|ps| - 1];
    var p := ps[|ps| - 1];
    var r := DeclaredFields(ps);
    if (k, t) in ForeignPairs(init) {
      ForeignPairHasField(init, k, t);
      var i :| 0 <= i < |DeclaredFields(init)| &&
               DeclaredFields(init)[i].name == k + "_id" && DeclaredFields(init)[i].foreignModel == t;
      assert r[i] == DeclaredFields(init)[i];
    } else {
      assert r[|r| - 1] == FieldOf(p);
    }
  }

  /** Each foreign-key entry `prop -> Target` of a descriptor comes with a
      field `prop_id` that refers to Target. */
  lemma BuildForeignFields(c: ClassInfo, k: string)
    requires HasKey(Build(c).foreignFields, k)
    ensures var m := Build(c);
            exists i :: 0 <= i < |m.fields| &&
              m.fields[i].name == k + "_id" &&
              m.fields[i].foreignModel == Get(m.foreignFields, k).value
  {
    BuildIsAssemble(c);
    AssembleForeignFields(c.className, TableOf(c), TogetherOf(c), Annotate(c.properties), k);
  }

  lemma ForeignEntryHasField(ps: seq<Annotated>, k: string)
    requires Get(FromPairs(ForeignPairs(ps)), k).Some?
    ensures exists i :: 0 <= i < |DeclaredFields(ps)| &&
              DeclaredFields(ps)[i].name == k + "_id" &&
              DeclaredFields(ps)[i].foreignModel == Get(FromPairs(ForeignPairs(ps)), k).value
  {
    var pairs := ForeignPairs(ps);
    FromPairsGet(pairs, k);
    var t := Get(FromPairs(pairs), k).value;
    assert (k, t) in pairs;
    ForeignPairHasField(ps, k, t);
  }

  lemma AssembleForeignFields(n: string, tb: string, g: seq<string>, ps: seq<Annotated>, k: string)
    requires HasKey(Assemble(n, tb, g, ps).foreignFields, k)
    ensures var m := Assemble(n, tb, g, ps);
            exists i :: 0 <= i < |m.fields| &&
              m.fields[i].name == k + "_id" &&
              m.fields[i].foreignModel == Get(m.foreignFields, k).value
  {
    var m := Assemble(n, tb, g, ps);
    var declared := DeclaredFields(ps);
    assert m.foreignFields == FromPairs(ForeignPairs(ps));
    ForeignEntryHasField(ps, k);
    var t := Get(m.foreignFields, k).value;
    var j :| 0 <= j < |declared| && declared[j].name == k + "_id" && declared[j].foreignModel == t;
    if DeclaredKey(ps) == "" {
      assert m.fields[j + 1] == declared[j];
    } else {
      assert m.fields[j] == declared[j];
    }
  }

  // Field lookup.

  /** The first field with the given name, or the empty field. */
  function FindField(fields: seq<Field>, name: string): (r: Field)
    ensures r.IsValid() ==> r in fields && r.name == name
    ensures (exists i :: 0 <= i < |fields| && fields[i].name == name) && name != "" ==> r.IsValid()
    ensures forall i :: (0 <= i < |fields| && fields[i].name == name &&
              forall j :: 0 <= j < i ==> fields[j].name != name) ==> r == fields[i]
    ensures (forall i :: 0 <= i < |fields| ==> fields[i].name != name) ==> r == EmptyField
    decreases |fields|
  {
    if |fields| == 0 then EmptyField
    else if fields[0].name == name then fields[0]
    else
      var r := FindField(fields[1..], name);
      FindFieldCons(fields, name, r);
      r
  }

  /** A field found after a first field of another name is found in the
      whole list. */
  lemma FindFieldCons(fields: seq<Field>, name: string, r: Field)
    requires |fields| > 0 && fields[0].name != name
    requires var tail := fields[1..];
             && (r.IsValid() ==> r in tail && r.name == name)
             && ((exists i :: 0 <= i < |tail| && tail[i].name == name) && name != "" ==> r.IsValid())
             && (forall i :: (0 <= i < |tail| && tail[i].name == name &&
                   forall j :: 0 <= j < i ==> tail[j].name != name) ==> r == tail[i])
             && ((forall i :: 0 <= i < |tail| ==> tail[i].name != name) ==> r == EmptyField)
    ensures r.IsValid() ==> r in fields && r.name == name
    ensures (exists i :: 0 <= i < |fields| && fields[i].name == name) && name != "" ==> r.IsValid()
    ensures forall i :: (0 <= i < |fields| && fields[i].name == name &&
              forall j :: 0 <= j < i ==> fields[j].name != name) ==> r == fields[i]
    ensures (forall i :: 0 <= i < |fields| ==> fields[i].name != name) ==> r == EmptyField
  {
    assert forall i :: 1 <= i < |fields| ==> fields[1..][i - 1] == fields[i];
  }

  /** localField: "pk" stands for the primary key. */
  function LocalField(m: Model, name: string): (r: Field)
    ensures r.IsValid() ==> r in m.fields
  {
    FindField(m.fields, if name == "pk" then m.primaryKey else name)
  }

  /** `localField("pk")` of any built descriptor is its primary-key field. */
  lemma BuildPrimaryKeyLookup(c: ClassInfo)
    ensures LocalField(Build(c), "pk").IsValid()
    ensures LocalField(Build(c), "pk").name == Build(c).primaryKey
  {
    BuildHasPrimaryKey(c);
  }

  // Values as stored.

  /** NOrmMetaField::toDatabase. */
  function ToDatabase(f: Field, v: Value): (r: Value)
    ensures f.ftype == StringType && !f.nullable ==> !r.Null?
    ensures r.Null? ==> v.Null? || (f.IsForeignKey() && f.nullable)
    ensures f.ftype == StringListType ==> r == Str(Join(ToStringList(v), ","))
    ensures f.ftype != StringType && f.ftype != StringListType && !(f.IsForeignKey() && f.nullable) ==> r == v
  {
    if f.ftype == StringType && !f.nullable && v.Null? then Str("")
    else if f.IsForeignKey() && f.ftype == IntType && f.nullable && ToInt(v) == 0 then Null
    else if f.ftype == StringListType then Str(Join(ToStringList(v), ","))
    else v
  }

  /** What `load` makes of a stored text-list column: the first text split
      on ',', or the empty text when there is none. */
  function LoadStringList(stored: Value): (r: Value)
    ensures r.StrList? <==> |ToStringList(stored)| > 0
    ensures !r.StrList? ==> r == Str("")
    ensures r.StrList? ==> Join(r.items, ",") == ToStringList(stored)[0]
    ensures stored.Str? ==> r == StrList(Split(stored.s, ","))
  {
    var l := ToStringList(stored);
    if |l| > 0 then
      JoinSplit(l[0], ',');
      StrList(Split(l[0], ","))
    else Str("")
  }

  /** Storing a non-empty text list whose items hold no ',' and loading it
      back gives the same list. */
  lemma StringListRoundTrip(f: Field, items: seq<string>)
    requires f.ftype == StringListType
    requires |items| >= 1
    requires forall i :: 0 <= i < |items| ==> ',' !in items[i]
    ensures LoadStringList(ToDatabase(f, StrList(items))) == StrList(items)
  {
    SplitJoin(items, ',');
  }

  /** The empty list does not survive: it loads back as one empty item. */
  lemma EmptyStringListReloads(f: Field)
    requires f.ftype == StringListType
    ensures LoadStringList(ToDatabase(f, StrList([]))) == StrList([""])
  {
  }

  /** The other direction: storing what was loaded from a text gives the
      text back, whatever it holds. */
  lemma StoredTextRoundTrip(f: Field, text: string)
    requires f.ftype == StringListType
    ensures ToDatabase(f, LoadStringList(Str(text))) == Str(text)
  {
    JoinSplit(text, ',');
  }

  // The field maps of `save`.

  function FieldPairs(fields: seq<Field>, keep: Field -> bool, read: string -> Value): (r: seq<(string, Value)>)
    ensures forall i :: 0 <= i < |fields| && keep(fields[i]) ==>
              (fields[i].name, ToDatabase(fields[i], read(fields[i].name))) in r
    ensures forall e :: e in r ==>
              exists i :: 0 <= i < |fields| && keep(fields[i]) &&
                e == (fields[i].name, ToDatabase(fields[i], read(fields[i].name)))
    decreases |fields|
  {
    if |fields| == 0 then []
    else
      var rest := FieldPairs(fields[1..], keep, read);
      assert forall i :: 1 <= i < |fields| ==> fields[1..][i - 1] == fields[i];
      (if keep(fields[0]) then [(fields[0].name, ToDatabase(fields[0], read(fields[0].name)))] else []) + rest
  }

  /** The value map of the kept fields, each value as stored by toDatabase;
      `read` gives the object's property values. */
  function FieldMap(fields: seq<Field>, keep: Field -> bool, read: string -> Value): (r: OMap<Value>)
    ensures Sorted(r)
  {
    FromPairs(FieldPairs(fields, keep, read))
  }

  lemma FieldMapHasKey(fields: seq<Field>, keep: Field -> bool, read: string -> Value, k: string)
    ensures HasKey(FieldMap(fields, keep, read), k) <==>
              exists i :: 0 <= i < |fields| && keep(fields[i]) && fields[i].name == k
  {
    var pairs := FieldPairs(fields, keep, read);
    FromPairsGet(pairs, k);
    if exists i :: 0 <= i < |fields| && keep(fields[i]) && fields[i].name == k {
      var i :| 0 <= i < |fields| && keep(fields[i]) && fields[i].name == k;
      var e := (k, ToDatabase(fields[i], read(k)));
      assert e in pairs;
      var j :| 0 <= j < |pairs| && pairs[j] == e;
      assert pairs[j].0 == k;
    }
    if HasKey(FieldMap(fields, keep, read), k) {
      var j :| 0 <= j < |pairs| && pairs[j].0 == k;
      assert pairs[j] in pairs;
    }
  }

  /** Each value of a field map is the stored form of a kept field's value. */
  lemma FieldMapValue(fields: seq<Field>, keep: Field -> bool, read: string -> Value, k: string)
    requires Get(FieldMap(fields, keep, read), k).Some?
    ensures exists i :: 0 <= i < |fields| && keep(fields[i]) && fields[i].name == k &&
              Get(FieldMap(fields, keep, read), k).value == ToDatabase(fields[i], read(k))
  {
    var pairs := FieldPairs(fields, keep, read);
    FromPairsGet(pairs, k);
    var v := Get(FieldMap(fields, keep, read), k).value;
    assert (k, v) in pairs;
  }

  /** The UPDATE map of `save`: every field but the primary key. */
  function UpdateMap(m: Model, read: string -> Value): (r: OMap<Value>)
    ensures Sorted(r)
  {
    FieldMap(m.fields, (f: Field) => f.name != m.primaryKey, read)
  }

  /** The INSERT map of `save`: every field the database does not number. */
  function InsertMap(m: Model, read: string -> Value): (r: OMap<Value>)
    ensures Sorted(r)
  {
    FieldMap(m.fields, (f: Field) => !f.autoIncrement, read)
  }

  lemma UpdateMapKeys(m: Model, read: string -> Value, k: string)
    ensures HasKey(UpdateMap(m, read), k) <==>
              k != m.primaryKey && exists i :: 0 <= i < |m.fields| && m.fields[i].name == k
  {
    FieldMapHasKey(m.fields, (f: Field) => f.name != m.primaryKey, read, k);
  }

  lemma InsertMapKeys(m: Model, read: string -> Value, k: string)
    ensures HasKey(InsertMap(m, read), k) <==>
              exists i :: 0 <= i < |m.fields| && !m.fields[i].autoIncrement && m.fields[i].name == k
  {
    FieldMapHasKey(m.fields, (f: Field) => !f.autoIncrement, read, k);
  }

  /** `save` first probes for an existing row only when the primary key has
      a value: not null, and not 0 for an integer key. */
  function ProbeNeeded(m: Model, pk: Value): (r: bool)
    ensures pk.Null? ==> !r
    ensures LocalField(m, "pk").ftype == IntType && ToInt(pk) == 0 ==> !r
    ensures !pk.Null? && LocalField(m, "pk").ftype != IntType ==> r
    ensures !pk.Null? && ToInt(pk) != 0 ==> r
  {
    !pk.Null? && !(LocalField(m, "pk").ftype == IntType && ToInt(pk) == 0)
  }

  /** A fresh object of a model with the implicit `id` key (value 0 or
      null) is always inserted without a probe. */
  lemma FreshImplicitKeyNotProbed(c: ClassInfo, pk: Value)
    requires DeclaredKey(Annotate(c.properties)) == ""
    requires pk.Null? || pk == Int(0)
    ensures !ProbeNeeded(Build(c), pk)
  {
    BuildHasPrimaryKey(c);
    assert LocalField(Build(c), "pk") == IdField;
  }
}

=== FILE: options.dfy ===
/** An optional value: the stand-in for the null pointers, null strings and
    invalid variants the library uses to say "nothing here". */
module Options {

  datatype Option<+T> = None | Some(value: T) {

    /** The held value, or `default` when there is none. */
    function GetOr(default: T): (r: T)
      ensures Some? ==> r == value
      ensures None? ==> r == default
    {
      match this
      case Some(v) => v
      case None => default
    }
  }
}

=== FILE: ordered_maps.dfy ===
/** QMap with text keys, as the library uses it for the model registry,
    foreign-key tables, table aliases and field/value maps: iteration visits
    the keys in ascending order and inserting an existing key replaces its
    value. */
module OrderedMaps {
  import opened Strings
  import opened Options

  type OMap<V> = seq<(string, V)>

  /** Keys strictly ascending, hence distinct. */
  ghost predicate Sorted<V>(m: OMap<V>)
  {
    forall i, j :: 0 <= i < j < |m| ==> LexLess(m[i].0, m[j].0)
  }

  ghost predicate DistinctKeys<V>(m: OMap<V>)
  {
    forall i, j :: 0 <= i < j < |m| ==> m[i].0 != m[j].0
  }

  lemma SortedDistinct<V>(m: OMap<V>)
    requires Sorted(m)
    ensures DistinctKeys(m)
  {
    forall i, j | 0 <= i < j < |m|
      ensures m[i].0 != m[j].0
    {
      LexIrreflexive(m[i].0);
    }
  }

  /** QMap::keys, in iteration order. */
  function Keys<V>(m: OMap<V>): (r: seq<string>)
    ensures |r| == |m|
    ensures forall i :: 0 <= i < |m| ==> r[i] == m[i].0
  {
    if |m| == 0 then [] else [m[0].0] + Keys(m[1..])
  }

  /** QMap::values, in key order. */
  function Values<V>(m: OMap<V>): (r: seq<V>)
    ensures |r| == |m|
    ensures forall i :: 0 <= i < |m| ==> r[i] == m[i].1
  {
    if |m| == 0 then [] else [m[0].1] + Values(m[1..])
  }

  predicate HasKey<V>(m: OMap<V>, k: string)
  {
    k in Keys(m)
  }

  /** QMap::value: the entry stored under `k`, if any. */
  function Get<V>(m: OMap<V>, k: string): (r: Option<V>)
    ensures r.Some? <==> HasKey(m, k)
    ensures r.Some? ==> exists i :: 0 <= i < |m| && m[i] == (k, r.value)
    ensures DistinctKeys(m) ==> forall i :: 0 <= i < |m| && m[i].0 == k ==> r == Some(m[i].1)
  {
    if |m| == 0 then None
    else if m[0].0 == k then Some(m[0].1)
    else
      var r := Get(m[1..], k);
      assert r.Some? ==> exists i :: 0 <= i < |m[1..]| && m[1..][i] == (k, r.value);
      r
  }

  /** The position of a key the map holds. */
  lemma KeyAt<V>(m: OMap<V>, k: string) returns (i: nat)
    requires HasKey(m, k)
    ensures i < |m| && m[i].0 == k
  {
    var keys := Keys(m);
    i :| i < |keys| && keys[i] == k;
  }

  ghost function Entries<V>(m: OMap<V>): set<(string, V)>
  {
    set i | 0 <= i < |m| :: m[i]
  }

  /** QMap::insert: a new key is placed before the first greater key, an
      existing key gets the new value in place. */
  function Insert<V>(m: OMap<V>, k: string, v: V): OMap<V>
    decreases |m|
  {
    if |m| == 0 then [(k, v)]
    else if m[0].0 == k then [(k, v)] + m[1..]
    else if LexLess(k, m[0].0) then [(k, v)] + m
    else [m[0]] + Insert(m[1..], k, v)
  }

  lemma KeysCons<V>(e: (string, V), m: OMap<V>)
    ensures Keys([e] + m) == [e.0] + Keys(m)
  {
  }

  /** After an insert the keys are the old keys plus the inserted one. */
  lemma {:induction false} InsertHasKey<V>(m: OMap<V>, k: string, v: V, k': string)
    ensures HasKey(Insert(m, k, v), k') <==> HasKey(m, k') || k' == k
    decreases |m|
  {
    if |m| > 0 {
      KeysCons(m[0], m[1..]);
      assert [m[0]] + m[1..] == m;
      if m[0].0 == k {
        KeysCons((k, v), m[1..]);
      } else if LexLess(k, m[0].0) {
        KeysCons((k, v), m);
      } else {
        InsertHasKey(m[1..], k, v, k');
        assert Insert(m, k, v) == [m[0]] + Insert(m[1..], k, v);
        KeysCons(m[0], Insert(m[1..], k, v));
      }
    }
  }

  lemma InsertKeys<V>(m: OMap<V>, k: string, v: V)
    ensures forall k' :: HasKey(Insert(m, k, v), k') <==> HasKey(m, k') || k' == k
  {
    forall k' {
      InsertHasKey(m, k, v, k');
    }
  }

  /** Looking up after an insert: the inserted key yields the new value and
      every other key what it yielded before. */
  lemma {:induction false} InsertGet<V>(m: OMap<V>, k: string, v: V, k': string)
    ensures Get(Insert(m, k, v), k') == if k' == k then Some(v) else Get(m, k')
    decreases |m|
  {
    if |m| > 0 && m[0].0 != k && !LexLess(k, m[0].0) {
      InsertGet(m[1..], k, v, k');
    }
  }

  /** A key below the first key of a sorted map is not in it. */
  lemma BelowFirstAbsent<V>(m: OMap<V>, k: string)
    requires Sorted(m) && |m| > 0 && LexLess(k, m[0].0)
    ensures !HasKey(m, k)
  {
    forall i | 0 <= i < |m|
      ensures m[i].0 != k
    {
      if i > 0 {
        LexTransitive(k, m[0].0, m[i].0);
      }
      LexIrreflexive(k);
    }
  }

  lemma EntriesCons<V>(e: (string, V), m: OMap<V>)
    ensures Entries([e] + m) == {e} + Entries(m)
  {
    var r := [e] + m;
    forall x
      ensures x in Entries(r) <==> x in {e} + Entries(m)
    {
      if x in Entries(r) {
        var i :| 0 <= i < |r| && r[i] == x;
        if i > 0 {
          assert m[i - 1] == x;
        }
      }
      if x in Entries(m) {
        var i :| 0 <= i < |m| && m[i] == x;
        assert r[i + 1] == x;
      }
      if x == e {
        assert r[0] == x;
      }
    }
  }

  /** Insert keeps a sorted map sorted; a fresh key adds exactly one entry. */
  lemma {:induction false} InsertSorted<V>(m: OMap<V>, k: string, v: V)
    requires Sorted(m)
    ensures Sorted(Insert(m, k, v))
    ensures |Insert(m, k, v)| == if HasKey(m, k) then |m| else |m| + 1
    ensures !HasKey(m, k) ==> Entries(Insert(m, k, v)) == Entries(m) + {(k, v)}
    decreases |m|
  {
    if |m| == 0 {
      EntriesCons((k, v), m);
    } else if m[0].0 == k {
      InsertReplacesFirst(m, k, v);
    } else if LexLess(k, m[0].0) {
      InsertBeforeFirst(m, k, v);
    } else {
      LexTotal(k, m[0].0);
      assert Sorted(m[1..]);
      InsertSorted(m[1..], k, v);
      InsertAfterFirst(m, k, v);
    }
  }

  lemma InsertReplacesFirst<V>(m: OMap<V>, k: string, v: V)
    requires Sorted(m) && |m| > 0 && m[0].0 == k
    ensures Sorted(Insert(m, k, v)) && HasKey(m, k) && |Insert(m, k, v)| == |m|
  {
    var r := Insert(m, k, v);
    assert Keys(m)[0] == k;
    forall i, j | 0 <= i < j < |r|
      ensures LexLess(r[i].0, r[j].0)
    {
      assert r[i].0 == m[i].0 && r[j].0 == m[j].0;
    }
  }

  lemma InsertBeforeFirst<V>(m: OMap<V>, k: string, v: V)
    requires Sorted(m) && |m| > 0 && LexLess(k, m[0].0)
    ensures Sorted(Insert(m, k, v)) && !HasKey(m, k) && |Insert(m, k, v)| == |m| + 1
    ensures Entries(Insert(m, k, v)) == Entries(m) + {(k, v)}
  {
    var r := Insert(m, k, v);
    LexIrreflexive(k);
    assert m[0].0 != k;
    assert r == [(k, v)] + m;
    BelowFirstAbsent(m, k);
    EntriesCons((k, v), m);
    forall i, j | 0 <= i < j < |r|
      ensures LexLess(r[i].0, r[j].0)
    {
      if i == 0 && j > 1 {
        LexTransitive(k, m[0].0, m[j - 1].0);
      }
    }
  }

  /** The inserted key goes after the first entry: the rest is the insert
      into the tail, whose keys all follow the first. */
  lemma InsertAfterFirst<V>(m: OMap<V>, k: string, v: V)
    requires Sorted(m) && |m| > 0 && LexLess(m[0].0, k)
    requires Sorted(Insert(m[1..], k, v))
    requires |Insert(m[1..], k, v)| == if HasKey(m[1..], k) then |m| - 1 else |m|
    requires !HasKey(m[1..], k) ==> Entries(Insert(m[1..], k, v)) == Entries(m[1..]) + {(k, v)}
    ensures Sorted(Insert(m, k, v))
    ensures |Insert(m, k, v)| == if HasKey(m, k) then |m| else |m| + 1
    ensures !HasKey(m, k) ==> Entries(Insert(m, k, v)) == Entries(m) + {(k, v)}
  {
    var tail := Insert(m[1..], k, v);
    InsertAfterShape(m, k, v);
    forall j | 0 <= j < |tail|
      ensures LexLess(m[0].0, tail[j].0)
    {
      TailAboveFirst(m, k, v, j);
    }
    ConsSorted(m[0], tail);
    EntriesCons(m[0], tail);
    EntriesCons(m[0], m[1..]);
    assert [m[0]] + m[1..] == m;
  }

  lemma InsertAfterShape<V>(m: OMap<V>, k: string, v: V)
    requires |m| > 0 && LexLess(m[0].0, k)
    ensures Insert(m, k, v) == [m[0]] + Insert(m[1..], k, v)
    ensures HasKey(m, k) <==> HasKey(m[1..], k)
  {
    LexIrreflexive(k);
    LexAsymmetric(m[0].0, k);
    KeysCons(m[0], m[1..]);
    assert [m[0]] + m[1..] == m;
  }

  lemma TailAboveFirst<V>(m: OMap<V>, k: string, v: V, j: int)
    requires Sorted(m) && |m| > 0 && LexLess(m[0].0, k)
    requires 0 <= j < |Insert(m[1..], k, v)|
    ensures LexLess(m[0].0, Insert(m[1..], k, v)[j].0)
  {
    var tail := Insert(m[1..], k, v);
    var key := tail[j].0;
    assert Keys(tail)[j] == key;
    InsertHasKey(m[1..], k, v, key);
    if key != k {
      var t := KeyAt(m[1..], key);
      assert m[1..][t] == m[t + 1];
    }
  }

  /** An entry below every key of a sorted map can go in front of it. */
  lemma ConsSorted<V>(e: (string, V), t: OMap<V>)
    requires Sorted(t)
    requires forall j :: 0 <= j < |t| ==> LexLess(e.0, t[j].0)
    ensures Sorted([e] + t)
  {
    var r := [e] + t;
    forall i, j | 0 <= i < j < |r|
      ensures LexLess(r[i].0, r[j].0)
    {
      if i > 0 {
        assert r[i] == t[i - 1] && r[j] == t[j - 1];
      }
    }
  }

  /** QMap::value with a default for a missing key. */
  function GetOr<V>(m: OMap<V>, k: string, default: V): (r: V)
    ensures HasKey(m, k) ==> Some(r) == Get(m, k)
    ensures !HasKey(m, k) ==> r == default
  {
    Get(m, k).GetOr(default)
  }

  /** The map built by inserting the pairs left to right: a later pair for
      the same key wins, as with repeated QMap::insert. */
  function FromPairs<V>(pairs: seq<(string, V)>): (r: OMap<V>)
    ensures Sorted(r)
    decreases |pairs|
  {
    if |pairs| == 0 then []
    else
      var prefix := FromPairs(pairs[..|pairs| - 1]);
      InsertSorted(prefix, pairs[|pairs| - 1].0, pairs[|pairs| - 1].1);
      Insert(prefix, pairs[|pairs| - 1].0, pairs[|pairs| - 1].1)
  }

  /** The value of the last pair with key `k`: what repeated inserts leave. */
  function LastFor<V>(pairs: seq<(string, V)>, k: string): (r: Option<V>)
    ensures r.Some? <==> exists i :: 0 <= i < |pairs| && pairs[i].0 == k
    ensures r.Some? ==> (k, r.value) in pairs
    decreases |pairs|
  {
    if |pairs| == 0 then None
    else if pairs[|pairs| - 1].0 == k then Some(pairs[|pairs| - 1].1)
    else
      var r := LastFor(pairs[..|pairs| - 1], k);
      assert forall i :: 0 <= i < |pairs| - 1 ==> pairs[..|pairs| - 1][i] == pairs[i];
      r
  }

  /** Looking a key up in a map built from pairs finds the last pair for it. */
  lemma {:induction false} FromPairsGet<V>(pairs: seq<(string, V)>, k: string)
    ensures Get(FromPairs(pairs), k) == LastFor(pairs, k)
    decreases |pairs|
  {
    if |pairs| > 0 {
      var last := pairs[|pairs| - 1];
      FromPairsGet(pairs[..|pairs| - 1], k);
      InsertGet(FromPairs(pairs[..|pairs| - 1]), last.0, last.1, k);
    }
  }
}

=== FILE: query_set.dfy ===
/** NOrmQuerySet<T> and the state behind it (NOrmQuerySetPrivate): the
    condition, ordering, paging marks and related-model selection of a set,
    the builders that derive a new set from one, and the operations that
    run a statement and keep the fetched rows. Running a statement is not
    modelled: each operation takes the database's answer to the one
    statement it would run, and reports whether it ran it. */
module QuerySets {
  import opened Options
  import opened Values
  import opened OrderedMaps
  import opened MetaModel
  import opened Where
  import Dialects
  import Compiler

  /** One fetched row: a value per selected column. */
  type Row = seq<Value>

  /** The state of a set. `hasResults` and `rows` are the cache of fetched
      rows; the marks are the row window, `highMark` 0 meaning no upper
      bound. */
  datatype QuerySet = QuerySet(
    model: string,
    where: Where,
    orderBy: seq<string>,
    lowMark: int,
    highMark: int,
    selectRelated: bool,
    relatedFields: seq<string>,
    hasResults: bool,
    rows: seq<Row>)

  /** No limit has been set. */
  predicate NoLimit(qs: QuerySet)
  {
    qs.lowMark == 0 && qs.highMark == 0
  }

  /** The marks describe a window: a non-negative start, and an end that is
      absent or not before the start. */
  predicate Windowed(qs: QuerySet)
  {
    0 <= qs.lowMark && (qs.highMark <= 0 || qs.lowMark <= qs.highMark)
  }

  /** Rows are only cached once fetched. */
  predicate CacheConsistent(qs: QuerySet)
  {
    !qs.hasResults ==> qs.rows == []
  }

  /** A new set over every row of the model. */
  function Fresh(model: string): (r: QuerySet)
    ensures IsAll(r.where) && NoLimit(r) && Windowed(r) && CacheConsistent(r)
  {
    QuerySet(model, MatchAll, [], 0, 0, false, [], false, [])
  }

  // Builders. Each returns a new set and leaves the receiver alone.

  /** all(): the same settings without the cached rows. */
  function All(qs: QuerySet): (r: QuerySet)
    ensures r == qs.(hasResults := false, rows := [])
  {
    var other := Fresh(qs.model);
    other.(lowMark := qs.lowMark, highMark := qs.highMark, orderBy := qs.orderBy,
           selectRelated := qs.selectRelated, relatedFields := qs.relatedFields,
           where := qs.where)
  }

  lemma EvalAndAll(a: Where, b: Where)
    ensures forall atom :: Eval(And(a, b), atom) == (Eval(a, atom) && Eval(b, atom))
  {
    forall atom
      ensures Eval(And(a, b), atom) == (Eval(a, atom) && Eval(b, atom))
    {
      EvalAnd(a, b, atom);
    }
  }

  /** filter(), which joins the condition with the library's `&&`: a row
      is in the new set when it is in this one and meets `w`, provided this
      set's condition is not a negated node (the result of excluding a
      compound condition), which AndAsWritten extends inside the negation.
      A limited set takes no more conditions. */
  function Filter(qs: QuerySet, w: Where): (r: QuerySet)
    requires NoLimit(qs)
    ensures r == qs.(where := r.where, hasResults := false, rows := [])
    ensures !(qs.where.Node? && qs.where.negate) ==>
              forall atom :: Eval(r.where, atom) == (Eval(qs.where, atom) && Eval(w, atom))
  {
    EvalAndAll(qs.where, w);
    All(qs).(where := AndAsWritten(qs.where, w))
  }

  /** filter() with the corrected `&&`: the new set is the intersection
      with `w`, whatever this set's condition. */
  function FilterCorrected(qs: QuerySet, w: Where): (r: QuerySet)
    requires NoLimit(qs)
    ensures r == qs.(where := r.where, hasResults := false, rows := [])
    ensures forall atom :: Eval(r.where, atom) == (Eval(qs.where, atom) && Eval(w, atom))
  {
    EvalAndAll(qs.where, w);
    All(qs).(where := And(qs.where, w))
  }

  lemma EvalNotAll(w: Where)
    ensures forall atom :: Eval(Not(w), atom) == !Eval(w, atom)
  {
    forall atom
      ensures Eval(Not(w), atom) == !Eval(w, atom)
    {
      EvalNot(w, atom);
    }
  }

  /** exclude(), through the library's `&&`: a row is in the new set when
      it is in this one and does not meet `w`, under the same proviso as
      Filter. */
  function Exclude(qs: QuerySet, w: Where): (r: QuerySet)
    requires NoLimit(qs)
    ensures r == qs.(where := r.where, hasResults := false, rows := [])
    ensures !(qs.where.Node? && qs.where.negate) ==>
              forall atom :: Eval(r.where, atom) == (Eval(qs.where, atom) && !Eval(w, atom))
  {
    EvalAndAll(qs.where, Not(w));
    EvalNotAll(w);
    All(qs).(where := AndAsWritten(qs.where, Not(w)))
  }

  /** exclude() with the corrected `&&`. */
  function ExcludeCorrected(qs: QuerySet, w: Where): (r: QuerySet)
    requires NoLimit(qs)
    ensures r == qs.(where := r.where, hasResults := false, rows := [])
    ensures forall atom :: Eval(r.where, atom) == (Eval(qs.where, atom) && !Eval(w, atom))
  {
    EvalAndAll(qs.where, Not(w));
    EvalNotAll(w);
    All(qs).(where := And(qs.where, Not(w)))
  }

  /** The proviso is needed: excluding `x && y` and then filtering on `z`
      gives a set that keeps a row meeting none of the three, which the
      corrected operations leave out. */
  lemma ExcludeThenFilterKeeps(m: string)
    ensures var x := Compare("a", Equals, Int(1));
            var y := Compare("b", Equals, Int(1));
            var z := Compare("c", Equals, Int(1));
            var never: Atom := (k, op, v) => false;
            Eval(Filter(Exclude(Fresh(m), AndAsWritten(x, y)), z).where, never) &&
            !Eval(FilterCorrected(ExcludeCorrected(Fresh(m), AndAsWritten(x, y)), z).where, never)
  {
    var x := Compare("a", Equals, Int(1));
    var y := Compare("b", Equals, Int(1));
    var z := Compare("c", Equals, Int(1));
    var never: Atom := (k, op, v) => false;
    AndAsWrittenIsNotConjunction();
    assert Exclude(Fresh(m), AndAsWritten(x, y)).where == Not(AndAsWritten(x, y));
    assert !Eval(z, never);
  }

  lemma NoneHoldsNowhere(w: Where)
    requires IsNone(w)
    ensures forall atom :: !Eval(w, atom)
  {
    forall atom
      ensures !Eval(w, atom)
    {
      EvalTrivial(w, atom);
    }
  }

  /** none(): a new set of the same model that no row meets; ordering,
      marks and related selection are not carried over. */
  function NoneSet(qs: QuerySet): (r: QuerySet)
    ensures r == Fresh(qs.model).(where := r.where)
    ensures IsNone(r.where)
    ensures forall atom :: !Eval(r.where, atom)
  {
    NoneHoldsNowhere(Not(MatchAll));
    Fresh(qs.model).(where := Not(MatchAll))
  }

  /** orderBy(): the keys are appended to the ordering. A limited set takes
      no more ordering keys. */
  function OrderBy(qs: QuerySet, keys: seq<string>): (r: QuerySet)
    requires NoLimit(qs)
    ensures r == qs.(orderBy := qs.orderBy + keys, hasResults := false, rows := [])
  {
    All(qs).(orderBy := qs.orderBy + keys)
  }

  /** selectRelated(): select the foreign-key targets as well, restricted
      to the listed paths. */
  function SelectRelated(qs: QuerySet, related: seq<string>): (r: QuerySet)
    ensures r == qs.(selectRelated := true, relatedFields := related, hasResults := false, rows := [])
  {
    All(qs).(selectRelated := true, relatedFields := related)
  }

  // Limits.

  /** limit(pos, length) as written: the start moves by `pos`, and a
      positive length sets the end, clamped to the current end. The start
      is not clamped, so it can pass the current end. */
  function LimitAsWritten(qs: QuerySet, pos: int, len: int): (r: QuerySet)
    requires pos >= 0 && len >= -1
    ensures r == qs.(lowMark := qs.lowMark + pos, highMark := r.highMark, hasResults := false, rows := [])
    ensures len <= 0 ==> r.highMark == qs.highMark
    ensures len > 0 ==> r.highMark <= r.lowMark + len && (qs.highMark > 0 ==> r.highMark <= qs.highMark)
    ensures len > 0 ==> r.highMark == r.lowMark + len || r.highMark == qs.highMark
  {
    var other := All(qs);
    var low := other.lowMark + pos;
    if len > 0 then
      var high := low + len;
      other.(lowMark := low, highMark := if qs.highMark > 0 && high > qs.highMark then qs.highMark else high)
    else
      other.(lowMark := low)
  }

  /** limit(pos, length): the start moves by `pos` and the end, for a
      positive length, to `length` rows after the start, neither past the
      current end. */
  function Limit(qs: QuerySet, pos: int, len: int): (r: QuerySet)
    requires pos >= 0 && len >= -1
    ensures r == qs.(lowMark := r.lowMark, highMark := r.highMark, hasResults := false, rows := [])
    ensures Windowed(qs) ==> Windowed(r)
  {
    var low := qs.lowMark + pos;
    var start := if qs.highMark > 0 && low > qs.highMark then qs.highMark else low;
    var end :=
      if len > 0 then
        (if qs.highMark > 0 && start + len > qs.highMark then qs.highMark else start + len)
      else qs.highMark;
    All(qs).(lowMark := start, highMark := end)
  }

  /** limit(pos, length) described on a list of rows: skip `pos`, then keep
      at most `length` when it is positive. */
  function Slice<T>(rows: seq<T>, pos: nat, len: int): (r: seq<T>)
    ensures |r| <= |rows|
  {
    var rest := if pos >= |rows| then [] else rows[pos..];
    if len > 0 && len < |rest| then rest[..len] else rest
  }

  /** Limiting a set slices the window of its rows: limits compose as
      slices do. */
  lemma LimitSlices<T>(qs: QuerySet, pos: int, len: int, rows: seq<T>)
    requires Windowed(qs) && pos >= 0 && len >= -1
    ensures var r := Limit(qs, pos, len);
            Compiler.Window(rows, r.lowMark, r.highMark) ==
            Slice(Compiler.Window(rows, qs.lowMark, qs.highMark), pos, len)
  {
    var n := |rows|;
    var r := Limit(qs, pos, len);
    var w := Compiler.Window(rows, qs.lowMark, qs.highMark);
    var l := if qs.lowMark >= n then n else qs.lowMark;
    var h := if qs.highMark <= 0 || qs.highMark >= n then n else qs.highMark;
    assert w == rows[l..h];
    var l' := if r.lowMark >= n then n else r.lowMark;
    var h' := if r.highMark <= 0 || r.highMark >= n then n else r.highMark;
    assert Compiler.Window(rows, r.lowMark, r.highMark) == rows[l'..h'];
    if pos >= |w| {
      assert l' == h';
    } else {
      SliceOfRange(rows, l, h, pos, len);
      assert l' == l + pos;
      if len > 0 && len < h - (l + pos) {
        assert h' == l + pos + len;
      } else {
        assert h' == h;
      }
    }
  }

  lemma SliceOfRange<T>(rows: seq<T>, l: int, h: int, pos: int, len: int)
    requires 0 <= l <= h <= |rows| && 0 <= pos < h - l
    ensures Slice(rows[l..h], pos, len) ==
              rows[l + pos..if len > 0 && len < h - (l + pos) then l + pos + len else h]
  {
    assert rows[l..h][pos..] == rows[l + pos..h];
    if len > 0 && len < h - (l + pos) {
      assert rows[l + pos..h][..len] == rows[l + pos..l + pos + len];
    }
  }

  /** Both versions agree as long as the new start stays within the
      current end. */
  lemma LimitAsWrittenAgrees(qs: QuerySet, pos: int, len: int)
    requires pos >= 0 && len >= -1
    requires qs.highMark <= 0 || qs.lowMark + pos <= qs.highMark
    ensures LimitAsWritten(qs, pos, len) == Limit(qs, pos, len)
  {
  }

  /** limit(0, 5) then limit(10, 5) as written leaves the marks 10 and 5:
      the paging clauses then ask for a negative number of rows. The
      corrected version yields the empty window at 5. */
  lemma LimitAsWrittenOverruns()
    ensures var qs := LimitAsWritten(LimitAsWritten(Fresh("T"), 0, 5), 10, 5);
            && qs.lowMark == 10 && qs.highMark == 5 && !Windowed(qs)
            && Compiler.PagingFor(Dialects.SQLite, qs.lowMark, qs.highMark) ==
                 [Compiler.Limit(-5), Compiler.Offset(10)]
    ensures var qs := Limit(Limit(Fresh("T"), 0, 5), 10, 5);
            qs.lowMark == 5 && qs.highMark == 5 && Windowed(qs)
  {
    var first := LimitAsWritten(Fresh("T"), 0, 5);
    assert first.lowMark == 0 && first.highMark == 5;
    var second := LimitAsWritten(first, 10, 5);
    assert second.lowMark == 10 && second.highMark == 5;
    assert Compiler.PagingFor(Dialects.SQLite, 10, 5) == [Compiler.Limit(-5), Compiler.Offset(10)];
    var head := Limit(Fresh("T"), 0, 5);
    assert head.lowMark == 0 && head.highMark == 5;
    var tail := Limit(head, 10, 5);
    assert tail.lowMark == 5 && tail.highMark == 5;
  }

  // Running statements. `issued` says whether the operation ran its
  // statement; the answer parameters stand for what the database returned.

  datatype Done<R> = Done(result: R, issued: bool, qs: QuerySet)

  /** Dropping the cache after a successful write. */
  function Invalidate(qs: QuerySet): (r: QuerySet)
    ensures !r.hasResults
    ensures CacheConsistent(qs) ==> r == qs.(hasResults := false, rows := [])
  {
    if qs.hasResults then qs.(hasResults := false, rows := []) else qs
  }

  /** sqlFetch: a set with cached rows or a set no row meets runs nothing
      and succeeds; otherwise the select runs, and on success its rows are
      cached. `answer` is None when the select fails. */
  function SqlFetch(qs: QuerySet, answer: Option<seq<Row>>): (r: Done<bool>)
    ensures r.issued <==> !qs.hasResults && !IsNone(qs.where)
    ensures !r.issued ==> r == Done(true, false, qs)
    ensures r.issued ==> (r.result <==> answer.Some?)
    ensures r.issued && r.result ==> r.qs == qs.(hasResults := true, rows := qs.rows + answer.value)
    ensures r.issued && !r.result ==> r.qs == qs
    ensures CacheConsistent(qs) ==> CacheConsistent(r.qs)
  {
    if qs.hasResults || IsNone(qs.where) then Done(true, false, qs)
    else
      match answer
      case None => Done(false, true, qs)
      case Some(rows) => Done(true, true, qs.(hasResults := true, rows := qs.rows + rows))
  }

  /** A successful fetch is not repeated: the second call runs nothing and
      changes nothing, whatever the database would answer. */
  lemma FetchOnce(qs: QuerySet, first: Option<seq<Row>>, second: Option<seq<Row>>)
    requires SqlFetch(qs, first).result
    ensures var f := SqlFetch(qs, first);
            SqlFetch(f.qs, second) == Done(true, false, f.qs)
  {
  }

  /** A set no row meets yields no rows, and runs nothing to learn it. */
  lemma NoneFetchesNothing(qs: QuerySet, answer: Option<seq<Row>>)
    requires CacheConsistent(qs) && !qs.hasResults
    ensures var f := SqlFetch(NoneSet(qs), answer);
            f.result && !f.issued && f.qs.rows == []
  {
  }

  /** sqlDelete: a set no row meets deletes nothing and succeeds without a
      statement; a limited set refuses; otherwise the DELETE runs and a
      success drops the cache. */
  function SqlDelete(qs: QuerySet, executed: bool): (r: Done<bool>)
    ensures r.issued <==> !IsNone(qs.where) && NoLimit(qs)
    ensures r.result <==> IsNone(qs.where) || (NoLimit(qs) && executed)
    ensures r.issued && r.result ==> r.qs == Invalidate(qs)
    ensures !(r.issued && r.result) ==> r.qs == qs
  {
    if IsNone(qs.where) then Done(true, false, qs)
    else if qs.lowMark != 0 || qs.highMark != 0 then Done(false, false, qs)
    else if !executed then Done(false, true, qs)
    else Done(true, true, Invalidate(qs))
  }

  /** sqlUpdate: nothing to do (no row meets the set, or no field is
      given) is 0 rows without a statement; a limited set refuses with -1;
      otherwise the UPDATE runs and reports the affected rows, -1 on
      failure. */
  function SqlUpdate(qs: QuerySet, fields: OMap<Value>, affected: Option<int>): (r: Done<int>)
    ensures r.issued <==> !IsNone(qs.where) && |fields| > 0 && NoLimit(qs)
    ensures (IsNone(qs.where) || |fields| == 0) ==> r.result == 0
    ensures !(IsNone(qs.where) || |fields| == 0) && !NoLimit(qs) ==> r.result == -1
    ensures r.issued ==> r.result == (if affected.Some? then affected.value else -1)
    ensures r.issued && affected.Some? ==> r.qs == Invalidate(qs)
    ensures !(r.issued && affected.Some?) ==> r.qs == qs
  {
    if IsNone(qs.where) || |fields| == 0 then Done(0, false, qs)
    else if qs.lowMark != 0 || qs.highMark != 0 then Done(-1, false, qs)
    else
      match affected
      case None => Done(-1, true, qs)
      case Some(n) => Done(n, true, Invalidate(qs))
  }

  /** sqlInsert: the INSERT always runs; a success drops the cache. */
  function SqlInsert(qs: QuerySet, executed: bool): (r: Done<bool>)
    ensures r.issued && r.result == executed
    ensures r.qs == if executed then Invalidate(qs) else qs
  {
    if executed then Done(true, true, Invalidate(qs)) else Done(false, true, qs)
  }

  /** A successful write leaves no cached rows behind: the next read asks
      the database again. */
  lemma WriteRefetches(qs: QuerySet, executed: bool, answer: Option<seq<Row>>)
    requires !IsNone(qs.where)
    requires SqlDelete(qs, executed).result
    ensures SqlFetch(SqlDelete(qs, executed).qs, answer).issued
  {
  }

  /** size(): the number of rows once fetched, -1 when the fetch fails. */
  function Size(qs: QuerySet, answer: Option<seq<Row>>): (r: Done<int>)
    ensures r.qs == SqlFetch(qs, answer).qs && r.issued == SqlFetch(qs, answer).issued
    ensures r.result == if SqlFetch(qs, answer).result then |r.qs.rows| else -1
  {
    var f := SqlFetch(qs, answer);
    if !f.result then Done(-1, f.issued, f.qs) else Done(|f.qs.rows|, f.issued, f.qs)
  }

  /** at(index): the row at `index` of the fetched rows; nothing when the
      fetch fails or the index is out of range. */
  function At(qs: QuerySet, index: int, answer: Option<seq<Row>>): (r: Done<Option<Row>>)
    ensures r.qs == SqlFetch(qs, answer).qs && r.issued == SqlFetch(qs, answer).issued
    ensures r.result.Some? <==> SqlFetch(qs, answer).result && 0 <= index < |r.qs.rows|
    ensures r.result.Some? ==> r.result.value == r.qs.rows[index]
  {
    var f := SqlFetch(qs, answer);
    if !f.result then Done(None, f.issued, f.qs)
    else if index < 0 || index >= |f.qs.rows| then Done(None, f.issued, f.qs)
    else Done(Some(f.qs.rows[index]), f.issued, f.qs)
  }

  /** get(where): the one row of the filtered set, when there is exactly
      one. The filtered set starts without a cache, so the row is the only
      row the database returned. */
  function GetMatch(qs: QuerySet, w: Where, answer: Option<seq<Row>>): (r: Option<Row>)
    requires NoLimit(qs)
    ensures r.Some? <==> Size(Filter(qs, w), answer).result == 1
    ensures r.Some? ==> answer.Some? && answer.value == [r.value]
  {
    var s := Size(Filter(qs, w), answer);
    if s.result == 1 then
      var row := At(s.qs, 0, None).result;
      assert row.Some?;
      assert answer.value == [row.value];
      row
    else None
  }

  // Counting.

  /** The value an aggregate statement yields: the first column of its
      first row, nothing when it fails or returns no row. */
  function AggregateValue(answer: Option<seq<Row>>): (r: Option<Value>)
    ensures r.Some? <==> answer.Some? && |answer.value| > 0 && |answer.value[0]| > 0
  {
    match answer
    case None => None
    case Some(rows) => if |rows| > 0 && |rows[0]| > 0 then Some(rows[0][0]) else None
  }

  /** count() as written: the cached row count, or the COUNT(*) of a
      statement that carries the set's paging clauses. Paging the single
      row of an aggregate drops it for any offset and keeps the unlimited
      count for any limit. */
  function CountAsWritten(qs: QuerySet, answer: Option<seq<Row>>): (r: int)
    ensures qs.hasResults ==> r == |qs.rows|
    ensures !qs.hasResults && AggregateValue(answer).None? ==> r == -1
    ensures NoLimit(qs) && (AggregateValue(answer).Some? ==> ToInt(AggregateValue(answer).value) >= 0) ==>
              r == Count(qs, answer)
  {
    if qs.hasResults then |qs.rows|
    else
      match AggregateValue(answer)
      case None => -1
      case Some(v) => ToInt(v)
  }

  /** The number of rows of a window over `n` rows. */
  function WindowSize(n: int, low: int, high: int): (r: int)
    ensures r >= 0
  {
    var l := if low >= n then n else low;
    var h := if high <= 0 || high >= n then n else high;
    if h <= l then 0 else h - l
  }

  lemma WindowSizeIsWindow<T>(rows: seq<T>, low: int, high: int)
    requires 0 <= low && (high <= 0 || low <= high)
    ensures |Compiler.Window(rows, low, high)| == WindowSize(|rows|, low, high)
  {
  }

  /** count() corrected: the cached row count, or the size of the set's
      window over the COUNT(*) of the rows the condition meets, asked
      without paging; -1 when the aggregate fails. */
  function Count(qs: QuerySet, answer: Option<seq<Row>>): (r: int)
    ensures qs.hasResults ==> r == |qs.rows|
    ensures !qs.hasResults && AggregateValue(answer).None? ==> r == -1
    ensures !qs.hasResults && AggregateValue(answer).Some? ==>
              r == WindowSize(ToInt(AggregateValue(answer).value), qs.lowMark, qs.highMark) && r >= 0
  {
    if qs.hasResults then |qs.rows|
    else
      match AggregateValue(answer)
      case None => -1
      case Some(v) => WindowSize(ToInt(v), qs.lowMark, qs.highMark)
  }

  /** What the database answers a set whose condition meets `matched` (in
      the set's order): the select returns the rows its paging clauses
      select, the unpaged COUNT(*) one row with their number. A condition
      no row meets matches nothing. */
  predicate Answers(d: Dialects.Dialect, qs: QuerySet, matched: seq<Row>,
                    select: Option<seq<Row>>, count: Option<seq<Row>>)
  {
    && (IsNone(qs.where) ==> matched == [])
    && select == Some(Compiler.Page(matched, Compiler.PagingFor(d, qs.lowMark, qs.highMark)))
    && count == Some([[Int(|matched|)]])
  }

  /** The fetched rows are the window of the matched rows. */
  lemma FetchSelectsWindow(d: Dialects.Dialect, qs: QuerySet, matched: seq<Row>,
                           select: Option<seq<Row>>, count: Option<seq<Row>>)
    requires Windowed(qs) && CacheConsistent(qs) && !qs.hasResults
    requires Answers(d, qs, matched, select, count)
    ensures SqlFetch(qs, select).result
    ensures SqlFetch(qs, select).qs.rows == Compiler.Window(matched, qs.lowMark, qs.highMark)
  {
    Compiler.PagingSelectsWindow(d, qs.lowMark, qs.highMark, matched);
    if IsNone(qs.where) {
      assert Compiler.Window(matched, qs.lowMark, qs.highMark) == [];
    }
  }

  /** count() and size() agree: counting the set gives the number of rows
      fetching it yields. */
  lemma CountIsSize(d: Dialects.Dialect, qs: QuerySet, matched: seq<Row>,
                    select: Option<seq<Row>>, count: Option<seq<Row>>)
    requires Windowed(qs) && CacheConsistent(qs)
    requires Answers(d, qs, matched, select, count)
    ensures Count(qs, count) == Size(qs, select).result
  {
    if !qs.hasResults {
      FetchSelectsWindow(d, qs, matched, select, count);
      WindowSizeIsWindow(matched, qs.lowMark, qs.highMark);
    }
  }

  /** count() as written disagrees with size() on a limited set of ten
      rows: limit(0, 5) counts ten rows where five are fetched, and
      limit(2) counts -1 where eight are fetched. */
  lemma CountAsWrittenIgnoresLimit()
    ensures var matched: seq<Row> := seq(10, i => [Int(i)]);
            var qs := Limit(Fresh("T"), 0, 5);
            var paged := Compiler.Page([[Int(10)]], Compiler.PagingFor(Dialects.SQLite, qs.lowMark, qs.highMark));
            && CountAsWritten(qs, Some(paged)) == 10
            && Size(qs, Some(Compiler.Page(matched, Compiler.PagingFor(Dialects.SQLite, qs.lowMark, qs.highMark)))).result == 5
    ensures var matched: seq<Row> := seq(10, i => [Int(i)]);
            var qs := Limit(Fresh("T"), 2, -1);
            var paged := Compiler.Page([[Int(10)]], Compiler.PagingFor(Dialects.SQLite, qs.lowMark, qs.highMark));
            && CountAsWritten(qs, Some(paged)) == -1
            && Size(qs, Some(Compiler.Page(matched, Compiler.PagingFor(Dialects.SQLite, qs.lowMark, qs.highMark)))).result == 8
  {
    CountAsWrittenLimited(seq(10, i => [Int(i)]));
    CountAsWrittenOffset(seq(10, i => [Int(i)]));
  }

  lemma CountAsWrittenLimited(matched: seq<Row>)
    requires |matched| == 10
    ensures var qs := Limit(Fresh("T"), 0, 5);
            var paged := Compiler.Page([[Int(10)]], Compiler.PagingFor(Dialects.SQLite, qs.lowMark, qs.highMark));
            && CountAsWritten(qs, Some(paged)) == 10
            && Size(qs, Some(Compiler.Page(matched, Compiler.PagingFor(Dialects.SQLite, qs.lowMark, qs.highMark)))).result == 5
  {
    var qs := Limit(Fresh("T"), 0, 5);
    LimitedMarks(qs);
    PagedCount([[Int(10)]], qs, 1);
    PagedSize(matched, qs, 5);
  }

  lemma CountAsWrittenOffset(matched: seq<Row>)
    requires |matched| == 10
    ensures var qs := Limit(Fresh("T"), 2, -1);
            var paged := Compiler.Page([[Int(10)]], Compiler.PagingFor(Dialects.SQLite, qs.lowMark, qs.highMark));
            && CountAsWritten(qs, Some(paged)) == -1
            && Size(qs, Some(Compiler.Page(matched, Compiler.PagingFor(Dialects.SQLite, qs.lowMark, qs.highMark)))).result == 8
  {
    var qs := Limit(Fresh("T"), 2, -1);
    OffsetMarks(qs);
    PagedCount([[Int(10)]], qs, 0);
    PagedSize(matched, qs, 8);
  }

  lemma LimitedMarks(qs: QuerySet)
    requires qs == Limit(Fresh("T"), 0, 5)
    ensures qs.lowMark == 0 && qs.highMark == 5 && !qs.hasResults && !IsNone(qs.where) && qs.rows == []
  {
  }

  lemma OffsetMarks(qs: QuerySet)
    requires qs == Limit(Fresh("T"), 2, -1)
    ensures qs.lowMark == 2 && qs.highMark == 0 && !qs.hasResults && !IsNone(qs.where) && qs.rows == []
  {
  }

  /** The single COUNT row `[[n]]`, paged, leaves `kept` rows. */
  lemma PagedCount(rows: seq<Row>, qs: QuerySet, kept: nat)
    requires rows == [[Int(10)]] && !qs.hasResults
    requires 0 <= qs.lowMark && (qs.highMark <= 0 || qs.lowMark <= qs.highMark)
    requires |Compiler.Window(rows, qs.lowMark, qs.highMark)| == kept
    ensures CountAsWritten(qs, Some(Compiler.Page(rows, Compiler.PagingFor(Dialects.SQLite, qs.lowMark, qs.highMark))))
            == if kept > 0 then 10 else -1
  {
    Compiler.PagingSelectsWindow(Dialects.SQLite, qs.lowMark, qs.highMark, rows);
  }

  lemma PagedSize(rows: seq<Row>, qs: QuerySet, kept: nat)
    requires !qs.hasResults && !IsNone(qs.where) && qs.rows == []
    requires 0 <= qs.lowMark && (qs.highMark <= 0 || qs.lowMark <= qs.highMark)
    requires |Compiler.Window(rows, qs.lowMark, qs.highMark)| == kept
    ensures Size(qs, Some(Compiler.Page(rows, Compiler.PagingFor(Dialects.SQLite, qs.lowMark, qs.highMark)))).result == kept
  {
    Compiler.PagingSelectsWindow(Dialects.SQLite, qs.lowMark, qs.highMark, rows);
  }

  // values() and valuesList().

  /** The position of the first field called `name`, or the number of
      fields when there is none. */
  function FieldIndex(fields: seq<Field>, name: string): (r: nat)
    ensures r <= |fields|
    ensures r < |fields| ==> fields[r].name == name
    ensures forall j :: 0 <= j < r ==> fields[j].name != name
  {
    if |fields| == 0 || fields[0].name == name then 0 else 1 + FieldIndex(fields[1..], name)
  }

  /** Every requested name is a field of the model. */
  predicate Known(fields: seq<Field>, names: seq<string>)
  {
    forall j :: 0 <= j < |names| ==> FieldIndex(fields, names[j]) < |fields|
  }

  /** The names a row map holds: the requested ones, or every field's. */
  predicate Requested(fields: seq<Field>, names: seq<string>, k: string)
  {
    if |names| == 0 then exists i :: 0 <= i < |fields| && fields[i].name == k else k in names
  }

  /** The pairs sqlValues inserts into its position map, in order: each
      field with its position, or each requested name with the position of
      the first field of that name. */
  function PositionPairs(fields: seq<Field>, names: seq<string>): seq<(string, nat)>
  {
    if |names| == 0 then seq(|fields|, i requires 0 <= i < |fields| => (fields[i].name, i))
    else seq(|names|, j requires 0 <= j < |names| => (names[j], FieldIndex(fields, names[j])))
  }

  lemma PairsSound(fields: seq<Field>, names: seq<string>, k: string, v: nat)
    requires Known(fields, names)
    requires (k, v) in PositionPairs(fields, names)
    ensures v < |fields| && fields[v].name == k
    ensures |names| > 0 ==> v == FieldIndex(fields, k)
  {
    var pairs := PositionPairs(fields, names);
    var i :| 0 <= i < |pairs| && pairs[i] == (k, v);
    if |names| > 0 {
      assert names[i] == k;
    }
  }

  lemma PairsCover(fields: seq<Field>, names: seq<string>, k: string)
    ensures (exists i :: 0 <= i < |PositionPairs(fields, names)| && PositionPairs(fields, names)[i].0 == k) <==>
            Requested(fields, names, k)
  {
    var pairs := PositionPairs(fields, names);
    if Requested(fields, names, k) {
      if |names| == 0 {
        var i :| 0 <= i < |fields| && fields[i].name == k;
        assert pairs[i].0 == k;
      } else {
        var j :| 0 <= j < |names| && names[j] == k;
        assert pairs[j].0 == k;
      }
    }
    if exists i :: 0 <= i < |pairs| && pairs[i].0 == k {
      var i :| 0 <= i < |pairs| && pairs[i].0 == k;
      if |names| == 0 {
        assert fields[i].name == k;
      } else {
        assert names[i] == k;
      }
    }
  }

  lemma PairsMap(fields: seq<Field>, names: seq<string>, r: OMap<nat>)
    requires Known(fields, names) && r == FromPairs<nat>(PositionPairs(fields, names))
    ensures forall k :: HasKey(r, k) <==> Requested(fields, names, k)
    ensures forall i :: 0 <= i < |r| ==> r[i].1 < |fields| && fields[r[i].1].name == r[i].0
    ensures |names| > 0 ==> forall i :: 0 <= i < |r| ==> r[i].1 == FieldIndex(fields, r[i].0)
  {
    var pairs := PositionPairs(fields, names);
    SortedDistinct(r);
    forall k
      ensures HasKey(r, k) <==> Requested(fields, names, k)
    {
      FromPairsGet(pairs, k);
      PairsCover(fields, names, k);
    }
    forall i | 0 <= i < |r|
      ensures r[i].1 < |fields| && fields[r[i].1].name == r[i].0
      ensures |names| > 0 ==> r[i].1 == FieldIndex(fields, r[i].0)
    {
      var k := r[i].0;
      assert Keys(r)[i] == k;
      assert Get(r, k) == Some(r[i].1);
      FromPairsGet(pairs, k);
      PairsSound(fields, names, k, r[i].1);
    }
  }

  /** The column position of each requested name, keyed by name: the map
      sqlValues builds by inserting the pairs in order. */
  function Positions(fields: seq<Field>, names: seq<string>): (r: OMap<nat>)
    requires Known(fields, names)
    ensures Sorted(r)
    ensures forall k :: HasKey(r, k) <==> Requested(fields, names, k)
    ensures forall i :: 0 <= i < |r| ==> r[i].1 < |fields| && fields[r[i].1].name == r[i].0
    ensures |names| > 0 ==> forall i :: 0 <= i < |r| ==> r[i].1 == FieldIndex(fields, r[i].0)
  {
    var r := FromPairs<nat>(PositionPairs(fields, names));
    PairsMap(fields, names, r);
    r
  }

  /** The column values() reads for a requested name: a field of that
      name, the first one when names were given. */
  function ColumnOf(fields: seq<Field>, names: seq<string>, k: string): (p: nat)
    requires Known(fields, names) && Requested(fields, names, k)
    ensures p < |fields| && fields[p].name == k
    ensures |names| > 0 ==> p == FieldIndex(fields, k)
  {
    Get(Positions(fields, names), k).value
  }

  /** One row as a map from requested name to that field's value. */
  function RowMap(pos: OMap<nat>, row: Row): (r: OMap<Value>)
    requires forall i :: 0 <= i < |pos| ==> pos[i].1 < |row|
  {
    seq(|pos|, i requires 0 <= i < |pos| => (pos[i].0, row[pos[i].1]))
  }

  lemma RowMapGet(pos: OMap<nat>, row: Row, k: string)
    requires forall i :: 0 <= i < |pos| ==> pos[i].1 < |row|
    requires Sorted(pos)
    ensures HasKey(RowMap(pos, row), k) <==> HasKey(pos, k)
    ensures forall i :: 0 <= i < |pos| && pos[i].0 == k ==> Get(RowMap(pos, row), k) == Some(row[pos[i].1])
  {
    var r := RowMap(pos, row);
    assert Keys(r) == Keys(pos);
    SortedDistinct(pos);
    assert DistinctKeys(r);
    forall i | 0 <= i < |pos| && pos[i].0 == k
      ensures Get(r, k) == Some(row[pos[i].1])
    {
      assert r[i] == (k, row[pos[i].1]);
    }
  }

  /** The map of one row holds the requested names, each with the value of
      its column. */
  lemma ValuesRow(fields: seq<Field>, names: seq<string>, row: Row, k: string)
    requires Known(fields, names) && |row| >= |fields|
    ensures HasKey(RowMap(Positions(fields, names), row), k) <==> Requested(fields, names, k)
    ensures Requested(fields, names, k) ==>
              Get(RowMap(Positions(fields, names), row), k) == Some(row[ColumnOf(fields, names, k)])
  {
    var pos := Positions(fields, names);
    RowMapGet(pos, row, k);
    if Requested(fields, names, k) {
      var i := KeyAt(pos, k);
      SortedDistinct(pos);
      assert Get(pos, k) == Some(pos[i].1);
      assert ColumnOf(fields, names, k) == pos[i].1;
    }
  }

  lemma ValuesRows(fields: seq<Field>, names: seq<string>, rows: seq<Row>)
    requires Known(fields, names) && Wide(rows, fields)
    ensures forall i, k :: 0 <= i < |rows| ==>
              (HasKey(RowMap(Positions(fields, names), rows[i]), k) <==> Requested(fields, names, k))
    ensures forall i, k :: 0 <= i < |rows| && Requested(fields, names, k) ==>
              Get(RowMap(Positions(fields, names), rows[i]), k) == Some(rows[i][ColumnOf(fields, names, k)])
  {
    forall i, k | 0 <= i < |rows|
      ensures HasKey(RowMap(Positions(fields, names), rows[i]), k) <==> Requested(fields, names, k)
    {
      ValuesRow(fields, names, rows[i], k);
    }
    forall i, k | 0 <= i < |rows| && Requested(fields, names, k)
      ensures Get(RowMap(Positions(fields, names), rows[i]), k) == Some(rows[i][ColumnOf(fields, names, k)])
    {
      ValuesRow(fields, names, rows[i], k);
    }
  }

  /** The fetched rows are wide enough for the model's own columns, which
      the select puts first. */
  predicate Wide(rows: seq<Row>, fields: seq<Field>)
  {
    forall i :: 0 <= i < |rows| ==> |rows[i]| >= |fields|
  }

  /** values(): for each fetched row, the requested fields (all of the
      model's when none are named) by name. Naming an unknown field is a
      programming error, checked once the rows are fetched. */
  function SqlValues(qs: QuerySet, m: Model, names: seq<string>, answer: Option<seq<Row>>): (r: Done<seq<OMap<Value>>>)
    requires SqlFetch(qs, answer).result ==> Known(m.fields, names) && Wide(SqlFetch(qs, answer).qs.rows, m.fields)
    ensures r.qs == SqlFetch(qs, answer).qs && r.issued == SqlFetch(qs, answer).issued
    ensures !SqlFetch(qs, answer).result ==> r.result == []
    ensures SqlFetch(qs, answer).result ==> |r.result| == |r.qs.rows|
    ensures SqlFetch(qs, answer).result ==>
              forall i, k :: 0 <= i < |r.result| ==>
                (HasKey(r.result[i], k) <==> Requested(m.fields, names, k))
    ensures SqlFetch(qs, answer).result ==>
              forall i, k :: 0 <= i < |r.result| && Requested(m.fields, names, k) ==>
                Get(r.result[i], k) == Some(r.qs.rows[i][ColumnOf(m.fields, names, k)])
  {
    var f := SqlFetch(qs, answer);
    if !f.result then Done([], f.issued, f.qs)
    else
      ValuesRows(m.fields, names, f.qs.rows);
      var maps := seq(|f.qs.rows|, i requires 0 <= i < |f.qs.rows| =>
                      RowMap(Positions(m.fields, names), f.qs.rows[i]));
      Done(maps, f.issued, f.qs)
  }

  /** The column positions valuesList() reads, in request order. */
  function ListPositions(fields: seq<Field>, names: seq<string>): (r: seq<nat>)
    requires Known(fields, names)
    ensures |names| == 0 ==> r == seq(|fields|, i => i)
    ensures |names| > 0 ==> |r| == |names|
    ensures |names| > 0 ==> forall j :: 0 <= j < |names| ==> r[j] < |fields| && fields[r[j]].name == names[j]
    ensures forall j :: 0 <= j < |r| ==> r[j] < |fields|
  {
    if |names| == 0 then seq(|fields|, i => i)
    else seq(|names|, j requires 0 <= j < |names| => FieldIndex(fields, names[j]))
  }

  /** valuesList(): for each fetched row, the values of the requested
      fields in request order (the model's own columns when none are
      named). */
  function SqlValuesList(qs: QuerySet, m: Model, names: seq<string>, answer: Option<seq<Row>>): (r: Done<seq<Row>>)
    requires SqlFetch(qs, answer).result ==> Known(m.fields, names) && Wide(SqlFetch(qs, answer).qs.rows, m.fields)
    ensures r.qs == SqlFetch(qs, answer).qs && r.issued == SqlFetch(qs, answer).issued
    ensures !SqlFetch(qs, answer).result ==> r.result == []
    ensures SqlFetch(qs, answer).result ==> |r.result| == |r.qs.rows|
    ensures SqlFetch(qs, answer).result && |names| == 0 ==>
              forall i :: 0 <= i < |r.result| ==> r.result[i] == r.qs.rows[i][..|m.fields|]
    ensures SqlFetch(qs, answer).result && |names| > 0 ==>
              forall i :: 0 <= i < |r.result| ==>
                && |r.result[i]| == |names|
                && forall j :: 0 <= j < |names| ==> r.result[i][j] == r.qs.rows[i][FieldIndex(m.fields, names[j])]
  {
    var f := SqlFetch(qs, answer);
    if !f.result then Done([], f.issued, f.qs)
    else
      var ps := ListPositions(m.fields, names);
      var lists := seq(|f.qs.rows|, i requires 0 <= i < |f.qs.rows| =>
                       seq(|ps|, j requires 0 <= j < |ps| => f.qs.rows[i][ps[j]]));
      Done(lists, f.issued, f.qs)
  }

  /** values() and valuesList() read the same columns: for named fields the
      map entry of a name is the list entry at its position. */
  lemma ValuesAgree(qs: QuerySet, m: Model, names: seq<string>, answer: Option<seq<Row>>, i: int, j: int)
    requires SqlFetch(qs, answer).result && Known(m.fields, names) && Wide(SqlFetch(qs, answer).qs.rows, m.fields)
    requires |names| > 0 && 0 <= j < |names|
    requires 0 <= i < |SqlFetch(qs, answer).qs.rows|
    ensures Get(SqlValues(qs, m, names, answer).result[i], names[j]) ==
              Some(SqlValuesList(qs, m, names, answer).result[i][j])
  {
    var row := SqlFetch(qs, answer).qs.rows[i];
    assert Requested(m.fields, names, names[j]);
    ValuesRow(m.fields, names, row, names[j]);
  }

  // const_iterator.

  /** The object an iterator holds: default-constructed until a row is
      loaded into it. */
  datatype Object = DefaultObject | RowObject(row: Row)

  /** An iterator: the set it walks, by identity, its offset, and its cache:
      the offset last loaded (-1 before any load) and the object holding
      that row. */
  datatype Iter = Iter(owner: nat, offset: int, fetched: int, held: Object)

  /** Every constructor, the copy constructor included, starts with an
      empty cache. */
  function NewIter(owner: nat, offset: int): Iter
  {
    Iter(owner, offset, -1, DefaultObject)
  }

  /** operator== and operator!= compare the set and the offset only. */
  predicate Same(a: Iter, b: Iter)
  {
    a.owner == b.owner && a.offset == b.offset
  }

  function Begin(owner: nat): (r: Iter)
    ensures r.owner == owner && r.offset == 0 && r.fetched == -1
  {
    NewIter(owner, 0)
  }

  /** end(): the offset one past the last row, as the library's count()
      gives it. */
  function End(owner: nat, qs: QuerySet, answer: Option<seq<Row>>): (r: Iter)
    ensures r.owner == owner && r.offset == CountAsWritten(qs, answer) && r.fetched == -1
    ensures qs.hasResults ==> r.offset == |qs.rows|
  {
    NewIter(owner, CountAsWritten(qs, answer))
  }

  /** end() with the corrected count(). */
  function EndCorrected(owner: nat, qs: QuerySet, answer: Option<seq<Row>>): (r: Iter)
    ensures r.owner == owner && r.offset == Count(qs, answer) && r.fetched == -1
    ensures NoLimit(qs) && (AggregateValue(answer).Some? ==> ToInt(AggregateValue(answer).value) >= 0) ==>
              r == End(owner, qs, answer)
  {
    NewIter(owner, Count(qs, answer))
  }

  /** Prefix `++` and `--` move the offset and keep the cache. */
  function Next(it: Iter): Iter
  {
    it.(offset := it.offset + 1)
  }

  function Prev(it: Iter): Iter
  {
    it.(offset := it.offset - 1)
  }

  /** `it + n` and `it - n` construct a new iterator. */
  function Plus(it: Iter, n: int): Iter
  {
    NewIter(it.owner, it.offset + n)
  }

  function Minus(it: Iter, n: int): Iter
  {
    NewIter(it.owner, it.offset - n)
  }

  function Distance(a: Iter, b: Iter): int
  {
    a.offset - b.offset
  }

  /** Steps and jumps agree and undo each other, as operator== sees them. */
  lemma IterArithmetic(it: Iter, n: int)
    ensures Prev(Next(it)) == it && Next(Prev(it)) == it
    ensures Same(Minus(Plus(it, n), n), it)
    ensures Distance(Plus(it, n), it) == n
    ensures Same(Plus(it, 1), Next(it)) && Same(Minus(it, 1), Prev(it))
  {
  }

  /** `n` steps forward from `it`. */
  function Steps(it: Iter, n: nat): (r: Iter)
  {
    if n == 0 then it else Next(Steps(it, n - 1))
  }

  /** `n` prefix steps reach the offset of a jump by `n`, keeping the cache. */
  lemma {:induction false} StepsArePlus(it: Iter, n: nat)
    ensures Same(Steps(it, n), Plus(it, n))
    ensures Steps(it, n) == it.(offset := it.offset + n)
    decreases n
  {
    if n > 0 {
      StepsArePlus(it, n - 1);
    }
  }

  predicate Less(a: Iter, b: Iter)
  {
    (a.owner == b.owner && a.offset < b.offset) || a.owner < b.owner
  }

  predicate LessEq(a: Iter, b: Iter)
  {
    (a.owner == b.owner && a.offset <= b.offset) || a.owner < b.owner
  }

  predicate Greater(a: Iter, b: Iter)
  {
    (a.owner == b.owner && a.offset > b.offset) || a.owner > b.owner
  }

  predicate GreaterEq(a: Iter, b: Iter)
  {
    (a.owner == b.owner && a.offset >= b.offset) || a.owner > b.owner
  }

  /** The comparisons order iterators by set, then offset: a strict total
      order with its reflexive and converse forms. */
  lemma IterOrder(a: Iter, b: Iter, c: Iter)
    ensures !Less(a, a)
    ensures Less(a, b) && Less(b, c) ==> Less(a, c)
    ensures Less(a, b) || Same(a, b) || Less(b, a)
    ensures !(Less(a, b) && Less(b, a))
    ensures LessEq(a, b) <==> Less(a, b) || Same(a, b)
    ensures Greater(a, b) <==> Less(b, a)
    ensures GreaterEq(a, b) <==> LessEq(b, a)
  {
  }

  /** What `*it` reads: the iterator's own object, or None for the null
      pointer; then the iterator and the set afterwards. */
  datatype Read = Read(target: Option<Object>, it: Iter, qs: QuerySet)

  /** Dereferencing: an iterator whose cache is not at its offset loads
      the row there with at() and caches it when the load succeeds; one
      whose cache is at its offset reads its object again, loading nothing. */
  function Deref(it: Iter, qs: QuerySet, answer: Option<seq<Row>>): (r: Read)
    ensures Same(r.it, it)
    ensures it.fetched == it.offset ==> r == Read(Some(it.held), it, qs)
    ensures it.fetched != it.offset ==> r.qs == SqlFetch(qs, answer).qs
    ensures r.target.Some? ==> r.it.fetched == it.offset && r.target == Some(r.it.held)
    ensures r.target.None? ==> r.it == it
    ensures it.fetched != it.offset && qs.hasResults ==>
              (r.target.Some? <==> 0 <= it.offset < |qs.rows|) &&
              (0 <= it.offset < |qs.rows| ==> r.target == Some(RowObject(qs.rows[it.offset])))
    ensures it.fetched != it.offset && !qs.hasResults && CacheConsistent(qs) && IsNone(qs.where) ==>
              r.target.None?
    ensures it.fetched != it.offset && !qs.hasResults && CacheConsistent(qs) && !IsNone(qs.where) ==>
              (r.target.Some? <==> answer.Some? && 0 <= it.offset < |answer.value|) &&
              (r.target.Some? ==> r.target.value == RowObject(answer.value[it.offset]))
  {
    if it.fetched == it.offset then Read(Some(it.held), it, qs)
    else
      var a := At(qs, it.offset, answer);
      match a.result
      case None => Read(None, it, a.qs)
      case Some(row) => Read(Some(RowObject(row)), it.(fetched := it.offset, held := RowObject(row)), a.qs)
  }

  /** A second read through the same iterator returns the same object and
      loads nothing, whatever the database would answer. */
  lemma DerefAgain(it: Iter, qs: QuerySet, first: Option<seq<Row>>, second: Option<seq<Row>>)
    requires Deref(it, qs, first).target.Some?
    ensures var r := Deref(it, qs, first);
            Deref(r.it, r.qs, second) == Read(r.target, r.it, r.qs)
  {
  }

  /** The cache's -1 sentinel: one step before begin(), a fresh iterator
      reads its default-constructed object, without a load, while an
      iterator that has loaded a row and steps back there reads nothing. */
  lemma DerefBeforeBegin(owner: nat, qs: QuerySet, answer: Option<seq<Row>>)
    ensures Deref(Minus(Begin(owner), 1), qs, answer) == Read(Some(DefaultObject), Minus(Begin(owner), 1), qs)
    ensures Deref(Prev(Begin(owner)), qs, answer).target == Some(DefaultObject)
    ensures var r := Deref(Begin(owner), qs, answer);
            r.target.Some? ==> Deref(Prev(r.it), r.qs, answer).target.None?
  {
  }

  /** The objects a loop `for (; it != end(); ++it)` reads through `*it`,
      for `n` turns. */
  function ReadSteps(it: Iter, qs: QuerySet, answer: Option<seq<Row>>, n: nat): (r: seq<Option<Object>>)
    ensures |r| == n
    decreases n
  {
    if n == 0 then []
    else
      var d := Deref(it, qs, answer);
      [d.target] + ReadSteps(Next(d.it), d.qs, answer, n - 1)
  }

  /** Over a fetched set, the loop reads the rows from the iterator's
      offset on, in order, when its cache is behind its offset. */
  lemma {:induction false} ReadStepsVisitsRows(it: Iter, qs: QuerySet, answer: Option<seq<Row>>, n: nat)
    requires qs.hasResults && 0 <= it.offset && it.fetched < it.offset && it.offset + n <= |qs.rows|
    ensures forall i :: 0 <= i < n ==> ReadSteps(it, qs, answer, n)[i] == Some(RowObject(qs.rows[it.offset + i]))
    decreases n
  {
    if n > 0 {
      var d := Deref(it, qs, answer);
      assert d.qs == qs && d.target == Some(RowObject(qs.rows[it.offset]));
      ReadStepsVisitsRows(Next(d.it), qs, answer, n - 1);
      var r := ReadSteps(it, qs, answer, n);
      assert r == [d.target] + ReadSteps(Next(d.it), qs, answer, n - 1);
    }
  }

  /** Walking a fetched set from begin() to end() reads its rows in order;
      end() is `|rows|` steps from begin() and reads nothing. */
  lemma IterationVisitsRows(owner: nat, qs: QuerySet, answer: Option<seq<Row>>)
    requires qs.hasResults
    ensures forall i :: 0 <= i < |qs.rows| ==>
              ReadSteps(Begin(owner), qs, answer, |qs.rows|)[i] == Some(RowObject(qs.rows[i]))
    ensures Same(Steps(Begin(owner), |qs.rows|), End(owner, qs, answer))
    ensures Deref(End(owner, qs, answer), qs, answer).target.None?
    ensures Distance(End(owner, qs, answer), Begin(owner)) == |qs.rows|
  {
    ReadStepsVisitsRows(Begin(owner), qs, answer, |qs.rows|);
    StepsArePlus(Begin(owner), |qs.rows|);
  }
}

=== FILE: registry.dfy ===
/** The global registry of model descriptors, keyed by class name and
    iterated in key order: registration, lookup by name, and the
    dependency order in which tables are created and dropped. */
module Registry {
  import opened Options
  import opened Strings
  import opened OrderedMaps
  import opened MetaModel

  type Models = OMap<Model>

  datatype Registered = Registered(models: Models, model: Model)

  /** registerModel: a class is described once; registering it again
      returns the stored descriptor. */
  function Register(reg: Models, c: ClassInfo): (r: Registered)
    ensures Get(r.models, c.className) == Some(r.model)
    ensures HasKey(reg, c.className) ==> r.models == reg
    ensures !HasKey(reg, c.className) ==> r.model == Build(c)
  {
    match Get(reg, c.className)
    case Some(m) => Registered(reg, m)
    case None =>
      InsertGet(reg, c.className, Build(c), c.className);
      Registered(Insert(reg, c.className, Build(c)), Build(c))
  }

  /** Registering twice is registering once. */
  lemma RegisterIdempotent(reg: Models, c: ClassInfo)
    ensures Register(Register(reg, c).models, c) == Register(reg, c)
  {
  }

  /** Registering one class leaves every other class's entry alone. */
  lemma RegisterKeepsOthers(reg: Models, c: ClassInfo, other: string)
    requires other != c.className
    ensures Get(Register(reg, c).models, other) == Get(reg, other)
  {
    if !HasKey(reg, c.className) {
      InsertGet(reg, c.className, Build(c), other);
    }
  }

  /** The first key, in iteration order, equal to `name` ignoring letter case. */
  function FindIgnoringCase(keys: seq<string>, name: string): (r: Option<string>)
    ensures r.Some? ==> r.value in keys && Lower(r.value) == Lower(name)
    ensures r.None? <==> forall i :: 0 <= i < |keys| ==> Lower(keys[i]) != Lower(name)
    ensures r.Some? ==> exists i :: 0 <= i < |keys| && keys[i] == r.value &&
                          forall j :: 0 <= j < i ==> Lower(keys[j]) != Lower(name)
    decreases |keys|
  {
    if |keys| == 0 then None
    else if Lower(keys[0]) == Lower(name) then Some(keys[0])
    else
      var r := FindIgnoringCase(keys[1..], name);
      assert forall i :: 1 <= i < |keys| ==> keys[1..][i - 1] == keys[i];
      if r.None? then r
      else
        var i :| 0 <= i < |keys[1..]| && keys[1..][i] == r.value &&
                 forall j :: 0 <= j < i ==> Lower(keys[1..][j]) != Lower(name);
        assert keys[i + 1] == r.value;
        r
  }

  /** metaModel: an exact match first, then the first key equal ignoring
      case, otherwise the invalid descriptor. */
  function Lookup(reg: Models, name: string): (r: Model)
    ensures HasKey(reg, name) ==> Some(r) == Get(reg, name)
    ensures (forall k :: HasKey(reg, k) ==> Lower(k) != Lower(name)) ==> r == InvalidModel
    ensures !HasKey(reg, name) && FindIgnoringCase(Keys(reg), name).Some? ==>
              Some(r) == Get(reg, FindIgnoringCase(Keys(reg), name).value)
  {
    match Get(reg, name)
    case Some(m) => m
    case None =>
      match FindIgnoringCase(Keys(reg), name)
      case Some(k) => Get(reg, k).GetOr(InvalidModel)
      case None => InvalidModel
  }

  /** A descriptor found by lookup is the one stored under a key that is the
      requested name up to letter case. */
  lemma LookupFindsStored(reg: Models, name: string)
    requires Lookup(reg, name) != InvalidModel
    ensures exists k :: HasKey(reg, k) && Lower(k) == Lower(name) && Get(reg, k) == Some(Lookup(reg, name))
  {
    if HasKey(reg, name) {
      assert HasKey(reg, name) && Lower(name) == Lower(name);
    } else {
      var k := FindIgnoringCase(Keys(reg), name).value;
      assert HasKey(reg, k);
    }
  }

  /** A registered class is found under any spelling of its name that no
      other key matches ignoring case. */
  lemma LookupIgnoresCase(reg: Models, k: string, name: string)
    requires HasKey(reg, k) && Lower(k) == Lower(name)
    requires forall k' :: HasKey(reg, k') && Lower(k') == Lower(name) ==> k' == k
    ensures Some(Lookup(reg, name)) == Get(reg, k)
  {
    if !HasKey(reg, name) {
      var f := FindIgnoringCase(Keys(reg), name);
      assert exists i :: 0 <= i < |Keys(reg)| && Keys(reg)[i] == k;
      assert f.Some?;
    }
  }

  // Dependency order.

  /** The target classes of a name's foreign keys, in key order; none for a
      name that is not registered. */
  function Targets(reg: Models, name: string): seq<string>
  {
    match Get(reg, name)
    case None => []
    case Some(m) => OrderedMaps.Values(m.foreignFields)
  }

  /** Every registered name and every target of a registered name lies in `u`. */
  ghost predicate Closed(reg: Models, u: set<string>)
  {
    forall k :: HasKey(reg, k) ==> k in u && forall t :: t in Targets(reg, k) ==> t in u
  }

  function AllTargets(reg: Models): (r: seq<string>)
    decreases |reg|
  {
    if |reg| == 0 then [] else OrderedMaps.Values(reg[0].1.foreignFields) + AllTargets(reg[1..])
  }

  /** The names the walk can reach: the keys and all foreign-key targets. */
  function Universe(reg: Models): set<string>
  {
    (set k | k in Keys(reg)) + (set t | t in AllTargets(reg))
  }

  lemma {:induction false} EntryTargetsInAll(reg: Models, i: int)
    requires 0 <= i < |reg|
    ensures forall t :: t in OrderedMaps.Values(reg[i].1.foreignFields) ==> t in AllTargets(reg)
    decreases i
  {
    if i > 0 {
      EntryTargetsInAll(reg[1..], i - 1);
    }
  }

  lemma UniverseClosed(reg: Models)
    ensures Closed(reg, Universe(reg))
  {
    forall k | HasKey(reg, k)
      ensures k in Universe(reg) && forall t :: t in Targets(reg, k) ==> t in Universe(reg)
    {
      var m := Get(reg, k).value;
      var i :| 0 <= i < |reg| && reg[i] == (k, m);
      EntryTargetsInAll(reg, i);
    }
  }

  /** The walk's state: the names marked visited and the names pushed, in
      push order. */
  datatype Walk = Walk(visited: set<string>, order: seq<string>)

  /** norm_topsort: mark the name, visit its unvisited targets, then push it
      if it is registered. */
  function Visit(reg: Models, u: set<string>, w: Walk, name: string): (r: Walk)
    requires Closed(reg, u) && w.visited <= u && name in u && name !in w.visited
    ensures w.visited + {name} <= r.visited <= u
    decreases u - w.visited, 0, 0
  {
    var inner := VisitAll(reg, u, Walk(w.visited + {name}, w.order), Targets(reg, name));
    if HasKey(reg, name) then Walk(inner.visited, inner.order + [name]) else inner
  }

  /** The loop over a model's targets (or, at the top, over all keys). */
  function VisitAll(reg: Models, u: set<string>, w: Walk, ts: seq<string>): (r: Walk)
    requires Closed(reg, u) && w.visited <= u && forall i :: 0 <= i < |ts| ==> ts[i] in u
    ensures w.visited <= r.visited <= u
    decreases u - w.visited, 1, |ts|
  {
    if |ts| == 0 then w
    else
      var next := if ts[0] in w.visited then w else Visit(reg, u, w, ts[0]);
      VisitAll(reg, u, next, ts[1..])
  }

  /** norm_sorted_metamodels, with unregistered targets skipped: the
      registered class names in the order their tables are created. */
  function SortedNames(reg: Models): (r: seq<string>)
    ensures NoDuplicates(r)
    ensures forall x :: x in r <==> HasKey(reg, x)
  {
    UniverseClosed(reg);
    WalkPermutesKeys(reg);
    VisitAll(reg, Universe(reg), Walk({}, []), Keys(reg)).order
  }

  ghost predicate NoDuplicates(s: seq<string>)
  {
    forall i, j :: 0 <= i < j < |s| ==> s[i] != s[j]
  }

  /** The walk invariant: pushed names are distinct, visited and registered,
      and every visited registered name that is not pushed is in `open`, the
      names whose visits are still running. */
  ghost predicate WalkOk(reg: Models, open: set<string>, w: Walk)
  {
    && NoDuplicates(w.order)
    && (forall i :: 0 <= i < |w.order| ==> w.order[i] in w.visited && HasKey(reg, w.order[i]))
    && (forall x :: x in w.visited && HasKey(reg, x) && x !in w.order ==> x in open)
    && (forall x :: x in open ==> x in w.visited && x !in w.order)
  }

  lemma {:induction false} VisitOk(reg: Models, u: set<string>, open: set<string>, w: Walk, name: string)
    requires Closed(reg, u) && w.visited <= u && name in u && name !in w.visited
    requires WalkOk(reg, open, w)
    ensures WalkOk(reg, open, Visit(reg, u, w, name))
    ensures w.order <= Visit(reg, u, w, name).order
    ensures HasKey(reg, name) ==> name in Visit(reg, u, w, name).order
    decreases u - w.visited, 0, 0
  {
    var w1 := Walk(w.visited + {name}, w.order);
    var open1 := if HasKey(reg, name) then open + {name} else open;
    assert WalkOk(reg, open1, w1);
    var inner := VisitAll(reg, u, w1, Targets(reg, name));
    VisitAllOk(reg, u, open1, w1, Targets(reg, name));
    if HasKey(reg, name) {
      var r := Walk(inner.visited, inner.order + [name]);
      assert name !in inner.order;
      assert WalkOk(reg, open, r) by {
        forall x | x in r.visited && HasKey(reg, x) && x !in r.order
          ensures x in open
        {
          assert x in open1;
        }
        forall i, j | 0 <= i < j < |r.order|
          ensures r.order[i] != r.order[j]
        {
          if j == |r.order| - 1 {
            assert r.order[i] == inner.order[i];
          }
        }
      }
      assert r.order[|r.order| - 1] == name;
    }
  }

  lemma {:induction false} VisitAllOk(reg: Models, u: set<string>, open: set<string>, w: Walk, ts: seq<string>)
    requires Closed(reg, u) && w.visited <= u && forall i :: 0 <= i < |ts| ==> ts[i] in u
    requires WalkOk(reg, open, w)
    ensures WalkOk(reg, open, VisitAll(reg, u, w, ts))
    ensures w.order <= VisitAll(reg, u, w, ts).order
    ensures forall i :: 0 <= i < |ts| ==> ts[i] in VisitAll(reg, u, w, ts).visited
    decreases u - w.visited, 1, |ts|
  {
    if |ts| > 0 {
      var next := if ts[0] in w.visited then w else Visit(reg, u, w, ts[0]);
      if ts[0] !in w.visited {
        VisitOk(reg, u, open, w, ts[0]);
      }
      VisitAllOk(reg, u, open, next, ts[1..]);
      assert forall i :: 1 <= i < |ts| ==> ts[i] == ts[1..][i - 1];
    }
  }

  /** Every registered class is pushed exactly once, cycles or not. */
  lemma WalkPermutesKeys(reg: Models)
    ensures Closed(reg, Universe(reg))
    ensures var r := VisitAll(reg, Universe(reg), Walk({}, []), Keys(reg));
            NoDuplicates(r.order) && forall x :: x in r.order <==> HasKey(reg, x)
  {
    UniverseClosed(reg);
    var r := VisitAll(reg, Universe(reg), Walk({}, []), Keys(reg));
    VisitAllOk(reg, Universe(reg), {}, Walk({}, []), Keys(reg));
    forall x | HasKey(reg, x)
      ensures x in r.order
    {
      var i :| 0 <= i < |Keys(reg)| && Keys(reg)[i] == x;
    }
  }

  // Topological order.

  /** The foreign-key graph is acyclic, witnessed by a rank that drops along
      every foreign key. */
  ghost predicate RankedBy(reg: Models, rank: string -> nat)
  {
    forall k, t :: HasKey(reg, k) && t in Targets(reg, k) ==> rank(t) < rank(k)
  }

  /** Each pushed name comes after every registered target of its own. */
  ghost predicate TargetsFirst(reg: Models, order: seq<string>)
  {
    forall i, t :: 0 <= i < |order| && t in Targets(reg, order[i]) && HasKey(reg, t) ==> t in order[..i]
  }

  /** The names whose visits are running rank at least `r`. */
  ghost predicate Above(open: set<string>, rank: string -> nat, r: nat)
  {
    forall g :: g in open ==> rank(g) >= r
  }

  lemma TargetsFirstAppend(reg: Models, order: seq<string>, name: string)
    requires TargetsFirst(reg, order)
    requires forall t :: t in Targets(reg, name) && HasKey(reg, t) ==> t in order
    ensures TargetsFirst(reg, order + [name])
  {
    var o := order + [name];
    forall i, t | 0 <= i < |o| && t in Targets(reg, o[i]) && HasKey(reg, t)
      ensures t in o[..i]
    {
      if i < |order| {
        assert o[..i] == order[..i];
      } else {
        assert o[..i] == order;
      }
    }
  }

  lemma TargetsFirstPrefix(reg: Models, order: seq<string>, longer: seq<string>)
    requires TargetsFirst(reg, longer) && order <= longer
    ensures TargetsFirst(reg, order)
  {
    forall i, t | 0 <= i < |order| && t in Targets(reg, order[i]) && HasKey(reg, t)
      ensures t in order[..i]
    {
      assert order[..i] == longer[..i];
    }
  }

  lemma {:induction false} VisitTopological(reg: Models, u: set<string>, open: set<string>, rank: string -> nat,
                                            w: Walk, name: string)
    requires Closed(reg, u) && w.visited <= u && name in u && name !in w.visited
    requires WalkOk(reg, open, w) && RankedBy(reg, rank)
    requires TargetsFirst(reg, w.order) && Above(open, rank, rank(name))
    ensures TargetsFirst(reg, Visit(reg, u, w, name).order)
    decreases u - w.visited, 0, 0
  {
    var w1 := Walk(w.visited + {name}, w.order);
    var open1 := if HasKey(reg, name) then open + {name} else open;
    assert WalkOk(reg, open1, w1);
    var ts := Targets(reg, name);
    var inner := VisitAll(reg, u, w1, ts);
    VisitAllOk(reg, u, open1, w1, ts);
    if HasKey(reg, name) {
      forall i | 0 <= i < |ts|
        ensures rank(ts[i]) < rank(name)
      {
        assert ts[i] in Targets(reg, name);
      }
      VisitAllTopological(reg, u, open1, rank, w1, ts, rank(name));
      forall t | t in ts && HasKey(reg, t)
        ensures t in inner.order
      {
        assert rank(t) < rank(name);
        assert t !in open1;
      }
      TargetsFirstAppend(reg, inner.order, name);
    } else {
      assert |ts| == 0;
    }
  }

  lemma {:induction false} VisitAllTopological(reg: Models, u: set<string>, open: set<string>, rank: string -> nat,
                                               w: Walk, ts: seq<string>, bound: nat)
    requires Closed(reg, u) && w.visited <= u && forall i :: 0 <= i < |ts| ==> ts[i] in u
    requires WalkOk(reg, open, w) && RankedBy(reg, rank)
    requires TargetsFirst(reg, w.order)
    requires forall i :: 0 <= i < |ts| ==> rank(ts[i]) < bound
    requires Above(open, rank, bound)
    ensures TargetsFirst(reg, VisitAll(reg, u, w, ts).order)
    decreases u - w.visited, 1, |ts|
  {
    if |ts| > 0 {
      var next := if ts[0] in w.visited then w else Visit(reg, u, w, ts[0]);
      if ts[0] !in w.visited {
        VisitOk(reg, u, open, w, ts[0]);
        VisitTopological(reg, u, open, rank, w, ts[0]);
      }
      VisitAllTopological(reg, u, open, rank, next, ts[1..], bound);
    }
  }

  /** With an acyclic foreign-key graph every registered target's table is
      created before the tables that refer to it. */
  lemma SortedNamesTopological(reg: Models, rank: string -> nat)
    requires RankedBy(reg, rank)
    ensures TargetsFirst(reg, SortedNames(reg))
  {
    UniverseClosed(reg);
    var u := Universe(reg);
    var ks := Keys(reg);
    var bound := TopRank(ks, rank);
    VisitAllTopological(reg, u, {}, rank, Walk({}, []), ks, bound);
  }

  /** One more than the largest rank of the names. */
  function TopRank(ks: seq<string>, rank: string -> nat): (r: nat)
    ensures forall i :: 0 <= i < |ks| ==> rank(ks[i]) < r
    decreases |ks|
  {
    if |ks| == 0 then 0
    else
      var rest := TopRank(ks[1..], rank);
      assert forall i :: 1 <= i < |ks| ==> ks[i] == ks[1..][i - 1];
      if rank(ks[0]) + 1 > rest then rank(ks[0]) + 1 else rest
  }

  // The walk as written: unregistered targets are added to the registry.

  datatype SortState = SortState(models: Models, visited: set<string>, order: seq<string>)

  lemma InsertInvalidClosed(reg: Models, u: set<string>, name: string)
    requires Closed(reg, u) && name in u && !HasKey(reg, name)
    ensures Closed(Insert(reg, name, InvalidModel), u)
  {
    var reg' := Insert(reg, name, InvalidModel);
    forall k | HasKey(reg', k)
      ensures k in u && forall t :: t in Targets(reg', k) ==> t in u
    {
      InsertHasKey(reg, name, InvalidModel, k);
      InsertGet(reg, name, InvalidModel, k);
    }
  }

  /** The registry after QMap::operator[] looked up an absent name. */
  function Stored(reg: Models, u: set<string>, name: string): (r: Models)
    requires Closed(reg, u) && name in u && !HasKey(reg, name)
    ensures Closed(r, u) && Get(r, name) == Some(InvalidModel)
  {
    InsertInvalidClosed(reg, u, name);
    InsertGet(reg, name, InvalidModel, name);
    Insert(reg, name, InvalidModel)
  }

  /** norm_topsort as written: looking a name up with QMap::operator[]
      stores an invalid descriptor under every name that was not registered,
      and that descriptor is pushed like any other. */
  function VisitAsWritten(u: set<string>, s: SortState, name: string): (r: SortState)
    requires Closed(s.models, u) && s.visited <= u && name in u && name !in s.visited
    ensures s.visited + {name} <= r.visited <= u && Closed(r.models, u)
    decreases u - s.visited, 0, 0
  {
    var models := if HasKey(s.models, name) then s.models else Stored(s.models, u, name);
    var inner := VisitAllAsWritten(u, SortState(models, s.visited + {name}, s.order), Targets(models, name));
    SortState(inner.models, inner.visited, inner.order + [name])
  }

  function VisitAllAsWritten(u: set<string>, s: SortState, ts: seq<string>): (r: SortState)
    requires Closed(s.models, u) && s.visited <= u && forall i :: 0 <= i < |ts| ==> ts[i] in u
    ensures s.visited <= r.visited <= u && Closed(r.models, u)
    decreases u - s.visited, 1, |ts|
  {
    if |ts| == 0 then s
    else
      var next := if ts[0] in s.visited then s else VisitAsWritten(u, s, ts[0]);
      VisitAllAsWritten(u, next, ts[1..])
  }

  /** norm_sorted_metamodels as written: the registry afterwards and the
      names pushed. */
  function SortedAsWritten(reg: Models): (r: SortState)
    ensures TargetsRegistered(reg) ==> r.models == reg && r.order == SortedNames(reg)
  {
    UniverseClosed(reg);
    WalkAsWrittenAgrees(reg);
    VisitAllAsWritten(Universe(reg), SortState(reg, {}, []), Keys(reg))
  }

  lemma WalkAsWrittenAgrees(reg: Models)
    ensures Closed(reg, Universe(reg))
    ensures TargetsRegistered(reg) ==>
              var r := VisitAll(reg, Universe(reg), Walk({}, []), Keys(reg));
              VisitAllAsWritten(Universe(reg), SortState(reg, {}, []), Keys(reg)) == SortState(reg, r.visited, r.order)
  {
    UniverseClosed(reg);
    if TargetsRegistered(reg) {
      VisitAllAgrees(reg, Universe(reg), Walk({}, []), Keys(reg));
    }
  }

  /** Every target of a registered class is registered. */
  ghost predicate TargetsRegistered(reg: Models)
  {
    forall k, t :: HasKey(reg, k) && t in Targets(reg, k) ==> HasKey(reg, t)
  }

  lemma {:induction false} VisitAgrees(reg: Models, u: set<string>, w: Walk, name: string)
    requires Closed(reg, u) && w.visited <= u && name in u && name !in w.visited
    requires TargetsRegistered(reg) && HasKey(reg, name)
    ensures VisitAsWritten(u, SortState(reg, w.visited, w.order), name) ==
              var r := Visit(reg, u, w, name); SortState(reg, r.visited, r.order)
    decreases u - w.visited, 0, 0
  {
    var w1 := Walk(w.visited + {name}, w.order);
    VisitAllAgrees(reg, u, w1, Targets(reg, name));
  }

  lemma {:induction false} VisitAllAgrees(reg: Models, u: set<string>, w: Walk, ts: seq<string>)
    requires Closed(reg, u) && w.visited <= u && forall i :: 0 <= i < |ts| ==> ts[i] in u
    requires TargetsRegistered(reg) && forall i :: 0 <= i < |ts| ==> HasKey(reg, ts[i])
    ensures VisitAllAsWritten(u, SortState(reg, w.visited, w.order), ts) ==
              var r := VisitAll(reg, u, w, ts); SortState(reg, r.visited, r.order)
    decreases u - w.visited, 1, |ts|
  {
    if |ts| > 0 {
      var next := if ts[0] in w.visited then w else Visit(reg, u, w, ts[0]);
      if ts[0] !in w.visited {
        VisitAgrees(reg, u, w, ts[0]);
      }
      VisitAllAgrees(reg, u, next, ts[1..]);
    }
  }

  /** A registry with class A, whose foreign key `b` targets class B that is
      not registered yet. */
  const DanglingA := Model("A", Some("a"), [IdField], [("b", "B")], "id", [])
  const ClassB := ClassInfo("B", None, [])

  /** Visiting a name that is not registered stores and pushes the invalid
      descriptor and goes no further. */
  lemma VisitUnregistered(u: set<string>, s: SortState, name: string)
    requires Closed(s.models, u) && s.visited <= u && name in u && name !in s.visited
    requires !HasKey(s.models, name)
    ensures VisitAsWritten(u, s, name) ==
              SortState(Stored(s.models, u, name), s.visited + {name}, s.order + [name])
  {
    var stored := Stored(s.models, u, name);
    assert Targets(stored, name) == [];
  }

  const Dangling: Models := [("A", DanglingA)]

  lemma DanglingUniverse()
    ensures Closed(Dangling, Universe(Dangling))
    ensures "A" in Universe(Dangling) && "B" in Universe(Dangling)
    ensures Keys(Dangling) == ["A"] && Targets(Dangling, "A") == ["B"] && !HasKey(Dangling, "B")
  {
    assert OrderedMaps.Values(DanglingA.foreignFields) == ["B"];
    assert AllTargets(Dangling) == ["B"];
    UniverseClosed(Dangling);
  }

  lemma DanglingInner(u: set<string>)
    requires Closed(Dangling, u) && "A" in u && "B" in u
    requires Targets(Dangling, "A") == ["B"] && !HasKey(Dangling, "B")
    ensures VisitAllAsWritten(u, SortState(Dangling, {"A"}, []), ["B"]).models == Stored(Dangling, u, "B")
    ensures VisitAllAsWritten(u, SortState(Dangling, {"A"}, []), ["B"]).order == ["B"]
  {
    var sB := SortState(Dangling, {"A"}, []);
    VisitUnregistered(u, sB, "B");
    assert VisitAllAsWritten(u, sB, ["B"]) == VisitAllAsWritten(u, VisitAsWritten(u, sB, "B"), []);
  }

  lemma VisitAllSingle(u: set<string>, s: SortState, x: string)
    requires Closed(s.models, u) && s.visited <= u && x in u && x !in s.visited
    ensures VisitAllAsWritten(u, s, [x]) == VisitAsWritten(u, s, x)
  {
    assert [x][1..] == [];
  }

  lemma VisitRegistered(u: set<string>, s: SortState, name: string)
    requires Closed(s.models, u) && s.visited <= u && name in u && name !in s.visited
    requires HasKey(s.models, name)
    ensures VisitAsWritten(u, s, name).models ==
              VisitAllAsWritten(u, SortState(s.models, s.visited + {name}, s.order), Targets(s.models, name)).models
  {
  }

  lemma DanglingOuter(u: set<string>)
    requires Closed(Dangling, u) && "A" in u && "B" in u
    requires Keys(Dangling) == ["A"] && Targets(Dangling, "A") == ["B"] && !HasKey(Dangling, "B")
    ensures Get(VisitAllAsWritten(u, SortState(Dangling, {}, []), Keys(Dangling)).models, "B") == Some(InvalidModel)
    ensures VisitAllAsWritten(u, SortState(Dangling, {}, []), Keys(Dangling)).order == ["B", "A"]
  {
    DanglingInner(u);
    var s0 := SortState(Dangling, {}, []);
    VisitAllSingle(u, s0, "A");
    assert HasKey(Dangling, "A");
    VisitRegistered(u, s0, "A");
    assert s0.visited + {"A"} == {"A"};
  }

  lemma DanglingWalk()
    ensures Get(SortedAsWritten(Dangling).models, "B") == Some(InvalidModel)
    ensures SortedAsWritten(Dangling).order == ["B", "A"]
    ensures !HasKey(Dangling, "B")
  {
    DanglingUniverse();
    DanglingOuter(Universe(Dangling));
  }

  /** After the walk as written, registering B returns the invalid descriptor
      the walk stored for it, where registering B beforehand describes it. */
  lemma SortedAsWrittenPollutes()
    ensures Register(Dangling, ClassB).model.IsValid()
    ensures Register(SortedAsWritten(Dangling).models, ClassB).model == InvalidModel
    ensures !InvalidModel.IsValid()
  {
    DanglingWalk();
  }

  // Creating and dropping every table.

  /** The outcome of creating or dropping tables: the classes attempted, in
      order, and whether every attempt succeeded. */
  datatype Run = Run(attempted: seq<string>, ok: bool)

  /** Attempt every name, even after a failure; `succeeds` is the outcome of
      the statements issued for one class. */
  function RunAll(names: seq<string>, succeeds: string -> bool): (r: Run)
    ensures r.attempted == names
    ensures r.ok <==> forall i :: 0 <= i < |names| ==> succeeds(names[i])
    decreases |names|
  {
    if |names| == 0 then Run([], true)
    else
      var rest := RunAll(names[1..], succeeds);
      assert forall i :: 1 <= i < |names| ==> names[i] == names[1..][i - 1];
      Run([names[0]] + rest.attempted, succeeds(names[0]) && rest.ok)
  }

  function Reverse(s: seq<string>): (r: seq<string>)
    ensures |r| == |s| && forall i :: 0 <= i < |s| ==> r[i] == s[|s| - 1 - i]
    decreases |s|
  {
    if |s| == 0 then [] else Reverse(s[1..]) + [s[0]]
  }

  /** createTables: every name the library's walk pushes, in that order;
      a failure does not stop the others. When every foreign key targets a
      registered class this is the corrected run. */
  function CreateTables(reg: Models, succeeds: string -> bool): (r: Run)
    ensures r.ok <==> forall i :: 0 <= i < |r.attempted| ==> succeeds(r.attempted[i])
    ensures TargetsRegistered(reg) ==> r == CreateTablesCorrected(reg, succeeds)
  {
    RunAll(SortedAsWritten(reg).order, succeeds)
  }

  /** dropTables: the names of a fresh walk, last pushed first. */
  function DropTables(reg: Models, succeeds: string -> bool): (r: Run)
    ensures r.ok <==> forall i :: 0 <= i < |r.attempted| ==> succeeds(r.attempted[i])
    ensures TargetsRegistered(reg) ==> r == DropTablesCorrected(reg, succeeds)
  {
    RunAll(Reverse(SortedAsWritten(reg).order), succeeds)
  }

  /** createTables over the corrected walk: every registered class once. */
  function CreateTablesCorrected(reg: Models, succeeds: string -> bool): (r: Run)
    ensures forall x :: x in r.attempted <==> HasKey(reg, x)
    ensures r.ok <==> forall k :: HasKey(reg, k) ==> succeeds(k)
  {
    var s := SortedNames(reg);
    assert forall k :: HasKey(reg, k) ==> exists i :: 0 <= i < |s| && s[i] == k;
    RunAll(s, succeeds)
  }

  function DropTablesCorrected(reg: Models, succeeds: string -> bool): (r: Run)
    ensures forall x :: x in r.attempted <==> HasKey(reg, x)
    ensures r.ok <==> forall k :: HasKey(reg, k) ==> succeeds(k)
  {
    var s := Reverse(SortedNames(reg));
    assert forall x :: x in s <==> x in SortedNames(reg) by {
      forall x
        ensures x in s <==> x in SortedNames(reg)
      {
        if x in SortedNames(reg) {
          var i :| 0 <= i < |SortedNames(reg)| && SortedNames(reg)[i] == x;
          assert s[|s| - 1 - i] == x;
        }
      }
    }
    assert forall k :: HasKey(reg, k) ==> exists i :: 0 <= i < |s| && s[i] == k;
    RunAll(s, succeeds)
  }

  /** On the same registry contents, the library drops in exactly the
      reverse of the order it creates. */
  lemma CreateDropReversed(reg: Models, create: string -> bool, drop: string -> bool)
    ensures var c := CreateTables(reg, create).attempted;
            var d := DropTables(reg, drop).attempted;
            |d| == |c| && forall i :: 0 <= i < |c| ==> d[i] == c[|c| - 1 - i]
  {
    CreateRunsWalk(reg, create);
    DropRunsWalk(reg, drop);
    Reversed(SortedAsWritten(reg).order, CreateTables(reg, create).attempted, DropTables(reg, drop).attempted);
  }

  /** createTables followed by dropTables: the drop walks the registry
      the create walk left behind. When every foreign key targets a
      registered class that registry is unchanged, so the tables are
      dropped in exactly the reverse of the order they were created. */
  lemma CreateThenDropReversed(reg: Models, create: string -> bool, drop: string -> bool)
    requires TargetsRegistered(reg)
    ensures var c := CreateTables(reg, create).attempted;
            var d := DropTables(SortedAsWritten(reg).models, drop).attempted;
            |d| == |c| && forall i :: 0 <= i < |c| ==> d[i] == c[|c| - 1 - i]
  {
    assert SortedAsWritten(reg).models == reg;
    CreateDropReversed(reg, create, drop);
  }

  lemma Reversed(o: seq<string>, c: seq<string>, d: seq<string>)
    requires c == o && d == Reverse(o)
    ensures |d| == |c| && forall i :: 0 <= i < |c| ==> d[i] == c[|c| - 1 - i]
  {
  }

  lemma CreateRunsWalk(reg: Models, create: string -> bool)
    ensures CreateTables(reg, create).attempted == SortedAsWritten(reg).order
  {
  }

  lemma DropRunsWalk(reg: Models, drop: string -> bool)
    ensures DropTables(reg, drop).attempted == Reverse(SortedAsWritten(reg).order)
  {
  }

  /** Corrected: tables are dropped in the reverse of the creation order,
      every registered class is attempted, and a failure of one class does
      not stop the others. */
  lemma CreateDropOrder(reg: Models, create: string -> bool, drop: string -> bool)
    ensures var c := CreateTablesCorrected(reg, create).attempted;
            var d := DropTablesCorrected(reg, drop).attempted;
            |d| == |c| && forall i :: 0 <= i < |c| ==> d[i] == c[|c| - 1 - i]
    ensures forall x :: x in CreateTablesCorrected(reg, create).attempted <==> HasKey(reg, x)
    ensures CreateTablesCorrected(reg, create).ok <==> forall k :: HasKey(reg, k) ==> create(k)
  {
    var o := SortedNames(reg);
    assert CreateTablesCorrected(reg, create).attempted == o;
    assert DropTablesCorrected(reg, drop).attempted == Reverse(o);
  }

  /** With class A pointing at an unregistered class B, the library's
      createTables attempts B (with the invalid descriptor the walk stored)
      before A; the corrected run attempts A alone. */
  lemma DanglingCreates(create: string -> bool)
    ensures CreateTables(Dangling, create).attempted == ["B", "A"]
    ensures CreateTablesCorrected(Dangling, create).attempted == ["A"]
  {
    DanglingWalk();
    DanglingSorted();
  }

  lemma DanglingSorted()
    ensures SortedNames(Dangling) == ["A"]
  {
    var s := SortedNames(Dangling);
    assert HasKey(Dangling, "A") && !HasKey(Dangling, "B");
    assert forall x :: x in s ==> x == "A" by {
      forall x | x in s
        ensures x == "A"
      {
        assert HasKey(Dangling, x);
      }
    }
    assert "A" in s;
    if |s| > 1 {
      FirstTwoIn(s);
      assert false;
    }
  }

  lemma FirstTwoIn(s: seq<string>)
    ensures |s| > 1 ==> s[0] in s && s[1] in s
  {
  }
}

=== FILE: schema.dfy ===
/** The statements that create and drop a model's table
    (NOrmMetaModel::createTableSql, createTable and dropTable): the column
    type each value type maps to on each back end, the attributes of a
    column clause, foreign keys, unique-together constraints and indexes.
    `CreateTableSqlAsWritten` follows the library's loop as it stands;
    `CreateTableSql` is the corrected generator. */
module Schema {
  import opened Options
  import opened Strings
  import opened Dialects
  import opened OrderedMaps
  import opened MetaModel
  import opened Registry

  // Column types.

  /** "(n)" for a declared length. */
  function Sized(n: int): string
    requires n > 0
  {
    "(" + NatStr(n) + ")"
  }

  /** The text column type: varchar/text, nvarchar on SQL Server. */
  function TextType(d: Dialect, n: int): string
  {
    if d == MSSqlServer then "nvarchar" + (if n > 0 then Sized(n) else "(max)")
    else if n > 0 then "varchar" + Sized(n)
    else "text"
  }

  /** The column type of a value type on a back end; None for the types the
      generator skips with a warning. */
  function ColumnType(t: FieldType, d: Dialect, n: int): (r: Option<string>)
    ensures r.Some? <==> t != OtherType && t != InvalidType
    ensures r.Some? ==> r.value != ""
  {
    match t
    case BoolType =>
      Some(if d == PostgreSQL then "boolean" else if d == MSSqlServer || d == DaMeng then "bit" else "bool")
    case ByteArrayType =>
      Some(if d == PostgreSQL then "bytea"
           else if d == MSSqlServer then "varbinary" + (if n > 0 then Sized(n) else "(max)")
           else " blob" + (if n > 0 then Sized(n) else ""))
    case DateType => Some("date")
    case DateTimeType => Some(if d == PostgreSQL then "timestamp" else "datetime")
    case DoubleType => Some("real")
    case IntType => Some(if d == MSSqlServer then "int" else "integer")
    case LongLongType => Some("bigint")
    case StringType => Some(TextType(d, n))
    case TimeType => Some("time")
    case StringListType => Some(TextType(d, n))
    case OtherType => None
    case InvalidType => None
  }

  /** The types whose column declares a length. */
  predicate Sizable(t: FieldType, d: Dialect)
  {
    t == StringType || t == StringListType || (t == ByteArrayType && d != PostgreSQL)
  }

  predicate HasDigit(s: string)
  {
    exists i :: 0 <= i < |s| && '0' <= s[i] <= '9'
  }

  lemma NatStrHasDigit(n: nat)
    ensures HasDigit(NatStr(n))
  {
    assert '0' <= NatStr(n)[0] <= '9';
  }

  lemma SizedEnds(prefix: string, n: int)
    requires n > 0
    ensures HasDigit(prefix + Sized(n))
    ensures EndsWith(prefix + Sized(n), "(" + NatStr(n) + ")")
  {
    var s := prefix + Sized(n);
    assert '0' <= s[|prefix| + 1] <= '9';
  }

  /** A column type carries a length exactly when the type is sizable and
      the field declares a positive max_length, and then it ends with that
      length in parentheses. */
  lemma LengthDeclared(t: FieldType, d: Dialect, n: int)
    requires ColumnType(t, d, n).Some?
    ensures HasDigit(ColumnType(t, d, n).value) <==> Sizable(t, d) && n > 0
    ensures Sizable(t, d) && n > 0 ==> EndsWith(ColumnType(t, d, n).value, "(" + NatStr(n) + ")")
  {
    var r := ColumnType(t, d, n).value;
    if Sizable(t, d) && n > 0 {
      if t == ByteArrayType {
        SizedEnds(if d == MSSqlServer then "varbinary" else " blob", n);
      } else {
        SizedEnds(if d == MSSqlServer then "nvarchar" else "varchar", n);
      }
    } else {
      UnsizedNoDigit(t, d, n);
    }
  }

  lemma UnsizedNoDigit(t: FieldType, d: Dialect, n: int)
    requires ColumnType(t, d, n).Some? && !(Sizable(t, d) && n > 0)
    ensures !HasDigit(ColumnType(t, d, n).value)
  {
    match t
    case BoolType => BoolNamesDigitless();
    case ByteArrayType => BytesNamesDigitless();
    case DateType => DateNamesDigitless();
    case DateTimeType => DateNamesDigitless();
    case DoubleType => NumberNamesDigitless();
    case IntType => NumberNamesDigitless();
    case LongLongType => NumberNamesDigitless();
    case StringType => TextNamesDigitless();
    case TimeType => DateNamesDigitless();
    case StringListType => TextNamesDigitless();
  }

  lemma BoolNamesDigitless()
    ensures !HasDigit("boolean") && !HasDigit("bit") && !HasDigit("bool")
  {
  }

  lemma BytesNamesDigitless()
    ensures !HasDigit("bytea") && !HasDigit("varbinary(max)") && !HasDigit(" blob")
  {
  }

  lemma DateNamesDigitless()
    ensures !HasDigit("date") && !HasDigit("time") && !HasDigit("timestamp") && !HasDigit("datetime")
  {
  }

  lemma NumberNamesDigitless()
    ensures !HasDigit("real") && !HasDigit("int") && !HasDigit("integer") && !HasDigit("bigint")
  {
  }

  lemma TextNamesDigitless()
    ensures !HasDigit("nvarchar(max)") && !HasDigit("text")
  {
  }

  /** Dates, times, doubles and 64-bit integers map to the same column type
      on every back end, and string lists are stored like strings. */
  lemma PortableTypes(t: FieldType, d1: Dialect, d2: Dialect, n: int)
    ensures t in {DateType, TimeType, DoubleType, LongLongType} ==> ColumnType(t, d1, n) == ColumnType(t, d2, n)
    ensures ColumnType(StringListType, d1, n) == ColumnType(StringType, d1, n)
  {
  }

  // Column attributes.

  /** One attribute appended to a column clause, each after a space. */
  datatype Attr =
    | NotNullAttr
    | UniqueAttr
    | PrimaryKeyAttr
    | AutoIncrementAttr
    | ReferencesAttr(table: string, column: string)
    | OnDeleteAttr(action: OnDelete)
    | DeferrableAttr

  function ActionText(a: OnDelete): string
  {
    match a
    case NoAction => ""
    case Restrict => " RESTRICT"
    case Cascade => " CASCADE"
    case SetNull => " SET NULL"
  }

  /** attributeAutoIncrement: nothing on the back ends without the feature. */
  function AutoIncrementText(b: Backend, f: Field): string
  {
    match b.dialect
    case MSSqlServer => "IDENTITY(1,1)"
    case DaMeng => "IDENTITY(1,1)"
    case MySqlServer => "AUTO_INCREMENT"
    case PostgreSQL => b.Column(f.column) + " serial PRIMARY KEY"
    case SQLite => "AUTOINCREMENT"
    case _ => ""
  }

  function AttrText(b: Backend, f: Field, a: Attr): string
  {
    match a
    case NotNullAttr => "NOT NULL"
    case UniqueAttr => "UNIQUE"
    case PrimaryKeyAttr => "PRIMARY KEY"
    case AutoIncrementAttr => AutoIncrementText(b, f)
    case ReferencesAttr(t, c) => "REFERENCES " + b.Table(t) + " (" + b.Column(c) + ")"
    case OnDeleteAttr(x) => "ON DELETE" + ActionText(x)
    case DeferrableAttr => "DEFERRABLE INITIALLY DEFERRED"
  }

  function AttrsText(b: Backend, f: Field, attrs: seq<Attr>): string
    decreases |attrs|
  {
    if |attrs| == 0 then "" else " " + AttrText(b, f, attrs[0]) + AttrsText(b, f, attrs[1..])
  }

  lemma AttrsTextPair(b: Backend, f: Field, a1: Attr, a2: Attr)
    ensures AttrsText(b, f, [a1, a2]) == " " + AttrText(b, f, a1) + " " + AttrText(b, f, a2)
  {
    var t1, t2 := AttrText(b, f, a1), AttrText(b, f, a2);
    assert [a1, a2][1..] == [a2];
    AttrsTextSingle(b, f, a2);
    assert AttrsText(b, f, [a1, a2]) == " " + t1 + " " + t2 by {
      ConcatAssoc(" " + t1, " ", t2);
    }
  }

  lemma AttrsTextSingle(b: Backend, f: Field, a: Attr)
    ensures AttrsText(b, f, [a]) == " " + AttrText(b, f, a)
  {
    assert [a][1..] == [];
    assert " " + AttrText(b, f, a) + "" == " " + AttrText(b, f, a);
  }

  /** A column clause: quoted column, type, attributes. */
  function Clause(b: Backend, f: Field, ty: string, attrs: seq<Attr>): string
  {
    b.Column(f.column) + " " + ty + AttrsText(b, f, attrs)
  }

  /** For a class name, the table and primary-key column of the descriptor
      the registry returns for it (NOrm::metaModel, then localField("pk")):
      what a foreign key to that class refers to. The generator below takes
      this as a parameter; `TargetsOf` supplies it from a registry. */
  type Targets = string -> (string, string)

  function TargetsOf(reg: Models): Targets
  {
    (name: string) => (Lookup(reg, name).TableName(), LocalField(Lookup(reg, name), "pk").column)
  }

  /** SQL Server has no ON DELETE RESTRICT. */
  predicate RestrictUnsupported(d: Dialect, f: Field)
  {
    d == MSSqlServer && f.onDelete == Restrict
  }

  /** A foreign key declared inside its column clause (every back end but
      MySQL): REFERENCES, the delete action where the back end has it, and
      deferred checking on PostgreSQL. */
  function InlineForeign(d: Dialect, f: Field, target: (string, string)): (r: seq<Attr>)
    ensures f.IsForeignKey() && d != MySqlServer <==> ReferencesAttr(target.0, target.1) in r
    ensures forall a :: OnDeleteAttr(a) in r <==>
      f.IsForeignKey() && d != MySqlServer && a == f.onDelete && a != NoAction && !RestrictUnsupported(d, f)
    ensures DeferrableAttr in r <==> f.IsForeignKey() && d == PostgreSQL
    ensures NotNullAttr !in r && UniqueAttr !in r && PrimaryKeyAttr !in r && AutoIncrementAttr !in r
  {
    if !f.IsForeignKey() || d == MySqlServer then []
    else
      [ReferencesAttr(target.0, target.1)]
      + (if f.onDelete != NoAction && !RestrictUnsupported(d, f) then [OnDeleteAttr(f.onDelete)] else [])
      + (if d == PostgreSQL then [DeferrableAttr] else [])
  }

  /** The attributes the loop appends, as written: NOT NULL on the fields
      that ALLOW null, and the PostgreSQL serial clause appended after the
      PRIMARY KEY already written. */
  function AttrsAsWritten(d: Dialect, refs: Targets, m: Model, f: Field): (r: seq<Attr>)
    ensures NotNullAttr in r <==> f.nullable
    ensures AutoIncrementAttr in r <==> f.autoIncrement
  {
    (if f.nullable then [NotNullAttr] else [])
    + (if f.unique then [UniqueAttr] else [])
    + (if f.name == m.primaryKey then [PrimaryKeyAttr] else [])
    + (if f.autoIncrement then [AutoIncrementAttr] else [])
    + InlineForeign(d, f, refs(f.foreignModel))
  }

  /** PostgreSQL declares an auto-increment column as `serial PRIMARY KEY`
      in place of its type and other attributes. */
  predicate Serial(d: Dialect, f: Field)
  {
    d == PostgreSQL && f.autoIncrement
  }

  /** The corrected attributes: NOT NULL exactly on the fields that do not
      allow null, and a serial column declared once. */
  function Attrs(d: Dialect, refs: Targets, m: Model, f: Field): (r: seq<Attr>)
    ensures NotNullAttr in r <==> !f.nullable && !Serial(d, f)
    ensures UniqueAttr in r <==> f.unique && !Serial(d, f)
    ensures PrimaryKeyAttr in r <==> f.name == m.primaryKey || Serial(d, f)
    ensures AutoIncrementAttr in r <==> f.autoIncrement && d != PostgreSQL
    ensures forall i, j :: 0 <= i < j < |r| && r[i] == PrimaryKeyAttr ==> r[j] != PrimaryKeyAttr
  {
    if Serial(d, f) then [PrimaryKeyAttr] + InlineForeign(d, f, refs(f.foreignModel))
    else
      var lead := (if !f.nullable then [NotNullAttr] else [])
        + (if f.unique then [UniqueAttr] else [])
        + (if f.name == m.primaryKey then [PrimaryKeyAttr] else []);
      var tail := (if f.autoIncrement then [AutoIncrementAttr] else []) + InlineForeign(d, f, refs(f.foreignModel));
      assert PrimaryKeyAttr !in tail;
      lead + tail
  }

  // Column clauses.

  /** The `break` in the loop: on SQL Server a RESTRICT foreign key ends the
      whole loop over the fields. */
  predicate StopsLoop(d: Dialect, f: Field)
  {
    f.IsForeignKey() && d != MySqlServer && RestrictUnsupported(d, f)
  }

  /** The corrected clause of one field; None for a skipped type. */
  function ColumnClause(b: Backend, refs: Targets, m: Model, f: Field): (r: Option<string>)
    ensures r.Some? <==> ColumnType(f.ftype, b.dialect, f.maxLength).Some?
  {
    match ColumnType(f.ftype, b.dialect, f.maxLength)
    case None => None
    case Some(ty) =>
      Some(Clause(b, f, if Serial(b.dialect, f) then "serial" else ty, Attrs(b.dialect, refs, m, f)))
  }

  /** The fields the generator does not skip. */
  function Handled(d: Dialect, fields: seq<Field>): (r: seq<Field>)
    ensures |r| <= |fields|
    ensures forall f :: f in r <==> f in fields && ColumnType(f.ftype, d, f.maxLength).Some?
    decreases |fields|
  {
    if |fields| == 0 then []
    else
      var rest := Handled(d, fields[1..]);
      assert forall f :: f in fields <==> f == fields[0] || f in fields[1..];
      (if ColumnType(fields[0].ftype, d, fields[0].maxLength).Some? then [fields[0]] else []) + rest
  }

  /** The corrected column clauses, in field order. */
  function Columns(b: Backend, refs: Targets, m: Model, fields: seq<Field>): seq<string>
    decreases |fields|
  {
    if |fields| == 0 then []
    else
      (match ColumnClause(b, refs, m, fields[0])
       case None => []
       case Some(c) => [c])
      + Columns(b, refs, m, fields[1..])
  }

  /** Every field that is not skipped gets exactly one clause, in order. */
  lemma {:induction false} ColumnsOnePerField(b: Backend, refs: Targets, m: Model, fields: seq<Field>)
    ensures var h := Handled(b.dialect, fields);
            var cs := Columns(b, refs, m, fields);
            |cs| == |h| && forall i :: 0 <= i < |h| ==> Some(cs[i]) == ColumnClause(b, refs, m, h[i])
    decreases |fields|
  {
    if |fields| > 0 {
      ColumnsOnePerField(b, refs, m, fields[1..]);
    }
  }

  /** The column clauses as the loop produces them: skipped types are
      left out and a field that hits the `break` ends the list. */
  function ColumnsAsWritten(b: Backend, refs: Targets, m: Model, fields: seq<Field>): (r: seq<string>)
    ensures |r| <= |Handled(b.dialect, fields)|
    decreases |fields|
  {
    if |fields| == 0 then []
    else
      match ColumnType(fields[0].ftype, b.dialect, fields[0].maxLength)
      case None => ColumnsAsWritten(b, refs, m, fields[1..])
      case Some(ty) =>
        if StopsLoop(b.dialect, fields[0]) then []
        else [Clause(b, fields[0], ty, AttrsAsWritten(b.dialect, refs, m, fields[0]))]
             + ColumnsAsWritten(b, refs, m, fields[1..])
  }

  /** As written, nothing after a RESTRICT foreign key on SQL Server gets a
      column: the clause list is that of the fields before it. */
  lemma {:induction false} ColumnsAsWrittenTruncate(b: Backend, refs: Targets, m: Model, fields: seq<Field>, i: int)
    requires 0 <= i < |fields|
    requires ColumnType(fields[i].ftype, b.dialect, fields[i].maxLength).Some?
    requires StopsLoop(b.dialect, fields[i])
    ensures ColumnsAsWritten(b, refs, m, fields) == ColumnsAsWritten(b, refs, m, fields[..i])
    decreases i
  {
    var head := fields[..i];
    if i == 0 {
      assert |head| == 0;
    } else {
      var rest := fields[1..];
      assert rest[i - 1] == fields[i];
      ColumnsAsWrittenTruncate(b, refs, m, rest, i - 1);
      PrefixTail(fields, i);
      ColumnsAsWrittenSameHead(b, refs, m, fields, head);
    }
  }

  /** The clause list depends only on the first field and the list for
      the rest. */
  lemma ColumnsAsWrittenSameHead(b: Backend, refs: Targets, m: Model, xs: seq<Field>, ys: seq<Field>)
    requires |xs| > 0 && |ys| > 0 && xs[0] == ys[0]
    requires ColumnsAsWritten(b, refs, m, xs[1..]) == ColumnsAsWritten(b, refs, m, ys[1..])
    ensures ColumnsAsWritten(b, refs, m, xs) == ColumnsAsWritten(b, refs, m, ys)
  {
  }

  // Foreign-key constraints (MySQL).

  /** The table-level constraint MySQL gets for a foreign key. */
  function ConstraintOf(b: Backend, refs: Targets, m: Model, f: Field): (r: Option<string>)
    ensures r.Some? <==> f.IsForeignKey() && b.dialect == MySqlServer &&
                         ColumnType(f.ftype, b.dialect, f.maxLength).Some?
  {
    if f.IsForeignKey() && b.dialect == MySqlServer && ColumnType(f.ftype, b.dialect, f.maxLength).Some? then
      var target := refs(f.foreignModel);
      var name := "FK_" + f.column + "_" + b.digest([f.column, m.TableName()]);
      Some("CONSTRAINT " + b.Column(name) + " FOREIGN KEY (" + b.Column(f.column) + ") REFERENCES "
           + b.Table(target.0) + " (" + b.Column(target.1) + ")"
           + (if f.onDelete != NoAction then " ON DELETE" + ActionText(f.onDelete) else ""))
    else None
  }

  /** A foreign key is declared once: as a MySQL constraint or inside its
      column clause, never both. */
  lemma ForeignKeyDeclaredOnce(b: Backend, refs: Targets, m: Model, f: Field)
    requires f.IsForeignKey() && ColumnType(f.ftype, b.dialect, f.maxLength).Some?
    ensures ConstraintOf(b, refs, m, f).Some? <==> b.dialect == MySqlServer
    ensures var t := refs(f.foreignModel);
            ReferencesAttr(t.0, t.1) in Attrs(b.dialect, refs, m, f) <==> b.dialect != MySqlServer
  {
  }

  function Constraints(b: Backend, refs: Targets, m: Model, fields: seq<Field>): (r: seq<string>)
    ensures b.dialect != MySqlServer ==> r == []
    decreases |fields|
  {
    if |fields| == 0 then []
    else
      (match ConstraintOf(b, refs, m, fields[0])
       case None => []
       case Some(c) => [c])
      + Constraints(b, refs, m, fields[1..])
  }

  // Statements.

  function UniqueColumns(b: Backend, m: Model, names: seq<string>): (r: seq<string>)
    ensures |r| == |names|
    ensures forall i :: 0 <= i < |names| ==> r[i] == b.Column(LocalField(m, names[i]).column)
  {
    seq(|names|, i requires 0 <= i < |names| => b.Column(LocalField(m, names[i]).column))
  }

  /** Everything between the parentheses of CREATE TABLE: the column
      clauses, then the constraints joined into one entry, then the
      unique-together constraint. */
  function TableBody(b: Backend, refs: Targets, m: Model, columns: seq<string>): (r: seq<string>)
    ensures columns <= r
    ensures |r| == |columns| + (if b.dialect == MySqlServer && Constraints(b, refs, m, m.fields) != [] then 1 else 0)
                    + (if m.uniqueTogether != [] then 1 else 0)
  {
    var cons := Constraints(b, refs, m, m.fields);
    columns
    + (if cons != [] then [Join(cons, ", ")] else [])
    + (if m.uniqueTogether != [] then ["UNIQUE (" + Join(UniqueColumns(b, m, m.uniqueTogether), ", ") + ")"] else [])
  }

  function CreateStatement(b: Backend, m: Model, body: seq<string>): (r: string)
    ensures StartsWith(r, "CREATE TABLE ")
  {
    var tail := b.Table(m.TableName()) + " (" + Join(body, ", ") + ")";
    assert "CREATE TABLE " + b.Table(m.TableName()) + " (" + Join(body, ", ") + ")" == "CREATE TABLE " + tail;
    "CREATE TABLE " + tail
  }

  /** The fields that get an index. */
  function Indexed(fields: seq<Field>): (r: seq<Field>)
    ensures |r| <= |fields|
    ensures forall f :: f in r <==> f in fields && f.index
    decreases |fields|
  {
    if |fields| == 0 then []
    else
      assert forall f :: f in fields <==> f == fields[0] || f in fields[1..];
      (if fields[0].index then [fields[0]] else []) + Indexed(fields[1..])
  }

  function IndexStatement(b: Backend, m: Model, f: Field): string
  {
    "CREATE INDEX " + b.Column(m.TableName() + "_" + b.digest([f.column])) + " ON " + b.Table(m.TableName())
    + " (" + b.Column(f.column) + ")"
  }

  function IndexStatements(b: Backend, m: Model): (r: seq<string>)
    ensures |r| == |Indexed(m.fields)|
    ensures forall i :: 0 <= i < |r| ==> r[i] == IndexStatement(b, m, Indexed(m.fields)[i])
  {
    var ix := Indexed(m.fields);
    seq(|ix|, i requires 0 <= i < |ix| => IndexStatement(b, m, ix[i]))
  }

  /** The corrected createTableSql. */
  function CreateTableSql(b: Backend, refs: Targets, m: Model): (r: seq<string>)
    ensures |r| == 1 + |Indexed(m.fields)|
    ensures StartsWith(r[0], "CREATE TABLE ")
    ensures r[1..] == IndexStatements(b, m)
  {
    var head := CreateStatement(b, m, TableBody(b, refs, m, Columns(b, refs, m, m.fields)));
    ConsTail(head, IndexStatements(b, m));
    [head] + IndexStatements(b, m)
  }

  /** createTableSql as written. */
  function CreateTableSqlAsWritten(b: Backend, refs: Targets, m: Model): (r: seq<string>)
    ensures |r| == 1 + |Indexed(m.fields)|
    ensures StartsWith(r[0], "CREATE TABLE ")
    ensures r[1..] == CreateTableSql(b, refs, m)[1..]
  {
    var head := CreateStatement(b, m, TableBody(b, refs, m, ColumnsAsWritten(b, refs, m, m.fields)));
    ConsTail(head, IndexStatements(b, m));
    [head] + IndexStatements(b, m)
  }

  /** The table body lists one clause per field that is not skipped, then
      the constraints. */
  lemma CreateTableColumns(b: Backend, refs: Targets, m: Model)
    ensures var body := TableBody(b, refs, m, Columns(b, refs, m, m.fields));
            var h := Handled(b.dialect, m.fields);
            |body| >= |h| &&
            forall i :: 0 <= i < |h| ==> Some(body[i]) == ColumnClause(b, refs, m, h[i])
  {
    ColumnsOnePerField(b, refs, m, m.fields);
  }

  /** Run statements in order, stopping at the first that fails
      (createTable); `succeeds` is the outcome of executing one statement. */
  datatype Execution = Execution(ok: bool, issued: seq<string>)

  function Execute(stmts: seq<string>, succeeds: string -> bool): (r: Execution)
    ensures r.issued <= stmts
    ensures r.ok <==> forall i :: 0 <= i < |stmts| ==> succeeds(stmts[i])
    ensures r.ok ==> r.issued == stmts
    ensures !r.ok ==> |r.issued| > 0 && !succeeds(r.issued[|r.issued| - 1])
    ensures forall i :: 0 <= i < |r.issued| - 1 ==> succeeds(r.issued[i])
    decreases |stmts|
  {
    if |stmts| == 0 then Execution(true, [])
    else if !succeeds(stmts[0]) then Execution(false, [stmts[0]])
    else
      var rest := Execute(stmts[1..], succeeds);
      assert forall i :: 1 <= i < |stmts| ==> stmts[i] == stmts[1..][i - 1];
      Execution(rest.ok, [stmts[0]] + rest.issued)
  }

  /** createTable as written: the statements of CreateTableSqlAsWritten,
      stopping at the first that fails. The table comes first, and an index
      is attempted only once the table exists. */
  function CreateTable(b: Backend, refs: Targets, m: Model, succeeds: string -> bool): (r: Execution)
    ensures var s := CreateTableSqlAsWritten(b, refs, m);
            r.issued <= s && (r.ok <==> forall i :: 0 <= i < |s| ==> succeeds(s[i]))
    ensures !r.ok ==> |r.issued| > 0 && !succeeds(r.issued[|r.issued| - 1])
    ensures |r.issued| >= 1 && StartsWith(r.issued[0], "CREATE TABLE ")
    ensures |r.issued| > 1 ==> succeeds(r.issued[0])
    ensures r.issued[1..] <= IndexStatements(b, m)
  {
    var s := CreateTableSqlAsWritten(b, refs, m);
    var e := Execute(s, succeeds);
    TailPrefix(e.issued, s);
    e
  }

  /** createTable with the corrected statements. */
  function CreateTableCorrected(b: Backend, refs: Targets, m: Model, succeeds: string -> bool): (r: Execution)
    ensures var s := CreateTableSql(b, refs, m);
            r.issued <= s && (r.ok <==> forall i :: 0 <= i < |s| ==> succeeds(s[i]))
    ensures !r.ok ==> |r.issued| > 0 && !succeeds(r.issued[|r.issued| - 1])
    ensures |r.issued| >= 1 && StartsWith(r.issued[0], "CREATE TABLE ")
    ensures |r.issued| > 1 ==> succeeds(r.issued[0])
    ensures r.issued[1..] <= IndexStatements(b, m)
  {
    var s := CreateTableSql(b, refs, m);
    var e := Execute(s, succeeds);
    TailPrefix(e.issued, s);
    e
  }

  lemma TailPrefix(a: seq<string>, s: seq<string>)
    requires |a| >= 1 && a <= s
    ensures a[1..] <= s[1..]
  {
  }

  /** Once the table statement succeeds, the library and the corrected
      createTable go on to issue the same index statements. */
  lemma CreateTableFirst(b: Backend, refs: Targets, m: Model, succeeds: string -> bool)
    requires succeeds(CreateTableSqlAsWritten(b, refs, m)[0]) && succeeds(CreateTableSql(b, refs, m)[0])
    ensures CreateTable(b, refs, m, succeeds).issued[1..] == CreateTableCorrected(b, refs, m, succeeds).issued[1..]
  {
    var s := CreateTableSqlAsWritten(b, refs, m);
    var t := CreateTableSql(b, refs, m);
    assert s[1..] == t[1..];
    assert Execute(s, succeeds).issued == [s[0]] + Execute(s[1..], succeeds).issued;
    assert Execute(t, succeeds).issued == [t[0]] + Execute(t[1..], succeeds).issued;
  }

  /** dropTable: nothing is issued when the table does not exist, which
      counts as success. */
  function DropTableSql(b: Backend, m: Model, exists_: bool): (r: Option<string>)
    ensures r.None? <==> !exists_
    ensures r.Some? ==> StartsWith(r.value, "DROP TABLE ") && EndsWith(r.value, b.Table(m.TableName()))
  {
    if !exists_ then None else Some("DROP TABLE " + b.Table(m.TableName()))
  }

  // The corrected serial column and the two loop defects.

  /** As written, the implicit id column on PostgreSQL declares its primary
      key twice and repeats its name. */
  lemma SerialAsWrittenRepeats(b: Backend, refs: Targets, m: Model)
    requires b.dialect == PostgreSQL && m.primaryKey == "id"
    ensures ColumnsAsWritten(b, refs, m, [IdField])
            == [b.Column("id") + " integer" + " PRIMARY KEY" + " " + b.Column("id") + " serial PRIMARY KEY"]
  {
    var attrs := AttrsAsWritten(PostgreSQL, refs, m, IdField);
    IdAttrsAsWritten(refs, m);
    AttrsTextPair(b, IdField, PrimaryKeyAttr, AutoIncrementAttr);
    var c := b.Column("id");
    var serial := AttrText(b, IdField, AutoIncrementAttr);
    assert serial == c + " serial PRIMARY KEY";
    SerialClauseText(c, serial);
    IdColumnAsWritten(b, refs, m);
  }

  lemma IdAttrsAsWritten(refs: Targets, m: Model)
    requires m.primaryKey == "id"
    ensures AttrsAsWritten(PostgreSQL, refs, m, IdField) == [PrimaryKeyAttr, AutoIncrementAttr]
  {
    assert InlineForeign(PostgreSQL, IdField, refs(IdField.foreignModel)) == [];
  }

  lemma SerialClauseText(c: string, serial: string)
    requires serial == c + " serial PRIMARY KEY"
    ensures c + " " + "integer" + (" " + "PRIMARY KEY" + " " + serial)
            == c + " integer" + " PRIMARY KEY" + " " + c + " serial PRIMARY KEY"
  {
    assert " " + "PRIMARY KEY" == " PRIMARY KEY";
    assert c + " " + "integer" == c + " integer";
  }

  lemma IdColumnAsWritten(b: Backend, refs: Targets, m: Model)
    requires b.dialect == PostgreSQL
    ensures ColumnsAsWritten(b, refs, m, [IdField])
            == [Clause(b, IdField, "integer", AttrsAsWritten(PostgreSQL, refs, m, IdField))]
  {
    assert ColumnType(IntType, PostgreSQL, 0) == Some("integer");
    assert !StopsLoop(PostgreSQL, IdField);
    assert [IdField][1..] == [];
  }

  /** Corrected, it is the serial column alone. */
  lemma SerialDeclaredOnce(b: Backend, refs: Targets, m: Model)
    requires b.dialect == PostgreSQL && m.primaryKey == "id"
    ensures Columns(b, refs, m, [IdField]) == [b.Column("id") + " serial" + " PRIMARY KEY"]
  {
    var attrs := Attrs(PostgreSQL, refs, m, IdField);
    assert InlineForeign(PostgreSQL, IdField, refs(IdField.foreignModel)) == [];
    assert attrs == [PrimaryKeyAttr];
    assert [PrimaryKeyAttr][1..] == [];
    var c := b.Column("id");
    assert AttrsText(b, IdField, attrs) == " " + "PRIMARY KEY" + "";
    assert " " + "PRIMARY KEY" + "" == " PRIMARY KEY";
    assert Clause(b, IdField, "serial", attrs) == c + " " + "serial" + " PRIMARY KEY";
    assert c + " " + "serial" == c + " serial";
    assert ColumnClause(b, refs, m, IdField) == Some(c + " serial" + " PRIMARY KEY");
    assert [IdField][1..] == [];
  }

  /** A SQL Server model whose first field is a RESTRICT foreign key. */
  const RestrictKey := Field("owner_id", IntType, "owner_id", 0, false, false, false, true, false, "Owner", Restrict)
  const NameField := Field("name", StringType, "name", 0, false, false, false, false, false, "", NoAction)
  const Server := Backend(MSSqlServer, (s: string, k: IdentifierKind) => s, (l: seq<string>) => "0")

  /** As written the loop stops at the RESTRICT key: neither it nor the
      field after it gets a column; corrected, both do. */
  lemma RestrictDropsColumns(refs: Targets, m: Model)
    ensures ColumnsAsWritten(Server, refs, m, [RestrictKey, NameField]) == []
    ensures |Columns(Server, refs, m, [RestrictKey, NameField])| == 2
  {
    assert ColumnType(IntType, MSSqlServer, 0).Some? && StopsLoop(MSSqlServer, RestrictKey);
    ColumnsOnePerField(Server, refs, m, [RestrictKey, NameField]);
    var fs := [RestrictKey, NameField];
    assert fs[1..] == [NameField];
    assert Handled(MSSqlServer, [NameField]) == [NameField];
    assert Handled(MSSqlServer, fs) == fs;
  }
}

=== FILE: statements.dfy ===
/** The statements a query set runs (NOrmQuerySetPrivate::selectQuery,
    deleteQuery, updateQuery, insertQuery and aggregateQuery): their SQL
    text and the values bound to its `?` placeholders, in order. Each
    statement compiles the set's condition with a fresh compiler for the
    set's model. */
module Statements {
  import opened Options
  import opened Strings
  import opened Values
  import opened Dialects
  import opened OrderedMaps
  import opened MetaModel
  import opened Registry
  import opened Where
  import opened WhereSql
  import opened Compiler
  import opened QuerySets

  /** A prepared statement: its text and its bound values, in order. */
  datatype Statement = Statement(sql: string, binds: seq<Value>)

  /** The condition clause, left out for an empty condition. */
  function WhereClause(cond: string): string
  {
    if cond == "" then "" else " WHERE " + cond
  }

  /** A fresh compiler starts clean when the driver's quoting adds no `?`. */
  lemma NewCompilerClean(b: Backend, reg: Models, name: string)
    ensures EscapeClean(b) ==> Clean(NewCompiler(b, reg, name))
  {
  }

  /** where(): the set's condition with every key resolved to its column.
      Only the keys change. */
  function ResolvedWhere(b: Backend, reg: Models, qs: QuerySet): (r: Where)
    ensures Erase(r) == Erase(qs.where)
    ensures EscapeClean(b) ==> KeysFree(r)
  {
    NewCompilerClean(b, reg, qs.model);
    Resolve(NewCompiler(b, reg, qs.model), qs.where).0
  }

  /** selectQuery: the selected columns, the FROM clause with the joins
      every path needed, the condition, then ordering and paging. */
  function SelectQuery(b: Backend, reg: Models, qs: QuerySet): (r: Statement)
    ensures r.binds == Bind(ResolvedWhere(b, reg, qs))
  {
    SelectWith(b, NewCompiler(b, reg, qs.model), qs)
  }

  /** The select statement built with compiler `c`. */
  function SelectWith(b: Backend, c: Compiler, qs: QuerySet): Statement
  {
    var w := Resolve(c, qs.where);
    var cols := FieldNames(w.1, qs.selectRelated, Some(qs.relatedFields), w.1.base, "", false, 0);
    var cond := Sql(w.0, b.dialect);
    var ol := OrderLimitSql(cols.1, qs.orderBy, qs.lowMark, qs.highMark);
    var from := FromSql(ol.1);
    Statement("SELECT " + Join(cols.0, ", ") + " FROM " + FromText(from.0) + WhereClause(cond) +
              OrderLimitText(b.dialect, ol.0), Bind(w.0))
  }

  /** deleteQuery: the FROM clause, the condition, ordering and paging. */
  function DeleteQuery(b: Backend, reg: Models, qs: QuerySet): (r: Statement)
    ensures r.binds == Bind(ResolvedWhere(b, reg, qs))
  {
    var c := NewCompiler(b, reg, qs.model);
    var w := Resolve(c, qs.where);
    var cond := Sql(w.0, b.dialect);
    var ol := OrderLimitSql(w.1, qs.orderBy, qs.lowMark, qs.highMark);
    var from := FromSql(ol.1);
    Statement("DELETE FROM " + FromText(from.0) + WhereClause(cond) + OrderLimitText(b.dialect, ol.0), Bind(w.0))
  }

  datatype Aggregate = AVG | COUNT | SUM | MIN | MAX

  function AggregateName(f: Aggregate): string
  {
    match f
    case AVG => "AVG"
    case COUNT => "COUNT"
    case SUM => "SUM"
    case MIN => "MIN"
    case MAX => "MAX"
  }

  /** aggregateQuery: the function over `field` (a column or an
      expression, used as given) on the set's rows, with the set's
      paging but no ordering keys. */
  function AggregateQuery(b: Backend, reg: Models, qs: QuerySet, func: Aggregate, field: string): (r: Statement)
    ensures r.binds == Bind(ResolvedWhere(b, reg, qs))
  {
    var c := NewCompiler(b, reg, qs.model);
    var w := Resolve(c, qs.where);
    var cond := Sql(w.0, b.dialect);
    var ol := OrderLimitSql(w.1, [], qs.lowMark, qs.highMark);
    var from := FromSql(ol.1);
    Statement("SELECT " + AggregateName(func) + "(" + field + ") " + "FROM " + FromText(from.0) +
              WhereClause(cond) + OrderLimitText(b.dialect, ol.0), Bind(w.0))
  }

  /** The statement count() runs, as the library writes it: COUNT(*) over
      the set's rows, carrying the set's paging clauses, which then page
      the single row the aggregate returns. */
  function CountQuery(b: Backend, reg: Models, qs: QuerySet): (r: Statement)
    ensures r.binds == Bind(ResolvedWhere(b, reg, qs))
    ensures Strings.StartsWith(r.sql, "SELECT COUNT(*) FROM ")
    ensures Strings.EndsWith(r.sql, PagingsText(b.dialect, PagingFor(b.dialect, qs.lowMark, qs.highMark)))
  {
    CountQueryText(b, reg, qs);
    AggregateQuery(b, reg, qs, COUNT, "*")
  }

  lemma CountQueryText(b: Backend, reg: Models, qs: QuerySet)
    ensures Strings.StartsWith(AggregateQuery(b, reg, qs, COUNT, "*").sql, "SELECT COUNT(*) FROM ")
    ensures Strings.EndsWith(AggregateQuery(b, reg, qs, COUNT, "*").sql,
                             PagingsText(b.dialect, PagingFor(b.dialect, qs.lowMark, qs.highMark)))
  {
    var c := NewCompiler(b, reg, qs.model);
    var w := Resolve(c, qs.where);
    var ol := OrderLimitSql(w.1, [], qs.lowMark, qs.highMark);
    var from := FromSql(ol.1);
    var cond := WhereClause(Sql(w.0, b.dialect));
    assert AggregateQuery(b, reg, qs, COUNT, "*") ==
           Statement("SELECT " + AggregateName(COUNT) + "(" + "*" + ") " + "FROM " + FromText(from.0) +
                     cond + OrderLimitText(b.dialect, ol.0), Bind(w.0));
    CountTextShape(b.dialect, ol.0, FromText(from.0), cond);
  }

  lemma CountTextShape(d: Dialect, o: OrderLimit, from: string, cond: string)
    requires |o.terms| == 0
    ensures var sql := "SELECT " + AggregateName(COUNT) + "(" + "*" + ") " + "FROM " + from + cond + OrderLimitText(d, o);
            Strings.StartsWith(sql, "SELECT COUNT(*) FROM ") && Strings.EndsWith(sql, PagingsText(d, o.paging))
  {
    var head := "SELECT " + AggregateName(COUNT) + "(" + "*" + ") " + "FROM ";
    var order := if o.byKey.Some? then " ORDER BY " + o.byKey.value else "";
    var paging := PagingsText(d, o.paging);
    assert OrderLimitText(d, o) == order + paging;
    assert head + from + cond + (order + paging) == head + (from + cond + order) + paging;
    CountHead();
    FramedText(head, from + cond + order, paging);
  }

  lemma CountHead()
    ensures "SELECT " + AggregateName(COUNT) + "(" + "*" + ") " + "FROM " == "SELECT COUNT(*) FROM "
  {
  }

  lemma FramedText(head: string, mid: string, tail: string)
    ensures Strings.StartsWith(head + mid + tail, head)
    ensures Strings.EndsWith(head + mid + tail, tail)
  {
    assert (head + mid + tail)[..|head|] == head;
    assert (head + mid + tail)[|head + mid|..] == tail;
  }

  /** The statement the corrected count() runs: the same COUNT(*) with no
      paging clauses, so that it counts every row the condition meets;
      the set's window is applied to the number it returns. */
  function CountQueryUnpaged(b: Backend, reg: Models, qs: QuerySet): (r: Statement)
    ensures r.binds == Bind(ResolvedWhere(b, reg, qs))
    ensures Strings.StartsWith(r.sql, "SELECT COUNT(*) FROM ")
    ensures NoLimit(qs) ==> r == CountQuery(b, reg, qs)
  {
    CountQuery(b, reg, qs.(lowMark := 0, highMark := 0))
  }

  /** The unpaged count does not depend on the marks. */
  lemma CountQueryUnpagedIgnoresMarks(b: Backend, reg: Models, qs: QuerySet, low: int, high: int)
    ensures CountQueryUnpaged(b, reg, qs.(lowMark := low, highMark := high)) == CountQueryUnpaged(b, reg, qs)
  {
    assert qs.(lowMark := low, highMark := high).(lowMark := 0, highMark := 0) == qs.(lowMark := 0, highMark := 0);
  }

  /** The quoted column of each named field of `m`. */
  function FieldColumns(b: Backend, m: Model, names: seq<string>): (r: seq<string>)
    ensures |r| == |names|
    ensures EscapeClean(b) ==> forall i :: 0 <= i < |r| ==> '?' !in r[i]
  {
    seq(|names|, i requires 0 <= i < |names| => b.Column(LocalField(m, names[i]).column))
  }

  /** updateQuery: `col = ?` for each field in key order, then the
      condition; the field values are bound before the condition's. */
  function UpdateQuery(b: Backend, reg: Models, qs: QuerySet, fields: OMap<Value>): (r: Statement)
    ensures r.binds == OrderedMaps.Values(fields) + Bind(ResolvedWhere(b, reg, qs))
  {
    var m := Lookup(reg, qs.model);
    var c := NewCompiler(b, reg, qs.model);
    var w := Resolve(c, qs.where);
    var from := FromSql(w.1);
    var cols := FieldColumns(b, m, Keys(fields));
    Statement(UpdateText(FromText(from.0), cols, Sql(w.0, b.dialect)), OrderedMaps.Values(fields) + Bind(w.0))
  }

  function Assignments(cols: seq<string>): (r: seq<string>)
    ensures |r| == |cols|
    ensures forall i :: 0 <= i < |r| ==> r[i] == cols[i] + " = ?"
  {
    seq(|cols|, i requires 0 <= i < |cols| => cols[i] + " = ?")
  }

  function UpdateText(from: string, cols: seq<string>, cond: string): string
  {
    "UPDATE " + from + " SET " + Join(Assignments(cols), ", ") + WhereClause(cond)
  }

  /** insertQuery: one column and one placeholder per field, in key
      order, bound to the field values in the same order. */
  function InsertQuery(b: Backend, reg: Models, model: string, fields: OMap<Value>): (r: Statement)
    ensures r.binds == OrderedMaps.Values(fields)
  {
    var m := Lookup(reg, model);
    var cols := FieldColumns(b, m, Keys(fields));
    var holders := seq(|fields|, i => "?");
    Statement("INSERT INTO " + b.Table(m.TableName()) + " (" + Join(cols, ", ") + ") VALUES(" +
              Join(holders, ", ") + ")", OrderedMaps.Values(fields))
  }

  // Placeholders and bound values.

  /** A statement is well formed when it has exactly one placeholder per
      bound value. */
  predicate Balanced(s: Statement)
  {
    CountChar(s.sql, '?') == |s.binds|
  }

  /** Text around the condition clause adds no placeholders. */
  lemma Framed(pre: string, cond: string, post: string)
    requires '?' !in pre && '?' !in post
    ensures CountChar(pre + WhereClause(cond) + post, '?') == CountChar(cond, '?')
  {
    CountCharAppend(pre, WhereClause(cond), '?');
    CountCharAppend(pre + WhereClause(cond), post, '?');
    if cond != "" {
      CountCharAppend(" WHERE ", cond, '?');
    }
  }

  lemma PagingClean(d: Dialect, p: Paging)
    ensures '?' !in PagingText(d, p)
  {
    match p
    case Limit(n) =>
      IntStrChars(n, '?');
      assert '?' !in " LIMIT ";
    case Unlimited =>
      assert '?' !in " LIMIT -1";
      assert '?' !in " LIMIT 18446744073709551615";
    case Offset(n) =>
      IntStrChars(n, '?');
      assert '?' !in " OFFSET ";
    case OffsetRows(n) =>
      IntStrChars(n, '?');
      assert '?' !in " OFFSET " && '?' !in " ROWS";
    case FetchNext(n) =>
      IntStrChars(n, '?');
      assert '?' !in " FETCH NEXT " && '?' !in " ROWS ONLY";
  }

  lemma {:induction false} PagingsClean(d: Dialect, ps: seq<Paging>)
    ensures '?' !in PagingsText(d, ps)
    decreases |ps|
  {
    if |ps| > 0 {
      PagingsClean(d, ps[1..]);
      PagingClean(d, ps[0]);
    }
  }

  /** Ordering and paging text holds no placeholder when its columns hold
      none. */
  lemma OrderLimitClean(d: Dialect, o: OrderLimit)
    requires forall i :: 0 <= i < |o.terms| ==> '?' !in o.terms[i].column
    requires o.byKey.Some? ==> '?' !in o.byKey.value
    ensures '?' !in OrderLimitText(d, o)
  {
    var texts := OrderTermsText(o.terms);
    assert forall i :: 0 <= i < |texts| ==> '?' !in texts[i];
    NotInJoin(texts, ", ", '?');
    PagingsClean(d, o.paging);
  }

  /** The fixed words of the statements hold no placeholder. */
  lemma LiteralsClean()
    ensures '?' !in "SELECT " && '?' !in " FROM " && '?' !in "DELETE FROM " && '?' !in "FROM "
    ensures '?' !in "(" && '?' !in ") " && '?' !in ")" && '?' !in ", " && '?' !in "UPDATE " && '?' !in " SET "
    ensures '?' !in "INSERT INTO " && '?' !in " (" && '?' !in ") VALUES("
  {
  }

  lemma NotInConcat4(a: string, b: string, c: string, d: string)
    requires '?' !in a && '?' !in b && '?' !in c && '?' !in d
    ensures '?' !in a + b + c + d
  {
  }

  /** The SELECT has one placeholder per bound value, for every condition,
      as long as the driver's quoting adds no `?`. */
  lemma SelectBalanced(b: Backend, reg: Models, qs: QuerySet)
    requires EscapeClean(b)
    ensures Balanced(SelectQuery(b, reg, qs))
  {
    var c := NewCompiler(b, reg, qs.model);
    NewCompilerClean(b, reg, qs.model);
    var w := Resolve(c, qs.where);
    assert Clean(w.1);
    var cols := FieldNames(w.1, qs.selectRelated, Some(qs.relatedFields), w.1.base, "", false, 0);
    assert Clean(cols.1);
    assert forall i :: 0 <= i < |cols.0| ==> '?' !in cols.0[i];
    var ol := OrderLimitSql(cols.1, qs.orderBy, qs.lowMark, qs.highMark);
    assert Clean(ol.1);
    var from := FromSql(ol.1);
    var pre := "SELECT " + Join(cols.0, ", ") + " FROM " + FromText(from.0);
    var post := OrderLimitText(b.dialect, ol.0);
    assert SelectQuery(b, reg, qs) == Statement(pre + WhereClause(Sql(w.0, b.dialect)) + post, Bind(w.0));
    NotInJoin(cols.0, ", ", '?');
    LiteralsClean();
    NotInConcat4("SELECT ", Join(cols.0, ", "), " FROM ", FromText(from.0));
    OrderLimitClean(b.dialect, ol.0);
    LockStep(w.0, b.dialect, Placeholder);
    Framed(pre, Sql(w.0, b.dialect), post);
  }

  lemma DeleteBalanced(b: Backend, reg: Models, qs: QuerySet)
    requires EscapeClean(b)
    ensures Balanced(DeleteQuery(b, reg, qs))
  {
    var c := NewCompiler(b, reg, qs.model);
    NewCompilerClean(b, reg, qs.model);
    var w := Resolve(c, qs.where);
    var ol := OrderLimitSql(w.1, qs.orderBy, qs.lowMark, qs.highMark);
    var from := FromSql(ol.1);
    var pre := "DELETE FROM " + FromText(from.0);
    var post := OrderLimitText(b.dialect, ol.0);
    assert DeleteQuery(b, reg, qs) == Statement(pre + WhereClause(Sql(w.0, b.dialect)) + post, Bind(w.0));
    LiteralsClean();
    OrderLimitClean(b.dialect, ol.0);
    LockStep(w.0, b.dialect, Placeholder);
    Framed(pre, Sql(w.0, b.dialect), post);
  }

  /** The aggregate statement is balanced when the aggregated expression
      holds no `?` of its own. */
  lemma AggregateBalanced(b: Backend, reg: Models, qs: QuerySet, func: Aggregate, field: string)
    requires EscapeClean(b) && '?' !in field
    ensures Balanced(AggregateQuery(b, reg, qs, func, field))
  {
    var c := NewCompiler(b, reg, qs.model);
    NewCompilerClean(b, reg, qs.model);
    var w := Resolve(c, qs.where);
    var ol := OrderLimitSql(w.1, [], qs.lowMark, qs.highMark);
    var from := FromSql(ol.1);
    var pre := "SELECT " + AggregateName(func) + "(" + field + ") " + "FROM " + FromText(from.0);
    var post := OrderLimitText(b.dialect, ol.0);
    assert AggregateQuery(b, reg, qs, func, field) ==
           Statement(pre + WhereClause(Sql(w.0, b.dialect)) + post, Bind(w.0));
    AggregateHeadClean(func, field, FromText(from.0));
    OrderLimitClean(b.dialect, ol.0);
    LockStep(w.0, b.dialect, Placeholder);
    Framed(pre, Sql(w.0, b.dialect), post);
  }

  lemma AggregateHeadClean(func: Aggregate, field: string, from: string)
    requires '?' !in field && '?' !in from
    ensures '?' !in "SELECT " + AggregateName(func) + "(" + field + ") " + "FROM " + from
  {
    LiteralsClean();
    assert '?' !in AggregateName(func);
    NotInConcat4("SELECT ", AggregateName(func), "(", field);
    NotInConcat4("SELECT " + AggregateName(func) + "(" + field, ") ", "FROM ", from);
  }

  lemma AssignmentsCount(cols: seq<string>)
    requires forall i :: 0 <= i < |cols| ==> '?' !in cols[i]
    ensures CountChar(Join(Assignments(cols), ", "), '?') == |cols|
  {
    var assigns := Assignments(cols);
    assert CountChar(" = ?", '?') == 1;
    assert '?' !in ", ";
    forall i | 0 <= i < |cols|
      ensures CountChar(assigns[i], '?') == 1
    {
      CountCharAppend(cols[i], " = ?", '?');
    }
    JoinCountOne(assigns, ", ", '?');
  }

  /** The UPDATE binds one value per field and then the condition's, one
      per placeholder. */
  lemma UpdateBalanced(b: Backend, reg: Models, qs: QuerySet, fields: OMap<Value>)
    requires EscapeClean(b)
    ensures Balanced(UpdateQuery(b, reg, qs, fields))
  {
    var m := Lookup(reg, qs.model);
    var c := NewCompiler(b, reg, qs.model);
    NewCompilerClean(b, reg, qs.model);
    var w := Resolve(c, qs.where);
    var from := FromSql(w.1);
    var cols := FieldColumns(b, m, Keys(fields));
    assert UpdateQuery(b, reg, qs, fields) ==
           Statement(UpdateText(FromText(from.0), cols, Sql(w.0, b.dialect)), OrderedMaps.Values(fields) + Bind(w.0));
    LockStep(w.0, b.dialect, Placeholder);
    UpdateTextCount(FromText(from.0), cols, Sql(w.0, b.dialect));
  }

  lemma UpdateTextCount(from: string, cols: seq<string>, cond: string)
    requires '?' !in from
    requires forall i :: 0 <= i < |cols| ==> '?' !in cols[i]
    ensures CountChar(UpdateText(from, cols, cond), '?') == |cols| + CountChar(cond, '?')
  {
    var pre := "UPDATE " + from + " SET ";
    LiteralsClean();
    assert '?' !in pre;
    AssignmentsCount(cols);
    SetThenWhere(pre, Join(Assignments(cols), ", "), cond);
  }

  lemma SetThenWhere(pre: string, assigns: string, cond: string)
    requires '?' !in pre
    ensures CountChar(pre + assigns + WhereClause(cond), '?') == CountChar(assigns, '?') + CountChar(cond, '?')
  {
    CountCharAppend(pre, assigns, '?');
    CountCharAppend(pre + assigns, WhereClause(cond), '?');
    Framed("", cond, "");
    assert "" + WhereClause(cond) + "" == WhereClause(cond);
  }

  /** The INSERT has one placeholder per field. */
  lemma InsertBalanced(b: Backend, reg: Models, model: string, fields: OMap<Value>)
    requires EscapeClean(b)
    ensures Balanced(InsertQuery(b, reg, model, fields))
  {
    var m := Lookup(reg, model);
    var cols := FieldColumns(b, m, Keys(fields));
    var holders: seq<string> := seq(|fields|, i => "?");
    var pre := "INSERT INTO " + b.Table(m.TableName()) + " (" + Join(cols, ", ") + ") VALUES(";
    assert InsertQuery(b, reg, model, fields) ==
           Statement(pre + Join(holders, ", ") + ")", OrderedMaps.Values(fields));
    LiteralsClean();
    assert CountChar("?", '?') == 1;
    assert forall i :: 0 <= i < |holders| ==> CountChar(holders[i], '?') == 1;
    JoinCountOne(holders, ", ", '?');
    NotInJoin(cols, ", ", '?');
    NotInConcat4("INSERT INTO " + b.Table(m.TableName()), " (", Join(cols, ", "), ") VALUES(");
    CountCharAppend(pre, Join(holders, ", "), '?');
    CountCharAppend(pre + Join(holders, ", "), ")", '?');
  }

  /** The SELECT of a set over every row, unordered and unlimited, reads
      the model's own columns from its table alone: no join, no condition,
      no trailing clause. */
  lemma SelectEverything(b: Backend, reg: Models, name: string)
    ensures var m := Lookup(reg, name);
            var table := b.Table(m.TableName());
            SelectQuery(b, reg, Fresh(name)) ==
              Statement("SELECT " + Join(LocalColumns(b, table, m.fields), ", ") + " FROM " + table, [])
  {
    var m := Lookup(reg, name);
    var c := NewCompiler(b, reg, name);
    assert c.b == b && c.base == m && c.refs == [];
    SelectFresh(b, c, Fresh(name), m);
  }

  lemma SelectFresh(b: Backend, c: Compiler, qs: QuerySet, m: Model)
    requires c.b == b && c.base == m && c.refs == []
    requires qs.where == MatchAll && !qs.selectRelated && qs.relatedFields == []
    requires qs.orderBy == [] && qs.lowMark == 0 && qs.highMark == 0
    ensures var table := b.Table(m.TableName());
            SelectWith(b, c, qs) ==
              Statement("SELECT " + Join(LocalColumns(b, table, m.fields), ", ") + " FROM " + table, [])
  {
    var table := b.Table(m.TableName());
    var w := Resolve(c, qs.where);
    assert w == (MatchAll, c);
    assert Sql(MatchAll, b.dialect) == "" && Bind(MatchAll) == [];
    var cols := FieldNames(c, false, Some([]), c.base, "", false, 0);
    assert cols.1 == c;
    assert cols.0 == LocalColumns(b, table, m.fields);
    var ol := OrderLimitSql(c, [], 0, 0);
    assert ol.0 == OrderLimit([], None, []) && ol.1 == c;
    assert OrderLimitText(b.dialect, ol.0) == "";
    var from := FromSql(c).0;
    assert from == From(table, []);
    assert FromText(from) == table;
    var head := "SELECT " + Join(cols.0, ", ") + " FROM " + table;
    assert head + WhereClause("") + "" == head;
    assert SelectWith(b, c, qs) == Statement(head + WhereClause("") + "", []);
  }
}

=== FILE: strings.dfy ===
/** Text helpers with the behaviour of the Qt string operations the library
    relies on: lower-casing, joining, splitting (empty parts kept), decimal
    conversion and the byte-wise ordering of map keys. */
module Strings {

  /** ASCII lower-casing of one character; every other character is kept. */
  function LowerChar(c: char): char
  {
    if 'A' <= c <= 'Z' then (c as int + 32) as char else c
  }

  function Lower(s: string): (r: string)
    ensures |r| == |s|
    ensures forall i :: 0 <= i < |s| ==> r[i] == LowerChar(s[i])
  {
    if |s| == 0 then "" else [LowerChar(s[0])] + Lower(s[1..])
  }

  /** Lower-casing is idempotent, so comparing lower-cased texts is stable. */
  lemma LowerIdempotent(s: string)
    ensures Lower(Lower(s)) == Lower(s)
  {
  }

  /** The only text whose lower-cased form is a given digit-free, letter-free
      text `t` is `t` itself when `t` has no lower-case letters either. */
  lemma LowerFixesNonLetters(s: string, t: string)
    requires forall i :: 0 <= i < |t| ==> !('a' <= t[i] <= 'z') && !('A' <= t[i] <= 'Z')
    ensures Lower(s) == t <==> s == t
  {
    if Lower(s) == t {
      assert forall i :: 0 <= i < |s| ==> s[i] == t[i] by {
        forall i | 0 <= i < |s|
          ensures s[i] == t[i]
        {
          assert LowerChar(s[i]) == t[i];
        }
      }
    }
  }

  predicate StartsWith(s: string, prefix: string)
  {
    prefix <= s
  }

  predicate EndsWith(s: string, suffix: string)
  {
    |suffix| <= |s| && s[|s| - |suffix|..] == suffix
  }

  /** `sub` occurs somewhere in `s` (QString::contains). */
  predicate Contains(s: string, sub: string)
    decreases |s|
  {
    sub <= s || (|s| > 0 && Contains(s[1..], sub))
  }

  /** Number of occurrences of `c` in `s`. */
  function CountChar(s: string, c: char): (n: nat)
    ensures n <= |s|
    ensures n == 0 <==> c !in s
  {
    if |s| == 0 then 0 else (if s[0] == c then 1 else 0) + CountChar(s[1..], c)
  }

  lemma {:induction false} CountCharAppend(a: string, b: string, c: char)
    ensures CountChar(a + b, c) == CountChar(a, c) + CountChar(b, c)
    decreases |a|
  {
    if |a| > 0 {
      assert (a + b)[1..] == a[1..] + b;
      CountCharAppend(a[1..], b, c);
    } else {
      assert a + b == b;
    }
  }

  /** QStringList::join: the parts with `sep` between neighbours. */
  function Join(parts: seq<string>, sep: string): string
    decreases |parts|
  {
    if |parts| == 0 then ""
    else if |parts| == 1 then parts[0]
    else parts[0] + sep + Join(parts[1..], sep)
  }

  /** A character in neither the parts nor the separator is not in the
      joined text. */
  lemma {:induction false} NotInJoin(parts: seq<string>, sep: string, c: char)
    requires c !in sep && forall i :: 0 <= i < |parts| ==> c !in parts[i]
    ensures c !in Join(parts, sep)
    decreases |parts|
  {
    if |parts| > 1 {
      NotInJoin(parts[1..], sep, c);
    }
  }

  /** Joining parts with one `c` each, with a separator free of `c`, gives
      one `c` per part. */
  lemma {:induction false} JoinCountOne(parts: seq<string>, sep: string, c: char)
    requires c !in sep && forall i :: 0 <= i < |parts| ==> CountChar(parts[i], c) == 1
    ensures CountChar(Join(parts, sep), c) == |parts|
    decreases |parts|
  {
    if |parts| > 1 {
      JoinCountOne(parts[1..], sep, c);
      CountCharAppend(parts[0], sep, c);
      CountCharAppend(parts[0] + sep, Join(parts[1..], sep), c);
    }
  }

  /** QString::split with a non-empty separator, empty parts kept: the
      separator is matched left to right without overlap. */
  function Split(s: string, sep: string): (r: seq<string>)
    requires |sep| > 0
    ensures |r| >= 1
    decreases |s|
  {
    if |s| == 0 then [""]
    else if sep <= s then [""] + Split(s[|sep|..], sep)
    else
      var rest := Split(s[1..], sep);
      [[s[0]] + rest[0]] + rest[1..]
  }

  /** Text without the separator's first character is not split. */
  lemma {:induction false} SplitWithoutSeparator(s: string, sep: string)
    requires |sep| > 0 && sep[0] !in s
    ensures Split(s, sep) == [s]
    decreases |s|
  {
    if |s| > 0 {
      assert !(sep <= s) by { assert s[0] != sep[0]; }
      SplitWithoutSeparator(s[1..], sep);
      assert [s[0]] + s[1..] == s;
    }
  }

  /** Splitting `a + sep + b` cuts at the separator right after `a` when `a`
      cannot start a separator match. */
  lemma {:induction false} SplitAfterPart(a: string, sep: string, b: string)
    requires |sep| > 0 && sep[0] !in a
    ensures Split(a + sep + b, sep) == [a] + Split(b, sep)
    decreases |a|
  {
    var s := a + sep + b;
    if |a| == 0 {
      assert s == sep + b;
      assert sep <= s;
      assert s[|sep|..] == b;
    } else {
      assert s[0] == a[0] && a[0] != sep[0];
      assert !(sep <= s);
      assert s[1..] == a[1..] + sep + b;
      SplitAfterPart(a[1..], sep, b);
      assert [a[0]] + a[1..] == a;
    }
  }

  /** Text in which the separator does not occur is not split. */
  lemma {:induction false} SplitAbsent(s: string, sep: string)
    requires |sep| > 0 && !Contains(s, sep)
    ensures Split(s, sep) == [s]
    decreases |s|
  {
    if |s| > 0 {
      SplitAbsent(s[1..], sep);
      assert [s[0]] + s[1..] == s;
    }
  }

  /** Splitting `a + sep + b` cuts right after `a` when no separator match
      starts inside `a`, that is, when `a` followed by all but the last
      separator character contains no separator. */
  lemma {:induction false} SplitAt(a: string, sep: string, b: string)
    requires |sep| > 0 && !Contains(a + sep[..|sep| - 1], sep)
    ensures Split(a + sep + b, sep) == [a] + Split(b, sep)
    decreases |a|
  {
    var s := a + sep + b;
    if |a| == 0 {
      assert s == sep + b;
      assert sep <= s;
      assert s[|sep|..] == b;
    } else {
      var a' := a + sep[..|sep| - 1];
      assert !(sep <= a');
      assert s[..|sep|] == a'[..|sep|];
      assert !(sep <= s);
      assert a'[1..] == a[1..] + sep[..|sep| - 1];
      assert s[1..] == a[1..] + sep + b;
      SplitAt(a[1..], sep, b);
      assert [a[0]] + a[1..] == a;
    }
  }

  /** Splitting on one character undoes joining with it, provided no part
      contains that character. */
  lemma {:induction false} SplitJoin(parts: seq<string>, c: char)
    requires |parts| >= 1
    requires forall i :: 0 <= i < |parts| ==> c !in parts[i]
    ensures Split(Join(parts, [c]), [c]) == parts
    decreases |parts|
  {
    if |parts| == 1 {
      SplitWithoutSeparator(parts[0], [c]);
    } else {
      SplitAfterPart(parts[0], [c], Join(parts[1..], [c]));
      SplitJoin(parts[1..], c);
      assert [parts[0]] + parts[1..] == parts;
    }
  }

  /** Joining the parts of a split with the same character gives the text back. */
  lemma {:induction false} JoinSplit(s: string, c: char)
    ensures Join(Split(s, [c]), [c]) == s
    decreases |s|
  {
    if |s| > 0 {
      var rest := Split(s[1..], [c]);
      JoinSplit(s[1..], c);
      HeadTail(s);
      if [c] <= s {
        assert s[0] == c && Split(s, [c]) == [""] + rest;
        JoinEmptyFirst(rest, [c]);
      } else {
        assert Split(s, [c]) == [[s[0]] + rest[0]] + rest[1..];
        JoinLongerFirst(s[0], rest, [c]);
      }
    }
  }

  /** An empty first part contributes only its separator. */
  lemma JoinEmptyFirst(rest: seq<string>, sep: string)
    requires |rest| >= 1
    ensures Join([""] + rest, sep) == sep + Join(rest, sep)
  {
    var parts := [""] + rest;
    assert parts[0] == "" && parts[1..] == rest;
    EmptyConcat("", sep);
  }

  /** A character put in front of the first part is put in front of the
      joined text. */
  lemma JoinLongerFirst(x: char, rest: seq<string>, sep: string)
    requires |rest| >= 1
    ensures Join([[x] + rest[0]] + rest[1..], sep) == [x] + Join(rest, sep)
  {
    var parts := [[x] + rest[0]] + rest[1..];
    assert parts[0] == [x] + rest[0] && parts[1..] == rest[1..];
    if |rest| > 1 {
      ConcatAssoc([x] + rest[0], sep, Join(rest[1..], sep));
      ConcatAssoc([x], rest[0], sep + Join(rest[1..], sep));
      ConcatAssoc(rest[0], sep, Join(rest[1..], sep));
    }
  }

  /** The non-empty parts of a split (QString::SkipEmptyParts). */
  function SplitSkipEmpty(s: string, sep: string): (r: seq<string>)
    requires |sep| > 0
    ensures forall i :: 0 <= i < |r| ==> |r[i]| > 0
  {
    NonEmpty(Split(s, sep))
  }

  function NonEmpty(parts: seq<string>): (r: seq<string>)
    ensures forall i :: 0 <= i < |r| ==> |r[i]| > 0
    ensures forall x :: x in r <==> x in parts && |x| > 0
    decreases |parts|
  {
    if |parts| == 0 then []
    else if |parts[0]| == 0 then NonEmpty(parts[1..])
    else [parts[0]] + NonEmpty(parts[1..])
  }

  /** Every occurrence of the character `c` replaced by `with`. */
  function Replace(s: string, c: char, with: string): (r: string)
    ensures c !in s ==> r == s
  {
    if |s| == 0 then ""
    else (if s[0] == c then with else [s[0]]) + Replace(s[1..], c, with)
  }

  lemma {:induction false} ReplaceAppend(a: string, b: string, c: char, with: string)
    ensures Replace(a + b, c, with) == Replace(a, c, with) + Replace(b, c, with)
    decreases |a|
  {
    if |a| == 0 {
      assert a + b == b;
    } else {
      assert (a + b)[1..] == a[1..] + b;
      ReplaceAppend(a[1..], b, c, with);
    }
  }

  // Decimal text, as QString::number and QString::toInt.

  function Digit(d: nat): (c: char)
    requires d < 10
    ensures '0' <= c <= '9'
  {
    ('0' as int + d) as char
  }

  function DigitValue(c: char): nat
  {
    if '0' <= c <= '9' then c as int - '0' as int else 0
  }

  function NatStr(n: nat): (r: string)
    ensures |r| >= 1
    ensures forall i :: 0 <= i < |r| ==> '0' <= r[i] <= '9'
    decreases n
  {
    if n < 10 then [Digit(n)] else NatStr(n / 10) + [Digit(n % 10)]
  }

  function IntStr(i: int): (r: string)
    ensures |r| >= 1
  {
    if i < 0 then "-" + NatStr(-i) else NatStr(i)
  }

  /** Decimal text holds only digits and a leading minus sign. */
  lemma IntStrChars(i: int, c: char)
    requires c != '-' && !('0' <= c <= '9')
    ensures c !in IntStr(i)
  {
    var s := IntStr(i);
    if i < 0 {
      forall k | 0 <= k < |s|
        ensures s[k] != c
      {
        if k > 0 {
          assert s[k] == NatStr(-i)[k - 1];
        }
      }
    }
  }

  predicate AllDigits(s: string)
  {
    forall i :: 0 <= i < |s| ==> '0' <= s[i] <= '9'
  }

  function ParseNat(s: string): nat
    decreases |s|
  {
    if |s| == 0 then 0 else 10 * ParseNat(s[..|s| - 1]) + DigitValue(s[|s| - 1])
  }

  /** Decimal text reads back as the number it was written from. */
  lemma {:induction false} ParseNatStr(n: nat)
    ensures ParseNat(NatStr(n)) == n
    decreases n
  {
    if n >= 10 {
      var s := NatStr(n);
      assert s[..|s| - 1] == NatStr(n / 10);
      ParseNatStr(n / 10);
    }
  }

  lemma NatStrInjective(a: nat, b: nat)
    ensures NatStr(a) == NatStr(b) ==> a == b
  {
    ParseNatStr(a);
    ParseNatStr(b);
  }

  const Int32Min: int := -0x8000_0000
  const Int32Max: int := 0x7FFF_FFFF

  /** QString::toInt: an optionally signed run of decimal digits that fits in
      32 bits; anything else converts to 0. Surrounding white space is not
      accepted here. */
  function ParseInt(s: string): (r: int)
    ensures Int32Min <= r <= Int32Max
    ensures r != 0 ==> |s| > 0 && forall i :: 1 <= i < |s| ==> '0' <= s[i] <= '9'
    ensures r < 0 ==> s[0] == '-'
  {
    var negative := |s| > 0 && s[0] == '-';
    var digits := if |s| > 0 && (s[0] == '-' || s[0] == '+') then s[1..] else s;
    var magnitude: int := ParseNat(digits);
    var v: int := if negative then -magnitude else magnitude;
    if |digits| == 0 || !AllDigits(digits) || v < Int32Min || v > Int32Max then 0 else v
  }

  /** Numbers written by IntStr read back, within the 32-bit range. */
  lemma ParseIntStr(i: int)
    requires Int32Min <= i <= Int32Max
    ensures ParseInt(IntStr(i)) == i
  {
    if i < 0 {
      var n: nat := -i;
      ParseNatStr(n);
      ParseSigned(NatStr(n));
    } else {
      ParseNatStr(i);
      ParseUnsigned(NatStr(i));
    }
  }

  lemma ParseSigned(digits: string)
    requires |digits| > 0 && AllDigits(digits) && ParseNat(digits) <= -Int32Min
    ensures ParseInt("-" + digits) == -(ParseNat(digits) as int)
  {
    var s := "-" + digits;
    assert s[0] == '-' && s[1..] == digits;
  }

  lemma ParseUnsigned(digits: string)
    requires |digits| > 0 && AllDigits(digits) && ParseNat(digits) <= Int32Max
    ensures ParseInt(digits) == ParseNat(digits)
  {
    assert digits[0] != '-' && digits[0] != '+';
  }

  /** The ordering of QMap keys: character-wise lexicographic. */
  predicate LexLess(a: string, b: string)
    decreases |a|
  {
    if |a| == 0 then |b| > 0
    else if |b| == 0 then false
    else if a[0] != b[0] then a[0] < b[0]
    else LexLess(a[1..], b[1..])
  }

  lemma {:induction false} LexTotal(a: string, b: string)
    ensures a == b || LexLess(a, b) || LexLess(b, a)
    decreases |a|
  {
    if |a| > 0 && |b| > 0 && a[0] == b[0] {
      LexTotal(a[1..], b[1..]);
      if a[1..] == b[1..] {
        assert a == [a[0]] + a[1..] && b == [b[0]] + b[1..];
      }
    }
  }

  lemma {:induction false} LexAsymmetric(a: string, b: string)
    ensures LexLess(a, b) ==> !LexLess(b, a)
    decreases |a|
  {
    if |a| > 0 && |b| > 0 && a[0] == b[0] {
      LexAsymmetric(a[1..], b[1..]);
    }
  }

  lemma {:induction false} LexIrreflexive(a: string)
    ensures !LexLess(a, a)
    decreases |a|
  {
    if |a| > 0 {
      LexIrreflexive(a[1..]);
    }
  }

  lemma {:induction false} LexTransitive(a: string, b: string, c: string)
    requires LexLess(a, b) && LexLess(b, c)
    ensures LexLess(a, c)
    decreases |a|
  {
    if |a| > 0 && |b| > 0 && |c| > 0 && a[0] == b[0] && b[0] == c[0] {
      LexTransitive(a[1..], b[1..], c[1..]);
    }
  }

  /** The i-th `?` of the template replaced by `values[i]`; once the values
      run out, further `?`s stay as they are. This is what binding the
      positional parameters of a prepared statement does. */
  function Subst(template: string, values: seq<string>): string
    decreases |template|
  {
    if |template| == 0 then ""
    else if template[0] == '?' && |values| > 0 then values[0] + Subst(template[1..], values[1..])
    else [template[0]] + Subst(template[1..], values)
  }

  lemma {:induction false} SubstNoValues(s: string)
    ensures Subst(s, []) == s
    decreases |s|
  {
    if |s| > 0 {
      var rest := s[1..];
      SubstNoValues(rest);
      assert Subst(s, []) == [s[0]] + Subst(rest, []);
      assert [s[0]] + rest == s;
    }
  }

  /** Substitution distributes over concatenation: the first part consumes
      as many values as it has placeholders. */
  lemma {:induction false} SubstAppend(a: string, b: string, values: seq<string>)
    requires CountChar(a, '?') <= |values|
    ensures Subst(a + b, values) ==
            Subst(a, values[..CountChar(a, '?')]) + Subst(b, values[CountChar(a, '?')..])
    decreases |a|
  {
    if |a| == 0 {
      EmptyConcat(a, b);
      WholeSlices(values);
    } else {
      var c, t := a[0], a[1..];
      HeadTail(a);
      CountCharAppend([c], t, '?');
      assert CountChar([c], '?') == if c == '?' then 1 else 0;
      if c == '?' {
        SubstAppend(t, b, values[1..]);
        SubstHoleStep(t, b, values);
      } else {
        SubstAppend(t, b, values);
        SubstPlainStep(c, t, b, values);
      }
    }
  }

  lemma SubstHoleStep(t: string, b: string, values: seq<string>)
    requires CountChar(t, '?') < |values|
    requires Subst(t + b, values[1..]) ==
             Subst(t, values[1..][..CountChar(t, '?')]) + Subst(b, values[1..][CountChar(t, '?')..])
    ensures Subst(['?'] + t + b, values) ==
            Subst(['?'] + t, values[..CountChar(t, '?') + 1]) + Subst(b, values[CountChar(t, '?') + 1..])
  {
    var n := CountChar(t, '?');
    var front := values[..n + 1];
    ConcatAssoc(['?'], t, b);
    SubstCons('?', t + b, values);
    SubstCons('?', t, front);
    assert front[0] == values[0] && front[1..] == values[1..][..n];
    assert values[1..][n..] == values[n + 1..];
    ConcatAssoc(values[0], Subst(t, values[1..][..n]), Subst(b, values[n + 1..]));
  }

  lemma SubstPlainStep(c: char, t: string, b: string, values: seq<string>)
    requires c != '?' && CountChar(t, '?') <= |values|
    requires Subst(t + b, values) ==
             Subst(t, values[..CountChar(t, '?')]) + Subst(b, values[CountChar(t, '?')..])
    ensures Subst([c] + t + b, values) ==
            Subst([c] + t, values[..CountChar(t, '?')]) + Subst(b, values[CountChar(t, '?')..])
  {
    var n := CountChar(t, '?');
    ConcatAssoc([c], t, b);
    SubstCons(c, t + b, values);
    SubstCons(c, t, values[..n]);
    ConcatAssoc([c], Subst(t, values[..n]), Subst(b, values[n..]));
  }

  lemma HeadTail<T>(s: seq<T>)
    requires |s| > 0
    ensures s == [s[0]] + s[1..]
  {
  }

  lemma EmptyConcat<T>(a: seq<T>, b: seq<T>)
    requires |a| == 0
    ensures a + b == b
  {
  }

  lemma WholeSlices<T>(s: seq<T>)
    ensures s[..0] == [] && s[0..] == s
  {
  }

  lemma PrefixTail<T>(s: seq<T>, i: int)
    requires 0 < i <= |s|
    ensures s[..i][0] == s[0] && s[..i][1..] == s[1..][..i - 1]
  {
  }

  lemma ConsTail<T>(x: T, s: seq<T>)
    ensures ([x] + s)[0] == x && ([x] + s)[1..] == s
  {
  }

  lemma ConcatAssoc<T>(x: seq<T>, y: seq<T>, z: seq<T>)
    ensures x + (y + z) == x + y + z
  {
  }

  /** One step of substitution: a placeholder takes the next value, any
      other character is copied. */
  lemma SubstCons(c: char, rest: string, values: seq<string>)
    ensures Subst([c] + rest, values) ==
            if c == '?' && |values| > 0 then values[0] + Subst(rest, values[1..]) else [c] + Subst(rest, values)
  {
    assert ([c] + rest)[0] == c && ([c] + rest)[1..] == rest;
  }

  /** Text without placeholders in front consumes no values. */
  lemma SubstAfterFixed(pre: string, rest: string, values: seq<string>)
    requires '?' !in pre
    ensures Subst(pre + rest, values) == pre + Subst(rest, values)
  {
    SubstAppend(pre, rest, values);
    assert values[..0] == [] && values[0..] == values;
    SubstNoValues(pre);
  }

  /** Once every value is used, text without placeholders is copied. */
  lemma SubstBeforeFixed(mid: string, post: string, values: seq<string>)
    requires CountChar(mid, '?') == |values| && '?' !in post
    ensures Subst(mid + post, values) == Subst(mid, values) + post
  {
    SubstAppend(mid, post, values);
    assert values[..|values|] == values && values[|values|..] == [];
    SubstNoValues(post);
  }

  lemma CountCharFramed(pre: string, mid: string, post: string)
    requires '?' !in pre && '?' !in post
    ensures CountChar(pre + mid + post, '?') == CountChar(mid, '?')
  {
    CountCharAppend(pre, mid, '?');
    CountCharAppend(pre + mid, post, '?');
  }

  lemma SubstFramed(pre: string, mid: string, post: string, values: seq<string>)
    requires '?' !in pre && '?' !in post && CountChar(mid, '?') == |values|
    ensures Subst(pre + mid + post, values) == pre + Subst(mid, values) + post
  {
    var tail := mid + post;
    var filled := Subst(mid, values);
    assert pre + mid + post == pre + tail;
    SubstAfterFixed(pre, tail, values);
    SubstBeforeFixed(mid, post, values);
    assert pre + (filled + post) == pre + filled + post;
  }
}

=== FILE: values.dfy ===
/** The variant values the library stores in conditions, caches and field
    maps. Only the conversions the core performs are modelled: to a
    boolean, an integer, a text, a list and a text list. */
module Values {
  import opened Strings

  datatype Value =
    | Null                          // an absent or SQL NULL value
    | Bool(b: bool)
    | Int(i: int)                   // a 32-bit integer
    | Str(s: string)
    | StrList(items: seq<string>)
    | List(elems: seq<Value>)
    | Other(text: string)           // any other payload, known by its text form

  /** QVariant::toBool. A text is false when it is empty, "0" or "false" in
      any letter case. */
  function ToBool(v: Value): bool
  {
    match v
    case Null => false
    case Bool(b) => b
    case Int(i) => i != 0
    case Str(s) => !(s == "" || s == "0" || Lower(s) == "false")
    case _ => false
  }

  /** QVariant::toInt; a text converts when it is a decimal 32-bit number. */
  function ToInt(v: Value): int
  {
    match v
    case Null => 0
    case Bool(b) => if b then 1 else 0
    case Int(i) => i
    case Str(s) => ParseInt(s)
    case _ => 0
  }

  /** QVariant::toString; a text list converts only when it has one item. */
  function ToStr(v: Value): string
  {
    match v
    case Null => ""
    case Bool(b) => if b then "true" else "false"
    case Int(i) => IntStr(i)
    case Str(s) => s
    case StrList(items) => if |items| == 1 then items[0] else ""
    case List(_) => ""
    case Other(t) => t
  }

  /** QVariant::toList. */
  function ToList(v: Value): (r: seq<Value>)
    ensures v.List? ==> r == v.elems
    ensures v.StrList? ==> |r| == |v.items| && forall i :: 0 <= i < |r| ==> r[i] == Str(v.items[i])
  {
    match v
    case List(vs) => vs
    case StrList(items) => seq(|items|, i requires 0 <= i < |items| => Str(items[i]))
    case _ => []
  }

  /** QVariant::toStringList. */
  function ToStringList(v: Value): (r: seq<string>)
    ensures v.StrList? ==> r == v.items
    ensures v.Str? ==> r == [v.s]
  {
    match v
    case StrList(items) => items
    case Str(s) => [s]
    case List(vs) => seq(|vs|, i requires 0 <= i < |vs| => ToStr(vs[i]))
    case _ => []
  }

  predicate IsNull(v: Value)
  {
    v.Null?
  }
}

=== FILE: where.dfy ===
/** Query conditions: an immutable tree of comparisons joined by AND/OR,
    each node optionally negated, with the `!`, `&&` and `||` operators of
    NOrmWhere and the meaning of a condition for one row. */
module Where {
  import opened Values

  /** NOrmWhere::Operation. `NoOp` is the library's `None`: no comparison. */
  datatype Operation =
    | NoOp
    | Equals
    | NotEquals
    | GreaterThan
    | LessThan
    | GreaterOrEquals
    | LessOrEquals
    | StartsWith
    | EndsWith
    | Contains
    | IsIn
    | IsNull
    | IEquals
    | INotEquals
    | IStartsWith
    | IEndsWith
    | IContains

  datatype Combine = AndCombine | OrCombine

  /** A condition. A `Leaf` is a node without a combinator (the library's
      `NoCombine`): a comparison of the column `key` with `data`, or, with
      operation `NoOp`, the trivial condition. A `Node` joins its children
      with AND or OR. */
  datatype Where =
    | Leaf(key: string, op: Operation, data: Value, negate: bool)
    | Node(combine: Combine, children: seq<Where>, negate: bool)

  /** NOrmWhere(): the condition every row satisfies. */
  const MatchAll: Where := Leaf("", NoOp, Null, false)

  /** !NOrmWhere(): the condition no row satisfies. */
  const MatchNone: Where := Leaf("", NoOp, Null, true)

  /** NOrmWhere(key, operation, value). */
  function Compare(key: string, op: Operation, value: Value): (r: Where)
    ensures r.Leaf? && !r.negate && r.key == key && r.op == op && r.data == value
  {
    Leaf(key, op, value, false)
  }

  /** NOrmWhere::isAll. */
  predicate IsAll(t: Where)
  {
    t.Leaf? && t.op == NoOp && !t.negate
  }

  /** NOrmWhere::isNone. */
  predicate IsNone(t: Where)
  {
    t.Leaf? && t.op == NoOp && t.negate
  }

  /** The operations `!` replaces by their complement instead of setting
      the negation flag. */
  predicate Complemented(op: Operation)
  {
    op in {Equals, NotEquals, IEquals, INotEquals, GreaterThan, LessThan, GreaterOrEquals, LessOrEquals}
  }

  function Complement(op: Operation): (r: Operation)
    requires Complemented(op)
    ensures Complemented(r) && r != op
  {
    match op
    case Equals => NotEquals
    case NotEquals => Equals
    case IEquals => INotEquals
    case INotEquals => IEquals
    case GreaterThan => LessOrEquals
    case LessThan => GreaterOrEquals
    case GreaterOrEquals => LessThan
    case LessOrEquals => GreaterThan
  }

  /** Complementing twice gives the operation back. */
  lemma ComplementInvolutive(op: Operation)
    requires Complemented(op)
    ensures Complement(Complement(op)) == op
  {
  }

  /** NOrmWhere::operator!. A comparison with a complement operation is
      rewritten to it, an IS NULL test has its expected nullness flipped,
      everything else (combinators, the trivial condition, IN and the LIKE
      family) has its negation flag flipped. */
  function Not(t: Where): (r: Where)
    ensures IsAll(r) <==> IsNone(t)
    ensures IsNone(r) <==> IsAll(t)
    ensures r.Node? <==> t.Node?
    ensures t.Node? ==> r == t.(negate := !t.negate)
    ensures t.Leaf? ==> r.key == t.key
  {
    match t
    case Node(c, ch, n) => Node(c, ch, !n)
    case Leaf(k, op, v, n) =>
      if op == IsNull then Leaf(k, op, Bool(!ToBool(v)), n)
      else if Complemented(op) then Leaf(k, Complement(op), v, n)
      else Leaf(k, op, v, !n)
  }

  /** NOrmWhere::operator&&, with the flattening restricted to AND nodes that
      are not negated (see AndAsWritten for the operator as the library
      writes it). */
  function And(a: Where, b: Where): (r: Where)
    ensures IsAll(r) <==> IsAll(a) && IsAll(b)
    ensures IsNone(r) <==> IsNone(a) || IsNone(b)
  {
    if IsAll(a) || IsNone(b) then b
    else if IsNone(a) || IsAll(b) then a
    else if a.Node? && a.combine == AndCombine && !a.negate then Node(AndCombine, a.children + [b], false)
    else Node(AndCombine, [a, b], false)
  }

  /** NOrmWhere::operator||, with the flattening restricted to OR nodes that
      are not negated (see OrAsWritten). */
  function Or(a: Where, b: Where): (r: Where)
    ensures IsNone(r) <==> IsNone(a) && IsNone(b)
    ensures IsAll(r) <==> IsAll(a) || IsAll(b)
  {
    if IsAll(a) || IsNone(b) then a
    else if IsNone(a) || IsAll(b) then b
    else if a.Node? && a.combine == OrCombine && !a.negate then Node(OrCombine, a.children + [b], false)
    else Node(OrCombine, [a, b], false)
  }

  /** NOrmWhere::operator&& as the library writes it: a left operand that
      is an AND node gets the right operand appended to its children even
      when it is negated, so `!(x && y) && z` becomes `!(x && y && z)`. */
  function AndAsWritten(a: Where, b: Where): (r: Where)
    ensures IsAll(r) <==> IsAll(a) && IsAll(b)
    ensures IsNone(r) <==> IsNone(a) || IsNone(b)
    ensures !(a.Node? && a.negate) ==> r == And(a, b)
  {
    if IsAll(a) || IsNone(b) then b
    else if IsNone(a) || IsAll(b) then a
    else if a.Node? && a.combine == AndCombine then a.(children := a.children + [b])
    else Node(AndCombine, [a, b], false)
  }

  /** NOrmWhere::operator|| as the library writes it (same flaw as
      AndAsWritten). */
  function OrAsWritten(a: Where, b: Where): (r: Where)
    ensures IsNone(r) <==> IsNone(a) && IsNone(b)
    ensures IsAll(r) <==> IsAll(a) || IsAll(b)
    ensures !(a.Node? && a.negate) ==> r == Or(a, b)
  {
    if IsAll(a) || IsNone(b) then a
    else if IsNone(a) || IsAll(b) then b
    else if a.Node? && a.combine == OrCombine then a.(children := a.children + [b])
    else Node(OrCombine, [a, b], false)
  }

  // The meaning of a condition.

  /** The truth, for one row, of the positive comparison `key op value`
      (for IS NULL: whether the column is null). */
  type Atom = (string, Operation, Value) -> bool

  /** Whether a leaf holds, read off the SQL the leaf renders to, in
      two-valued logic: the complement operations are the negations of
      their partners, the ordering comparisons and IS NULL ignore the
      negation flag (their SQL does), the others honour it. */
  function LeafHolds(key: string, op: Operation, v: Value, negate: bool, atom: Atom): bool
  {
    match op
    case NoOp => !negate
    case Equals => atom(key, Equals, v)
    case NotEquals => !atom(key, Equals, v)
    case GreaterThan => atom(key, GreaterThan, v)
    case LessOrEquals => !atom(key, GreaterThan, v)
    case LessThan => atom(key, LessThan, v)
    case GreaterOrEquals => !atom(key, LessThan, v)
    case IsNull => atom(key, IsNull, Null) == ToBool(v)
    case IEquals => atom(key, IEquals, v) != negate
    case INotEquals => atom(key, IEquals, v) == negate
    case _ => atom(key, op, v) != negate
  }

  /** Whether a row satisfies the condition. */
  function Eval(t: Where, atom: Atom): (r: bool)
    ensures IsAll(t) ==> r
    ensures IsNone(t) ==> !r
    decreases t
  {
    match t
    case Leaf(k, op, v, n) => LeafHolds(k, op, v, n, atom)
    case Node(c, ch, n) =>
      var holds :=
        if c == AndCombine then forall i | 0 <= i < |ch| :: Eval(ch[i], atom)
        else exists i | 0 <= i < |ch| :: Eval(ch[i], atom);
      holds != n
  }

  /** `!` negates the meaning of every condition. */
  lemma EvalNot(t: Where, atom: Atom)
    ensures Eval(Not(t), atom) == !Eval(t, atom)
  {
    if t.Leaf? && t.op == IsNull {
      assert ToBool(Bool(!ToBool(t.data))) == !ToBool(t.data);
    }
  }

  /** The trivial conditions mean what their names say. */
  lemma EvalTrivial(t: Where, atom: Atom)
    ensures IsAll(t) ==> Eval(t, atom)
    ensures IsNone(t) ==> !Eval(t, atom)
  {
  }

  /** `!!t` is `t` itself, except that the expected nullness of an IS NULL
      test is normalised to a boolean; its meaning is unchanged. */
  lemma NotNot(t: Where, atom: Atom)
    ensures Not(Not(t)) == if t.Leaf? && t.op == IsNull then t.(data := Bool(ToBool(t.data))) else t
    ensures Eval(Not(Not(t)), atom) == Eval(t, atom)
  {
    EvalNot(t, atom);
    EvalNot(Not(t), atom);
  }

  /** The absorption rules of `&&`: the trivial conditions vanish or
      dominate. */
  lemma AndAbsorbs(a: Where, b: Where)
    ensures IsAll(a) ==> And(a, b) == b
    ensures IsAll(b) && !IsAll(a) ==> And(a, b) == a
    ensures IsNone(a) || IsNone(b) ==> IsNone(And(a, b))
    ensures And(a, b) == AndAsWritten(a, b) || (a.Node? && a.negate)
  {
  }

  /** The absorption rules of `||`. */
  lemma OrAbsorbs(a: Where, b: Where)
    ensures IsNone(a) && !IsNone(b) ==> Or(a, b) == b
    ensures IsNone(b) ==> Or(a, b) == a
    ensures IsAll(a) || IsAll(b) ==> IsAll(Or(a, b))
    ensures Or(a, b) == OrAsWritten(a, b) || (a.Node? && a.negate)
  {
  }

  /** `&&` onto a non-negated AND node appends to its children; otherwise a
      two-child AND node is built. */
  lemma AndFlattens(a: Where, b: Where)
    requires !IsAll(a) && !IsNone(a) && !IsAll(b) && !IsNone(b)
    ensures a.Node? && a.combine == AndCombine && !a.negate ==>
      And(a, b) == Node(AndCombine, a.children + [b], false)
    ensures !(a.Node? && a.combine == AndCombine && !a.negate) ==>
      And(a, b) == Node(AndCombine, [a, b], false)
  {
  }

  lemma AllHoldAppend(ch: seq<Where>, b: Where, atom: Atom)
    ensures (forall i | 0 <= i < |ch + [b]| :: Eval((ch + [b])[i], atom)) ==
      ((forall i | 0 <= i < |ch| :: Eval(ch[i], atom)) && Eval(b, atom))
  {
    assert forall i | 0 <= i < |ch| :: (ch + [b])[i] == ch[i];
    assert (ch + [b])[|ch|] == b;
  }

  lemma AnyHoldsAppend(ch: seq<Where>, b: Where, atom: Atom)
    ensures (exists i | 0 <= i < |ch + [b]| :: Eval((ch + [b])[i], atom)) ==
      ((exists i | 0 <= i < |ch| :: Eval(ch[i], atom)) || Eval(b, atom))
  {
    assert forall i | 0 <= i < |ch| :: (ch + [b])[i] == ch[i];
    assert (ch + [b])[|ch|] == b;
  }

  /** `&&` is conjunction: a row satisfies `a && b` exactly when it
      satisfies both. */
  lemma {:induction false} EvalAnd(a: Where, b: Where, atom: Atom)
    ensures Eval(And(a, b), atom) == (Eval(a, atom) && Eval(b, atom))
  {
    if IsAll(a) || IsNone(b) || IsNone(a) || IsAll(b) {
    } else if a.Node? && a.combine == AndCombine && !a.negate {
      AllHoldAppend(a.children, b, atom);
    } else {
      var ch := [a, b];
      assert ch[0] == a && ch[1] == b;
    }
  }

  /** `||` is disjunction. */
  lemma {:induction false} EvalOr(a: Where, b: Where, atom: Atom)
    ensures Eval(Or(a, b), atom) == (Eval(a, atom) || Eval(b, atom))
  {
    if IsAll(a) || IsNone(b) || IsNone(a) || IsAll(b) {
    } else if a.Node? && a.combine == OrCombine && !a.negate {
      AnyHoldsAppend(a.children, b, atom);
    } else {
      var ch := [a, b];
      assert ch[0] == a && ch[1] == b;
      assert Eval(ch[0], atom) == Eval(a, atom);
    }
  }

  /** The library's `&&` is not conjunction: excluding `x && y` and then
      filtering on `z` keeps a row that satisfies none of the three. */
  lemma AndAsWrittenIsNotConjunction()
    ensures var x := Compare("a", Equals, Int(1));
            var y := Compare("b", Equals, Int(1));
            var z := Compare("c", Equals, Int(1));
            var never: Atom := (k, op, v) => false;
            var w := AndAsWritten(Not(AndAsWritten(x, y)), z);
            w == Node(AndCombine, [x, y, z], true) &&
            Eval(w, never) && !(Eval(Not(AndAsWritten(x, y)), never) && Eval(z, never))
  {
    var x := Compare("a", Equals, Int(1));
    var y := Compare("b", Equals, Int(1));
    var z := Compare("c", Equals, Int(1));
    var never: Atom := (k, op, v) => false;
    var w := AndAsWritten(Not(AndAsWritten(x, y)), z);
    assert AndAsWritten(x, y) == Node(AndCombine, [x, y], false);
    assert [x, y] + [z] == [x, y, z];
    assert w == Node(AndCombine, [x, y, z], true);
    assert !Eval(w.children[0], never);
  }

  /** The same flaw in the library's `||`: `!(x || y) || z` turns into
      `!(x || y || z)`, which rejects a row satisfying z. */
  lemma OrAsWrittenIsNotDisjunction()
    ensures var x := Compare("a", Equals, Int(1));
            var y := Compare("b", Equals, Int(1));
            var z := Compare("c", Equals, Int(1));
            var always: Atom := (k, op, v) => true;
            var w := OrAsWritten(Not(OrAsWritten(x, y)), z);
            w == Node(OrCombine, [x, y, z], true) &&
            !Eval(w, always) && (Eval(Not(OrAsWritten(x, y)), always) || Eval(z, always))
  {
    var x := Compare("a", Equals, Int(1));
    var y := Compare("b", Equals, Int(1));
    var z := Compare("c", Equals, Int(1));
    var always: Atom := (k, op, v) => true;
    var w := OrAsWritten(Not(OrAsWritten(x, y)), z);
    assert OrAsWritten(x, y) == Node(OrCombine, [x, y], false);
    assert [x, y] + [z] == [x, y, z];
    assert w == Node(OrCombine, [x, y, z], true);
    assert Eval(x, always);
    assert Eval(w.children[0], always);
  }
}

=== FILE: where_sql.dfy ===
/** Rendering a condition to SQL for one dialect, with `?` placeholders,
    and the values to bind to those placeholders. */
module WhereSql {
  import opened Strings
  import opened Values
  import opened Dialects
  import opened Where

  // LIKE patterns.

  /** One element of a LIKE pattern as the database reads it, with the
      backslash as escape character (the ESCAPE clause on SQLite, the
      default of MySQL and PostgreSQL). */
  datatype PatternItem = Literal(c: char) | AnyChar | AnyRun

  function ReadPattern(p: string): seq<PatternItem>
    decreases |p|
  {
    if |p| == 0 then []
    else if p[0] == '\\' && |p| >= 2 then [Literal(p[1])] + ReadPattern(p[2..])
    else if p[0] == '%' then [AnyRun] + ReadPattern(p[1..])
    else if p[0] == '_' then [AnyChar] + ReadPattern(p[1..])
    else [Literal(p[0])] + ReadPattern(p[1..])
  }

  /** The pattern matching exactly the text `s`. */
  function Literals(s: string): (r: seq<PatternItem>)
    ensures |r| == |s|
    ensures forall i :: 0 <= i < |s| ==> r[i] == Literal(s[i])
  {
    seq(|s|, i requires 0 <= i < |s| => Literal(s[i]))
  }

  /** escapeLike as the library writes it: `%` and then `_` are prefixed
      with a backslash; a backslash itself is left alone, so the result is
      the corrected escaping only for a text without one. */
  function EscapeLikeAsWritten(s: string): (r: string)
    ensures '\\' !in s ==> r == EscapeLike(s)
  {
    Replace(Replace(s, '%', "\\%"), '_', "\\_")
  }

  /** escapeLike with the escape character escaped first, so that every
      character of the text is read back as itself: it escapes character
      by character, and the pattern matches exactly the text. */
  function EscapeLike(s: string): (r: string)
    ensures r == EscapeEach(s)
    ensures ReadPattern(r) == Literals(s)
  {
    ReplacesEscapeEach(s);
    ReadEscaped(s, "");
    assert EscapeEach(s) + "" == EscapeEach(s);
    Replace(Replace(Replace(s, '\\', "\\\\"), '%', "\\%"), '_', "\\_")
  }

  function EscapeChar(c: char): (r: string)
    ensures ReadPattern(r) == [Literal(c)]
  {
    if c == '\\' || c == '%' || c == '_' then ['\\', c] else [c]
  }

  /** The character-by-character reading of EscapeLike. */
  function EscapeEach(s: string): string
  {
    if |s| == 0 then "" else EscapeChar(s[0]) + EscapeEach(s[1..])
  }

  lemma {:induction false} ReplacesEscapeEach(s: string)
    ensures Replace(Replace(Replace(s, '\\', "\\\\"), '%', "\\%"), '_', "\\_") == EscapeEach(s)
    decreases |s|
  {
    if |s| > 0 {
      var c := s[0];
      assert s == [c] + s[1..];
      ReplaceAppend([c], s[1..], '\\', "\\\\");
      var a1 := Replace([c], '\\', "\\\\");
      var b1 := Replace(s[1..], '\\', "\\\\");
      ReplaceAppend(a1, b1, '%', "\\%");
      var a2 := Replace(a1, '%', "\\%");
      var b2 := Replace(b1, '%', "\\%");
      ReplaceAppend(a2, b2, '_', "\\_");
      assert Replace(a2, '_', "\\_") == EscapeChar(c) by {
        if c == '\\' {
          assert a1 == "\\\\";
          assert a1 == ['\\'] + ['\\'];
          ReplaceAppend(['\\'], ['\\'], '%', "\\%");
          ReplaceAppend(['\\'], ['\\'], '_', "\\_");
        } else if c == '%' {
          assert a2 == ['\\'] + ['%'];
          ReplaceAppend(['\\'], ['%'], '_', "\\_");
        }
      }
      ReplacesEscapeEach(s[1..]);
    }
  }

  /** An escaped text followed by more pattern reads as the text's
      characters, literally, followed by the reading of the rest. */
  lemma {:induction false} ReadEscaped(s: string, rest: string)
    ensures ReadPattern(EscapeEach(s) + rest) == Literals(s) + ReadPattern(rest)
    decreases |s|
  {
    if |s| == 0 {
      assert EscapeEach(s) + rest == rest;
      assert Literals(s) + ReadPattern(rest) == ReadPattern(rest);
    } else {
      var c := s[0];
      var tail := EscapeEach(s[1..]) + rest;
      assert EscapeEach(s) + rest == EscapeChar(c) + tail;
      ReadEscaped(s[1..], rest);
      ReadEscapedChar(c, tail);
      LiteralsCons(s);
      ConcatAssoc([Literal(c)], Literals(s[1..]), ReadPattern(rest));
    }
  }

  lemma LiteralsCons(s: string)
    requires |s| > 0
    ensures Literals(s) == [Literal(s[0])] + Literals(s[1..])
  {
  }

  lemma ReadEscapedChar(c: char, tail: string)
    ensures ReadPattern(EscapeChar(c) + tail) == [Literal(c)] + ReadPattern(tail)
  {
    if c == '\\' || c == '%' || c == '_' {
      assert (EscapeChar(c) + tail)[2..] == tail;
    } else {
      assert (EscapeChar(c) + tail)[1..] == tail;
    }
  }

  /** The library's escaping leaves a backslash that the database then
      takes as an escape: the text `\_` is read as a backslash followed by
      the one-character wildcard. */
  lemma EscapeLikeAsWrittenMisreads()
    ensures EscapeLikeAsWritten("\\_") == "\\\\_"
    ensures ReadPattern(EscapeLikeAsWritten("\\_")) == [Literal('\\'), AnyChar]
    ensures ReadPattern(EscapeLikeAsWritten("\\_")) != Literals("\\_")
    ensures ReadPattern(EscapeLike("\\_")) == Literals("\\_")
  {
    BackslashUnderscoreAsWritten();
    BackslashUnderscoreRead();
    assert Literals("\\_")[1] == Literal('_');
  }

  lemma BackslashUnderscoreAsWritten()
    ensures EscapeLikeAsWritten("\\_") == "\\\\_"
  {
    assert "\\_" == ['\\'] + ['_'];
    ReplaceAppend(['\\'], ['_'], '%', "\\%");
    assert Replace("\\_", '%', "\\%") == "\\_";
    ReplaceAppend(['\\'], ['_'], '_', "\\_");
    assert ['\\'] + "\\_" == "\\\\_";
  }

  lemma BackslashUnderscoreRead()
    ensures ReadPattern("\\\\_") == [Literal('\\'), AnyChar]
  {
    var p := "\\\\_";
    assert p[2..] == "_";
    assert ReadPattern("_") == [AnyChar] + ReadPattern("");
  }

  /** Whether the database takes a backslash in a LIKE pattern as the
      escape character: MySQL and PostgreSQL do by default and the SQLite
      renderer names it in an ESCAPE clause; the other renderers write no
      ESCAPE clause, and standard SQL has no default escape character. */
  predicate BackslashEscapes(d: Dialect)
  {
    StyleOf(d) != Plain
  }

  /** A pattern as the database of dialect `d` reads it. */
  function ReadLike(d: Dialect, p: string): seq<PatternItem>
  {
    if BackslashEscapes(d) then ReadPattern(p) else ReadUnescaped(p)
  }

  /** A pattern read without an escape character: only the two wildcards
      are special. */
  function ReadUnescaped(p: string): seq<PatternItem>
  {
    if |p| == 0 then []
    else (if p[0] == '%' then [AnyRun] else if p[0] == '_' then [AnyChar] else [Literal(p[0])])
         + ReadUnescaped(p[1..])
  }

  /** The pattern NOrmWhere::bindValues binds for a LIKE-family comparison,
      escaped with escapeLike as the library writes it; it is the corrected
      pattern whenever the text holds no backslash. */
  function LikePattern(op: Operation, v: Value): (r: Value)
    ensures '\\' !in ToStr(v) ==> r == LikePatternCorrected(op, v)
  {
    if op == StartsWith || op == IStartsWith then Str(EscapeLikeAsWritten(ToStr(v)) + "%")
    else if op == EndsWith || op == IEndsWith then Str("%" + EscapeLikeAsWritten(ToStr(v)))
    else if op == Contains || op == IContains then Str("%" + EscapeLikeAsWritten(ToStr(v)) + "%")
    else v
  }

  /** The same pattern with the corrected escaping. */
  function LikePatternCorrected(op: Operation, v: Value): Value
  {
    if op == StartsWith || op == IStartsWith then Str(EscapeLike(ToStr(v)) + "%")
    else if op == EndsWith || op == IEndsWith then Str("%" + EscapeLike(ToStr(v)))
    else if op == Contains || op == IContains then Str("%" + EscapeLike(ToStr(v)) + "%")
    else v
  }

  /** Corrected: where a backslash escapes, the pattern for a prefix test
      means the text, literally, followed by anything. */
  lemma StartsWithPattern(d: Dialect, op: Operation, t: string)
    requires BackslashEscapes(d) && op in {StartsWith, IStartsWith}
    ensures ReadLike(d, ToStr(LikePatternCorrected(op, Str(t)))) == Literals(t) + [AnyRun]
  {
    ReadEscaped(t, "%");
  }

  /** Corrected: the pattern for a suffix test means anything, then the
      text. */
  lemma EndsWithPattern(d: Dialect, op: Operation, t: string)
    requires BackslashEscapes(d) && op in {EndsWith, IEndsWith}
    ensures ReadLike(d, ToStr(LikePatternCorrected(op, Str(t)))) == [AnyRun] + Literals(t)
  {
    ReadEscaped(t, "");
    assert EscapeEach(t) + "" == EscapeEach(t);
    assert ("%" + EscapeEach(t))[1..] == EscapeEach(t);
  }

  /** Corrected: the pattern for a containment test means the text between
      two runs of anything. */
  lemma ContainsPattern(d: Dialect, op: Operation, t: string)
    requires BackslashEscapes(d) && op in {Contains, IContains}
    ensures ReadLike(d, ToStr(LikePatternCorrected(op, Str(t)))) == [AnyRun] + Literals(t) + [AnyRun]
  {
    var p := ToStr(LikePatternCorrected(op, Str(t)));
    assert p == "%" + EscapeEach(t) + "%";
    ReadFramed(t, p);
  }

  lemma ReadFramed(t: string, p: string)
    requires p == "%" + EscapeEach(t) + "%"
    ensures ReadPattern(p) == [AnyRun] + Literals(t) + [AnyRun]
  {
    ReadEscaped(t, "%");
    assert p[0] == '%' && p[1..] == EscapeEach(t) + "%";
  }

  /** Where no escape character is in effect, the backslashes escapeLike
      adds are read as text: the library's pattern for startsWith("%")
      reads as a backslash and then two runs of anything. */
  lemma UnescapedDialectMisreads(d: Dialect)
    requires !BackslashEscapes(d)
    ensures ReadLike(d, ToStr(LikePattern(StartsWith, Str("%")))) == [Literal('\\'), AnyRun, AnyRun]
  {
    var a := Replace("%", '%', "\\%");
    assert a == "\\%" + Replace("", '%', "\\%");
    var p := EscapeLikeAsWritten("%") + "%";
    assert p == "\\%%";
    assert ReadUnescaped(p) == [Literal('\\')] + ReadUnescaped(p[1..]);
    assert p[1..][1..] == "%";
  }

  // Bound values.

  /** NOrmWhere::bindValues: the values for the placeholders, leaves left
      to right. */
  function Bind(t: Where): (r: seq<Value>)
    ensures IsAll(t) || IsNone(t) ==> r == []
    decreases t
  {
    match t
    case Node(_, ch, _) => BindAll(ch)
    case Leaf(_, op, v, _) =>
      if op == IsIn then ToList(v)
      else if op == IsNull then []
      else if op in {StartsWith, IStartsWith, EndsWith, IEndsWith, Contains, IContains} then [LikePattern(op, v)]
      else if op != NoOp then [v]
      else []
  }

  function BindAll(ch: seq<Where>): seq<Value>
    decreases ch
  {
    if |ch| == 0 then [] else Bind(ch[0]) + BindAll(ch[1..])
  }

  // SQL text.

  /** How a dialect renders the LIKE family. The DaMeng renderer writes the
      same text as the default one. */
  datatype Style = Plain | MySqlStyle | SqliteStyle | PostgresStyle

  function StyleOf(d: Dialect): Style
  {
    match d
    case MySqlServer => MySqlStyle
    case SQLite => SqliteStyle
    case PostgreSQL => PostgresStyle
    case _ => Plain
  }

  /** The SQL of a leaf: fixed text, or text around placeholders for
      `values`, the placeholders separated by `sep`. */
  datatype Fragment =
    | Fixed(text: string)
    | Holes(pre: string, values: seq<Value>, sep: string, post: string)

  function Fill(f: Fragment, hole: Value -> string): string
  {
    match f
    case Fixed(text) => text
    case Holes(pre, vs, sep, post) =>
      pre + Join(seq(|vs|, i requires 0 <= i < |vs| => hole(vs[i])), sep) + post
  }

  /** A LIKE comparison; `sensitive` for the case-sensitive operations. */
  function LikeFragment(key: string, likeOp: string, value: Value, s: Style, sensitive: bool): Fragment
  {
    if s == MySqlStyle && sensitive then Holes(key + " " + likeOp + " BINARY ", [value], "", "")
    else if s == SqliteStyle then Holes(key + " " + likeOp + " ", [value], "", " ESCAPE '\\'")
    else if s == PostgresStyle && !sensitive then Holes("UPPER(" + key + "::text) " + likeOp + " UPPER(", [value], "", ")")
    else Holes(key + " " + likeOp + " ", [value], "", "")
  }

  function LeafFragment(key: string, op: Operation, v: Value, negate: bool, s: Style): Fragment
  {
    match op
    case NoOp => Fixed(if negate then "1 != 0" else "")
    case Equals => Holes(key + " = ", [v], "", "")
    case NotEquals => Holes(key + " != ", [v], "", "")
    case GreaterThan => Holes(key + " > ", [v], "", "")
    case LessThan => Holes(key + " < ", [v], "", "")
    case GreaterOrEquals => Holes(key + " >= ", [v], "", "")
    case LessOrEquals => Holes(key + " <= ", [v], "", "")
    case IsIn => Holes(key + (if negate then " NOT IN (" else " IN ("), ToList(v), ", ", ")")
    case IsNull => Fixed(key + (if ToBool(v) then " IS NULL" else " IS NOT NULL"))
    case StartsWith => LikeFragment(key, if negate then "NOT LIKE" else "LIKE", LikePattern(op, v), s, true)
    case EndsWith => LikeFragment(key, if negate then "NOT LIKE" else "LIKE", LikePattern(op, v), s, true)
    case Contains => LikeFragment(key, if negate then "NOT LIKE" else "LIKE", LikePattern(op, v), s, true)
    case IStartsWith => LikeFragment(key, if negate then "NOT LIKE" else "LIKE", LikePattern(op, v), s, false)
    case IEndsWith => LikeFragment(key, if negate then "NOT LIKE" else "LIKE", LikePattern(op, v), s, false)
    case IContains => LikeFragment(key, if negate then "NOT LIKE" else "LIKE", LikePattern(op, v), s, false)
    case IEquals => LikeFragment(key, if negate then "NOT LIKE" else "LIKE", v, s, false)
    case INotEquals => LikeFragment(key, if negate then "LIKE" else "NOT LIKE", v, s, false)
  }

  /** The condition's SQL with each placeholder written as `hole` of the
      value bound to it. With `hole` always "?" this is NOrmWhere::sql; with
      the literal text of the values it is the condition the database
      evaluates once the values are bound. */
  function Render(t: Where, d: Dialect, hole: Value -> string): string
    decreases t
  {
    match t
    case Leaf(k, op, v, n) => Fill(LeafFragment(k, op, v, n, StyleOf(d)), hole)
    case Node(c, ch, n) =>
      var combined := Join(Atoms(ch, d, hole), if c == AndCombine then " AND " else " OR ");
      if n then "NOT (" + combined + ")" else combined
  }

  /** A child is parenthesised when it has children of its own. */
  function Wrap(child: Where, sql: string): string
  {
    if child.Node? && |child.children| > 0 then "(" + sql + ")" else sql
  }

  function Atoms(ch: seq<Where>, d: Dialect, hole: Value -> string): (r: seq<string>)
    ensures |r| == |ch|
    decreases ch
  {
    if |ch| == 0 then [] else [Wrap(ch[0], Render(ch[0], d, hole))] + Atoms(ch[1..], d, hole)
  }

  function Placeholder(v: Value): string
  {
    "?"
  }

  /** NOrmWhere::sql. */
  function Sql(t: Where, d: Dialect): (r: string)
    ensures IsAll(t) ==> r == ""
    ensures IsNone(t) ==> r == "1 != 0"
  {
    Render(t, d, Placeholder)
  }

  /** Negating a condition leaves its bound values alone: `!` flips flags
      and operations, never values. */
  lemma BindNot(t: Where)
    ensures Bind(Not(t)) == Bind(t)
  {
  }

  // Placeholders and bound values in lock step.

  /** No column name the condition renders contains a `?` (a leaf without
      an operation renders no column). */
  predicate KeysFree(t: Where)
    decreases t
  {
    match t
    case Leaf(k, op, _, _) => op != NoOp ==> '?' !in k
    case Node(_, ch, _) => forall i | 0 <= i < |ch| :: KeysFree(ch[i])
  }

  function Texts(vs: seq<Value>, lit: Value -> string): (r: seq<string>)
    ensures |r| == |vs|
    ensures forall i :: 0 <= i < |vs| ==> r[i] == lit(vs[i])
  {
    seq(|vs|, i requires 0 <= i < |vs| => lit(vs[i]))
  }

  lemma TextsAppend(a: seq<Value>, b: seq<Value>, lit: Value -> string)
    ensures Texts(a + b, lit) == Texts(a, lit) + Texts(b, lit)
  {
  }

  /** A run of holes: as many `?` as values, and substituting the values'
      texts writes them in order. */
  lemma {:induction false} HolesLockStep(vs: seq<Value>, sep: string, lit: Value -> string)
    requires '?' !in sep
    ensures CountChar(Join(Texts(vs, Placeholder), sep), '?') == |vs|
    ensures Subst(Join(Texts(vs, Placeholder), sep), Texts(vs, lit)) == Join(Texts(vs, lit), sep)
    decreases |vs|
  {
    var q := Texts(vs, Placeholder);
    if |vs| == 0 {
    } else if |vs| == 1 {
      assert Join(q, sep) == "?";
      assert Subst("?", Texts(vs, lit)) == lit(vs[0]) + Subst("", []);
    } else {
      var rest := Join(q[1..], sep);
      assert q[1..] == Texts(vs[1..], Placeholder);
      assert Join(q, sep) == "?" + (sep + rest) by {
        ConcatAssoc("?", sep, rest);
      }
      HolesLockStep(vs[1..], sep, lit);
      var texts := Texts(vs, lit);
      assert texts[1..] == Texts(vs[1..], lit);
      HolesCons(sep, rest, texts, Join(texts[1..], sep));
      assert Join(texts, sep) == texts[0] + (sep + Join(texts[1..], sep)) by {
        ConcatAssoc(texts[0], sep, Join(texts[1..], sep));
      }
    }
  }

  /** One more hole in front of a separator and a run of holes. */
  lemma HolesCons(sep: string, rest: string, texts: seq<string>, restFilled: string)
    requires '?' !in sep && |texts| > 0
    requires CountChar(rest, '?') == |texts| - 1 && Subst(rest, texts[1..]) == restFilled
    ensures CountChar("?" + (sep + rest), '?') == |texts|
    ensures Subst("?" + (sep + rest), texts) == texts[0] + (sep + restFilled)
  {
    CountCharAppend(sep, rest, '?');
    CountCharAppend("?", sep + rest, '?');
    SubstCons('?', sep + rest, texts);
    SubstAppend(sep, rest, texts[1..]);
    SubstNoValues(sep);
    assert texts[1..][..0] == [] && texts[1..][0..] == texts[1..];
  }

  /** Text around a placeholder run adds no placeholders. */
  lemma FrameLockStep(pre: string, mid: string, post: string, n: nat, values: seq<string>, filled: string)
    requires '?' !in pre && '?' !in post
    requires CountChar(mid, '?') == n == |values|
    requires Subst(mid, values) == filled
    ensures CountChar(pre + mid + post, '?') == n
    ensures Subst(pre + mid + post, values) == pre + filled + post
  {
    CountCharFramed(pre, mid, post);
    SubstFramed(pre, mid, post, values);
  }

  /** The values a leaf's fragment binds are the leaf's bound values. */
  function FragmentValues(f: Fragment): seq<Value>
  {
    if f.Holes? then f.values else []
  }

  /** The fragment's fixed text holds no `?` of its own. */
  predicate FragmentFree(f: Fragment)
  {
    match f
    case Fixed(text) => '?' !in text
    case Holes(pre, _, sep, post) => '?' !in pre && '?' !in sep && '?' !in post
  }

  lemma FragmentLockStep(f: Fragment, lit: Value -> string)
    requires FragmentFree(f)
    ensures CountChar(Fill(f, Placeholder), '?') == |FragmentValues(f)|
    ensures Subst(Fill(f, Placeholder), Texts(FragmentValues(f), lit)) == Fill(f, lit)
  {
    match f
    case Fixed(text) =>
      SubstNoValues(text);
    case Holes(pre, vs, sep, post) =>
      HolesLockStep(vs, sep, lit);
      assert Texts(vs, Placeholder) == seq(|vs|, i requires 0 <= i < |vs| => Placeholder(vs[i]));
      assert Texts(vs, lit) == seq(|vs|, i requires 0 <= i < |vs| => lit(vs[i]));
      FrameLockStep(pre, Join(Texts(vs, Placeholder), sep), post, |vs|, Texts(vs, lit), Join(Texts(vs, lit), sep));
  }

  lemma NotInJoin3(a: string, b: string, c: string)
    requires '?' !in a && '?' !in b && '?' !in c
    ensures '?' !in a + b + c
  {
  }

  lemma LikeFragmentFree(k: string, likeOp: string, value: Value, s: Style, sensitive: bool)
    requires '?' !in k && '?' !in likeOp
    ensures FragmentFree(LikeFragment(k, likeOp, value, s, sensitive))
  {
    NotInJoin3(k, " ", likeOp);
    NotInJoin3(k + " " + likeOp, " BINARY ", "");
    NotInJoin3(k + " " + likeOp, " ", "");
    NotInJoin3("UPPER(", k, "::text) ");
    NotInJoin3("UPPER(" + k + "::text) ", likeOp, " UPPER(");
  }

  lemma LeafFragmentFree(k: string, op: Operation, v: Value, n: bool, s: Style)
    requires op != NoOp ==> '?' !in k
    ensures FragmentFree(LeafFragment(k, op, v, n, s))
  {
    var lo := if n then "NOT LIKE" else "LIKE";
    match op
    case NoOp =>
    case Equals => NotInJoin3(k, " = ", "");
    case NotEquals => NotInJoin3(k, " != ", "");
    case GreaterThan => NotInJoin3(k, " > ", "");
    case LessThan => NotInJoin3(k, " < ", "");
    case GreaterOrEquals => NotInJoin3(k, " >= ", "");
    case LessOrEquals => NotInJoin3(k, " <= ", "");
    case IsIn => NotInJoin3(k, if n then " NOT IN (" else " IN (", "");
    case IsNull => NotInJoin3(k, if ToBool(v) then " IS NULL" else " IS NOT NULL", "");
    case StartsWith | EndsWith | Contains => LikeFragmentFree(k, lo, LikePattern(op, v), s, true);
    case IStartsWith | IEndsWith | IContains => LikeFragmentFree(k, lo, LikePattern(op, v), s, false);
    case IEquals => LikeFragmentFree(k, lo, v, s, false);
    case INotEquals => LikeFragmentFree(k, if n then "LIKE" else "NOT LIKE", v, s, false);
  }

  lemma LeafFragmentValues(k: string, op: Operation, v: Value, n: bool, s: Style)
    ensures FragmentValues(LeafFragment(k, op, v, n, s)) == Bind(Leaf(k, op, v, n))
  {
    var lo := if n then "NOT LIKE" else "LIKE";
    match op
    case StartsWith | EndsWith | Contains => LikeFragmentValues(k, lo, LikePattern(op, v), s, true);
    case IStartsWith | IEndsWith | IContains => LikeFragmentValues(k, lo, LikePattern(op, v), s, false);
    case IEquals => LikeFragmentValues(k, lo, v, s, false);
    case INotEquals => LikeFragmentValues(k, if n then "LIKE" else "NOT LIKE", v, s, false);
    case _ =>
  }

  lemma LikeFragmentValues(k: string, likeOp: string, value: Value, s: Style, sensitive: bool)
    ensures FragmentValues(LikeFragment(k, likeOp, value, s, sensitive)) == [value]
  {
  }

  lemma LeafLockStep(k: string, op: Operation, v: Value, n: bool, s: Style, lit: Value -> string)
    requires op != NoOp ==> '?' !in k
    ensures var f := LeafFragment(k, op, v, n, s);
            FragmentValues(f) == Bind(Leaf(k, op, v, n)) &&
            CountChar(Fill(f, Placeholder), '?') == |FragmentValues(f)| &&
            Subst(Fill(f, Placeholder), Texts(FragmentValues(f), lit)) == Fill(f, lit)
  {
    LeafFragmentFree(k, op, v, n, s);
    LeafFragmentValues(k, op, v, n, s);
    FragmentLockStep(LeafFragment(k, op, v, n, s), lit);
  }

  /** The lock-step theorem: the SQL of a condition has exactly one `?` per
      bound value, and binding the values in order puts each one where the
      condition means it. Column names must not contain `?`. */
  lemma {:induction false} LockStep(t: Where, d: Dialect, lit: Value -> string)
    requires KeysFree(t)
    ensures CountChar(Sql(t, d), '?') == |Bind(t)|
    ensures Subst(Sql(t, d), Texts(Bind(t), lit)) == Render(t, d, lit)
    decreases t, 1
  {
    match t
    case Leaf(k, op, v, n) =>
      LeafLockStep(k, op, v, n, StyleOf(d), lit);
    case Node(c, ch, n) =>
      var sep := if c == AndCombine then " AND " else " OR ";
      AtomsLockStep(ch, d, sep, lit);
      if n {
        FrameLockStep("NOT (", Join(Atoms(ch, d, Placeholder), sep), ")", |BindAll(ch)|,
          Texts(BindAll(ch), lit), Join(Atoms(ch, d, lit), sep));
      }
  }

  lemma AtomsCons(ch: seq<Where>, d: Dialect, hole: Value -> string, sep: string)
    requires |ch| > 1
    ensures Join(Atoms(ch, d, hole), sep) ==
              Wrap(ch[0], Render(ch[0], d, hole)) + (sep + Join(Atoms(ch[1..], d, hole), sep))
  {
    var a := Atoms(ch, d, hole);
    assert a == [Wrap(ch[0], Render(ch[0], d, hole))] + Atoms(ch[1..], d, hole);
    assert a[1..] == Atoms(ch[1..], d, hole);
  }

  /** One child, parenthesised or not, in lock step. */
  lemma WrapLockStep(c: Where, d: Dialect, lit: Value -> string)
    requires KeysFree(c)
    ensures CountChar(Wrap(c, Sql(c, d)), '?') == |Bind(c)|
    ensures Subst(Wrap(c, Sql(c, d)), Texts(Bind(c), lit)) == Wrap(c, Render(c, d, lit))
    decreases c, 2
  {
    LockStep(c, d, lit);
    if c.Node? && |c.children| > 0 {
      FrameLockStep("(", Sql(c, d), ")", |Bind(c)|, Texts(Bind(c), lit), Render(c, d, lit));
    }
  }

  lemma {:induction false} AtomsLockStep(ch: seq<Where>, d: Dialect, sep: string, lit: Value -> string)
    requires forall i | 0 <= i < |ch| :: KeysFree(ch[i])
    requires '?' !in sep
    ensures CountChar(Join(Atoms(ch, d, Placeholder), sep), '?') == |BindAll(ch)|
    ensures Subst(Join(Atoms(ch, d, Placeholder), sep), Texts(BindAll(ch), lit)) == Join(Atoms(ch, d, lit), sep)
    decreases ch, 0
  {
    if |ch| == 0 {
    } else {
      var c := ch[0];
      var q := Render(c, d, Placeholder);
      var l := Render(c, d, lit);
      var vals := Texts(Bind(c), lit);
      WrapLockStep(c, d, lit);
      TextsAppend(Bind(c), BindAll(ch[1..]), lit);
      var all := Texts(BindAll(ch), lit);
      assert all == vals + Texts(BindAll(ch[1..]), lit);
      assert all[..|Bind(c)|] == vals;
      if |ch| == 1 {
        assert Atoms(ch, d, Placeholder) == [Wrap(c, q)];
        assert Atoms(ch, d, lit) == [Wrap(c, l)];
        assert BindAll(ch) == Bind(c) + BindAll(ch[1..]);
        assert BindAll(ch[1..]) == [];
        assert all == vals;
      } else {
        AtomsLockStep(ch[1..], d, sep, lit);
        var restQ := Join(Atoms(ch[1..], d, Placeholder), sep);
        var restL := Join(Atoms(ch[1..], d, lit), sep);
        AtomsCons(ch, d, Placeholder, sep);
        AtomsCons(ch, d, lit, sep);
        CountCharAppend(sep, restQ, '?');
        CountCharAppend(Wrap(c, q), sep + restQ, '?');
        SubstAppend(Wrap(c, q), sep + restQ, all);
        assert all[|Bind(c)|..] == Texts(BindAll(ch[1..]), lit);
        SubstAppend(sep, restQ, Texts(BindAll(ch[1..]), lit));
        SubstNoValues(sep);
      }
    }
  }

  // Dialects.

  /** The LIKE family: the only operations whose SQL depends on the
      dialect. */
  predicate LikeFamily(op: Operation)
  {
    op in {StartsWith, EndsWith, Contains, IStartsWith, IEndsWith, IContains, IEquals, INotEquals}
  }

  predicate NoLike(t: Where)
    decreases t
  {
    match t
    case Leaf(_, op, _, _) => !LikeFamily(op)
    case Node(_, ch, _) => forall i | 0 <= i < |ch| :: NoLike(ch[i])
  }

  /** Without LIKE comparisons every dialect renders the same SQL. */
  lemma {:induction false} DialectsAgreeWithoutLike(t: Where, d1: Dialect, d2: Dialect, hole: Value -> string)
    requires NoLike(t)
    ensures Render(t, d1, hole) == Render(t, d2, hole)
    decreases t, 1
  {
    match t
    case Leaf(_, _, _, _) =>
    case Node(_, ch, _) =>
      AtomsAgreeWithoutLike(ch, d1, d2, hole);
  }

  lemma {:induction false} AtomsAgreeWithoutLike(ch: seq<Where>, d1: Dialect, d2: Dialect, hole: Value -> string)
    requires forall i | 0 <= i < |ch| :: NoLike(ch[i])
    ensures Atoms(ch, d1, hole) == Atoms(ch, d2, hole)
    decreases ch, 0
  {
    if |ch| > 0 {
      DialectsAgreeWithoutLike(ch[0], d1, d2, hole);
      AtomsAgreeWithoutLike(ch[1..], d1, d2, hole);
    }
  }

  /** A one-value fragment renders its placeholder between its texts. */
  lemma FillSingle(pre: string, v: Value, post: string)
    ensures Fill(Holes(pre, [v], "", post), Placeholder) == pre + "?" + post
  {
    assert seq(1, i requires 0 <= i < 1 => Placeholder([v][i])) == ["?"];
  }

  /** The text of a one-value LIKE fragment in each style. */
  lemma LikeFill(k: string, like: string, p: Value, s: Style, sensitive: bool)
    ensures Fill(LikeFragment(k, like, p, s, sensitive), Placeholder) ==
              if s == MySqlStyle && sensitive then k + " " + like + " BINARY " + "?" + ""
              else if s == SqliteStyle then k + " " + like + " " + "?" + " ESCAPE '\\'"
              else if s == PostgresStyle && !sensitive then "UPPER(" + k + "::text) " + like + " UPPER(" + "?" + ")"
              else k + " " + like + " " + "?" + ""
  {
    if s == MySqlStyle && sensitive {
      FillSingle(k + " " + like + " BINARY ", p, "");
    } else if s == SqliteStyle {
      FillSingle(k + " " + like + " ", p, " ESCAPE '\\'");
    } else if s == PostgresStyle && !sensitive {
      FillSingle("UPPER(" + k + "::text) " + like + " UPPER(", p, ")");
    } else {
      FillSingle(k + " " + like + " ", p, "");
    }
  }

  /** The case-sensitive LIKE forms of each dialect, for a leaf with
      column `k`: MySQL compares binary strings, SQLite names the escape
      character, the others use plain LIKE. */
  lemma LikeForms(k: string, op: Operation, v: Value, n: bool, d: Dialect)
    requires op in {StartsWith, EndsWith, Contains}
    ensures var like := if n then "NOT LIKE" else "LIKE";
            Sql(Leaf(k, op, v, n), d) ==
              if d == MySqlServer then k + " " + like + " BINARY " + "?" + ""
              else if d == SQLite then k + " " + like + " " + "?" + " ESCAPE '\\'"
              else k + " " + like + " " + "?" + ""
  {
    var like := if n then "NOT LIKE" else "LIKE";
    assert LeafFragment(k, op, v, n, StyleOf(d)) == LikeFragment(k, like, LikePattern(op, v), StyleOf(d), true);
    LikeFill(k, like, LikePattern(op, v), StyleOf(d), true);
  }

  /** The case-insensitive forms: PostgreSQL compares upper-cased text;
      INotEquals reads its negation flag the other way round. */
  lemma InsensitiveForms(k: string, op: Operation, v: Value, n: bool, d: Dialect)
    requires op in {IStartsWith, IEndsWith, IContains, IEquals, INotEquals}
    ensures var like := if (op == INotEquals) == n then "LIKE" else "NOT LIKE";
            Sql(Leaf(k, op, v, n), d) ==
              if d == PostgreSQL then "UPPER(" + k + "::text) " + like + " UPPER(" + "?" + ")"
              else if d == SQLite then k + " " + like + " " + "?" + " ESCAPE '\\'"
              else k + " " + like + " " + "?" + ""
  {
    var like := if (op == INotEquals) == n then "LIKE" else "NOT LIKE";
    var p := if op in {IEquals, INotEquals} then v else LikePattern(op, v);
    InsensitiveFragment(k, op, v, n, StyleOf(d), like, p);
    LikeFill(k, like, p, StyleOf(d), false);
  }

  lemma InsensitiveFragment(k: string, op: Operation, v: Value, n: bool, s: Style, like: string, p: Value)
    requires op == IStartsWith || op == IEndsWith || op == IContains || op == IEquals || op == INotEquals
    requires like == if (op == INotEquals) == n then "LIKE" else "NOT LIKE"
    requires p == if op == IEquals || op == INotEquals then v else LikePattern(op, v)
    ensures LeafFragment(k, op, v, n, s) == LikeFragment(k, like, p, s, false)
  {
    match op
    case IEquals =>
    case INotEquals =>
    case IStartsWith | IEndsWith | IContains =>
  }
}
